=== FILE: README.md ===
# Chronos case dashboard — a Dafny model of its data core

Chronos is a police case-management dashboard. The whole application state is one `RawData`
record: tables of cases, detectives, suspects, victims, witnesses, evidence and forensic
analyses, plus join tables linking cases to the people and objects involved in them.

This project models the parts of Chronos that do real data work:

- `processData` in `data.ts`. It turns a `RawData` into the denormalised `ProcessedData` that
  every page reads. That covers enriched people, resolved cases, per-detective and per-suspect
  projections, summary and victim statistics, and the global timeline.
- The CRUD handlers of `App.tsx`: generic create and update, the cascading deletes, and the
  victim, witness and evidence form submissions.
- The case detail page: linking and unlinking, attachment upload and delete, the per-case
  timeline, the pickers of detectives and suspects not yet on the case, and the edit permission.
- The case list page: duration formatting, search and filters, the column sort with its
  severity order, sort toggling, and permissions.
- The dashboard: recent unsolved cases, most wanted, top detectives, the severity and status
  chart buckets, and the chart scale.
- The relationship map: which nodes and edges are drawn around a focal case or suspect.

Everything is immutable data and pure functions. Time is an integer count of milliseconds. The
clock (`today`, `now`) is a parameter, and so are the fixed lookup tables (photos, AI reports)
and the lower-casing function. JavaScript's `Math.round`, `Math.ceil` and `%` are written out
exactly for integer operands (`Numbers.RoundDiv`, `Numbers.CeilDiv`, `Numbers.JsRem`). Every
JavaScript `sort` is modelled as a stable sort on an integer key, as the language guarantees
(`Seqs.SortBy`).

Modules follow the program:

- `Types`: the records of `types.ts`.
- `DataCases`, `DataProjections`, `DataStats`, `DataTimeline` and `Data`: `processData`.
- `AppRecords`, `AppDeletes` and `AppForms`: the `App.tsx` handlers.
- `CaseDetailPage`, `CasesPage`, `DashboardPage`, `RelationshipMapPage` and `Permissions`: the
  pages.
- `Wrappers`, `Numbers`, `Strings` and `Seqs`: general helpers.

Referential integrity (`AppDeletes.Integrity`) says that every join row, testimony and analysis
points at existing records. The source never checks it. The model proves that the following
preserve it with no further condition: every delete, unlinking, the attachment handlers, and
the generic create and update handlers (`handleCreate`, `handleUpdate`) for every record but an
analysis. Three form handlers preserve it only under a condition:
- The victim and evidence forms, when they create a record from a case, need that case to exist.
- The witness form, when used from a case, needs that case to exist. When it also edits an
  existing witness, it needs that witness to exist.

Linking preserves integrity when the case and the linked detective or suspect exist, as the
page's pickers ensure. Analysis forms are not covered.

## Model

| member | source | states |
|---|---|---|
| DataCases.DangerScore | data.ts:253 | The score is the table value for the ten listed suspect ids and 20 otherwise. Every listed id gets its table entry. The score lies in 20..100, and it exceeds 80 exactly for ids 100, 104, 105, 107, 108 and 109. |
| DataCases.VictimStatusOf | data.ts:294-297 | The status index uses JavaScript's truncating `%`. A status exists exactly when the id is non-negative or divisible by 6. For non-negative ids: Viva iff id mod 6 < 4, Desaparecida iff it is 4, Morta iff it is 5. |
| DataCases.EnrichedDetectives | data.ts:265-268 | There is one detective per raw detective, in order, with the same id. |
| DataCases.EnrichedSuspects | data.ts:283-291 | There is one suspect per raw suspect, in order, with the same id. Each one's danger score is `DangerScore` of its id. |
| DataCases.StatusedVictims | data.ts:294-297 | There is one victim per raw victim, in order. Id, age and occupation are kept, and the status is `VictimStatusOf(id)`. |
| DataCases.DaysBetween | data.ts:324-325 | The result is never negative. It is 0 when the end is not after the start; otherwise it is the least number of whole days covering the gap. |
| DataCases.ActiveDays | data.ts:319-335 | Open cases count from the occurrence to today. Resolved cases count from occurrence to closing. Archived cases count from closing to today. Closed cases without a closing date count 0. |
| DataCases.RowsOfCase | data.ts:302-305 | Exactly the join rows of the given case, each kept with its multiplicity. |
| DataCases.LinkedIds | data.ts:302-305 | One id per row of the case; an id occurs exactly when the link row exists. |
| DataCases.SelectByIds | data.ts:341-345 | The records whose id is in the list, in table order, with their multiplicities. |
| DataCases.LinkedTo | data.ts:341-345 | The records a join table links to the case, in table order, each as often as in the table. |
| DataCases.WitnessColumn | data.ts:306-307 | The witness ids of the case's testimony rows. An id occurs exactly when some row of the case names it. |
| DataCases.ColumnOrder | data.ts:306-307 | A witness that comes earlier in the case's witness column has its first row for the case earlier in the table. |
| Seqs.Dedup | data.ts:307 | Each element once, and nothing else. Elements come in the order of their first occurrence in the input. |
| DataCases.WitnessIdsOfCase | data.ts:306-307 | Distinct ids, and an id occurs exactly when some testimony of the case names it. Ids are ordered by the position of their first row for the case. |
| DataCases.TestimoniesOfCounts | data.ts:311-313 | Each statement occurs in a witness's list exactly as often as the matching testimony row. |
| DataCases.TestimoniesAreMatchingRows | data.ts:311-313 | Rebuilding rows from a witness's statements gives exactly the testimony rows of that case and witness, in order. |
| DataCases.WitnessById | data.ts:310 | The first witness with the id, or none when no witness has it. |
| DataCases.CaseWitnesses | data.ts:309-315 | One entry per distinct witness of the case. The record is present iff a witness with that id exists. The statements are exactly that witness's testimony rows for the case, in table order and with every copy. |
| DataCases.ResolveCase | data.ts:301-348 | Scalar fields are copied, and absent attachments become empty. Age is `ActiveDays`. Detectives, suspects, victims and evidence are the enriched records linked to the case, in table order, each as often as in its table. Witnesses come from `CaseWitnesses`. It is a criminal cell iff more than one suspect row exists. |
| DataCases.ResolveCases | data.ts:301-349 | Each raw case is resolved, in order. |
| DataProjections.CasesOfDetective | data.ts:352 | The cases naming the detective, in order, each as often as in the list. |
| DataProjections.Percent | data.ts:355 | Math.round of 100·part/whole: in 0..100, 0 for an empty whole, and otherwise the nearest integer with halves rounding up. |
| DataProjections.DetectiveStatsOf | data.ts:351-357 | The detective's cases, their count, the resolved count (at most the total) and the rounded success percentage, which is 0 without cases. |
| DataProjections.DetectivesWithStats | data.ts:351-357 | One stats record per detective, in order. |
| DataProjections.CasesOfSuspect | data.ts:360-362 | The cases naming the suspect, in order, each as often as in the list. |
| DataProjections.CoSuspectIds | data.ts:368-375 | Every other suspect appearing in one of the given cases. |
| DataProjections.Associates | data.ts:368-376 | The other suspects that share a case with the given one, in table order. Each suspect record appears exactly as often as in the suspect table, or not at all. |
| DataProjections.SuspectWithCasesOf | data.ts:359-380 | Active cases are the suspect's cases still open, with every copy of each such case record. Associates are the other suspects sharing a case with it, in table order, with every copy of each such suspect record. It is a key suspect iff it has more than one active case or any associate, so duplicated case records count toward the flag. |
| DataProjections.SuspectsWithCases | data.ts:359-380 | One record per suspect, in order. |
| DataProjections.AssociatesSymmetric | data.ts:368-376 | b is an associate of a iff a is an associate of b. |
| DataProjections.AssociatesDistinct | data.ts:376 | Associates repeat no one when the suspect table has no duplicates, and a suspect is never its own associate. |
| DataProjections.FirstCaseId | data.ts:383 | The case of the first join row naming the entity, or none if no row does. |
| DataProjections.CaseById | data.ts:384 | The first case with the id, or none when no case has it. |
| DataProjections.FirstLinkedCase | data.ts:383-384 | The case of the entity's first link, if that case exists. A found case is really linked to the entity. |
| DataProjections.VictimsWithCase | data.ts:382-386 | Each victim is paired with its first linked case. |
| DataProjections.EvidencesWithCase | data.ts:395-399 | Each evidence item is paired with its first linked case. |
| DataProjections.WitnessRows | data.ts:389 | All testimony rows of the witness, across cases, with their multiplicities. |
| DataProjections.WitnessWithCaseCountOf | data.ts:388-393 | The case count equals the number of the witness's testimony rows, and the statements are those rows' texts in order. |
| DataProjections.WitnessesWithCaseCount | data.ts:388-393 | One record per witness, in order. |
| DataProjections.CaseCountCountsRows | data.ts:388-389 | For every testimony table, `caseCount` equals the number of rows naming the witness, counted one row at a time. So two statements in the same case count as two cases, because rows are counted and cases are not deduplicated. |
| DataProjections.EvidenceById | data.ts:404 | The first evidence item with the id, or none when no item has it. |
| DataProjections.SuspectByMatch | data.ts:405 | The first suspect whose id is the match. A missing match, or one no suspect has, finds none. |
| DataProjections.ResolveAnalysis | data.ts:401-407 | The analysis is paired with its case, its evidence and its AI report. Its suspect is the first suspect with the matched id, and none when there is no match. |
| DataStats.Average | data.ts:414 | Math.round of total/n, and 0 for n = 0. |
| DataStats.AverageWithin | data.ts:414-417 | The rounded average of values within [lo, hi] stays within [lo, hi]. |
| DataStats.SummaryStats | data.ts:409-417 | Counts of active cases, critical cases and suspects with danger above 80. The average success rate and average active-case age are rounded averages. The rate is in 0..100 when every rate is, and the age is non-negative when every age is. |
| DataStats.RatesAverageBounded | data.ts:413-414 | The average success rate stays in 0..100. |
| DataStats.AgesAverageBounded | data.ts:416-417 | The average age of active cases is never negative. |
| DataStats.Bump | data.ts:435 | Raising one occupation's count adds the name at the end when it is new, and changes no other count. |
| DataStats.TallyFromNames | data.ts:434-435 | Names enter the tally in first-occurrence order. |
| DataStats.TallyFromCounts | data.ts:434-435 | Each name's count grows by its number of occurrences. |
| DataStats.Occupations | data.ts:435 | Only non-empty occupations are listed. Each one occurs once per victim that has it. |
| DataStats.Tally | data.ts:421-435 | One entry per distinct occupation, in first-occurrence order. Its count is the number of victims with that occupation, at least 1. |
| DataStats.CountOfDistinct | data.ts:435 | In a tally without repeated names, looking a name up yields its entry's count. |
| DataStats.CommonOccupations | data.ts:453-456 | The five most common occupations, or all of them if fewer. Counts are non-increasing and names are distinct and non-empty. Each count is that occupation's number of victims. Occupations with equal counts are the ones first seen among the victims, in first-seen order. Every count above a shown one is shown in full. |
| DataStats.CommonOccupationsAreTop | data.ts:453-456 | No occupation left out is more common than one shown. |
| DataStats.AverageAge | data.ts:436-458 | With no victim aged, the mean is 0. Otherwise it is the sum of the ages of the victims that have one, divided by their number and rounded half up. |
| DataStats.AgesOfFiltered | data.ts:436-439 | The ages averaged are exactly those of the victims that have one, in victim order. |
| DataStats.AgesOfAgedVictims | data.ts:436-438 | Exactly the present, non-zero ages are averaged, so bounds on them carry over. At least one is averaged when any victim has an age. |
| DataStats.AverageAgeWithin | data.ts:458 | The average age lies between the least and greatest possible ages. |
| DataStats.AgeBand | data.ts:426-449 | Ages 18-30, 31-45, 46-60 and 61 and over fall into bands 0 to 3. Ages under 18 fall into none. |
| DataStats.AgeDistribution | data.ts:425-461 | The four bands in their fixed order, each with its number of victims. |
| DataStats.AgeBandsCoverAdults | data.ts:442-450 | The band counts add up to the number of adult victims with an age. |
| DataStats.OneBandPerAdult | data.ts:444-448 | An aged adult falls into exactly one band. Anyone else falls into none. |
| DataStats.StatusDistribution | data.ts:424-460 | Viva, Morta and Desaparecida in that order, each with its number of victims. |
| DataStats.StatusesPartitionVictims | data.ts:440 | The three status counts plus the victims without a status make up all victims. |
| DataStats.VictimStatsOf | data.ts:453-461 | At most five occupations are ranked, with non-increasing counts. The three status counts add up to the victims that have a status, and to all victims when none lacks one. The four age bands add up to the adults, who are no more than the victims with an age. With no negative age, the mean age lies between 0 and the oldest age. |
| DataStats.StatusTotals | data.ts:440 | The status counts cover every victim that has a status, and no victim lacks one when all have one. |
| DataStats.AdultsHaveAges | data.ts:442-450 | No more victims fall in a band than have an age. |
| DataStats.AverageAgeBounded | data.ts:458 | With no negative age, the mean age lies between 0 and the oldest age. |
| DataTimeline.EvidenceEventOf | data.ts:475-489 | An evidence item gets an event iff its first link reaches an existing case, and the event names that case. |
| DataTimeline.EvidenceEventsMembers | data.ts:475-489 | The evidence events are exactly the events of evidence items that have one. |
| DataTimeline.EvidenceEventsCount | data.ts:475-489 | There are exactly as many evidence events as evidence items whose first link reaches an existing case. |
| DataTimeline.EvidenceEventsKind | data.ts:480-486 | Every evidence event is of the evidence kind and names an existing case. |
| DataTimeline.TimelineEvents | data.ts:463-491 | One event per case plus one per evidence item whose first link reaches an existing case, as a permutation of the pushed events, ordered by date, with every case's opening event present. |
| DataTimeline.TimelineStable | data.ts:491 | Events with the same date keep their pushed order. |
| Data.ProcessData | data.ts:252-517 | Every output table has one entry per input record, and the timeline has at least one event per case. |
| Data.ProcessDataWrapsPeople | data.ts:283-386 | The i-th suspect and victim output wrap the i-th raw suspect and victim. |
| Data.ProcessDataWrapsRecords | data.ts:388-407 | The i-th witness, evidence and analysis outputs wrap the i-th raw record. |
| Data.ProcessedStatsBounded | data.ts:409-417 | The average success rate is in 0..100 and the average case age is non-negative, for every input. |
| Data.CaseAgesNonNegative | data.ts:319-335 | No case has a negative active age. |
| AppRecords.MaxId | App.tsx:393 | The maximum of a non-empty id list. |
| AppRecords.NextId | App.tsx:393 | The new id is larger than every existing id and so is unused. It is 1 for an empty table, otherwise the maximum plus one. |
| AppRecords.Create | App.tsx:385-396 | The record gets the next id and is appended to its own table. No other table changes. |
| AppRecords.CreatedRecordIsFound | App.tsx:392-395 | Looking up the new id in the table finds the created record. |
| AppRecords.Update | App.tsx:400-412 | Each record with the same id is replaced and the others stay in place. No other table changes. |
| AppRecords.UpdateKeepsIds | App.tsx:407-411 | Updating never changes any table's set of ids. |
| AppRecords.UpdateIdempotent | App.tsx:407-411 | Updating twice with the same record equals updating once. |
| AppRecords.FindById | App.tsx:410 | The first record with the id, or none. |
| AppDeletes.Without | App.tsx:422-428 | Keeps exactly the rows whose key differs from the id, in order and with all their copies. |
| AppDeletes.IdSetWithout | App.tsx:422 | The remaining ids are the old ids minus the deleted one. |
| AppDeletes.DroppedUnique | App.tsx:422-428 | Order and copies pin the result down: only one sequence is a subsequence of the table with exactly the kept rows' multiplicities. |
| AppDeletes.DeleteCase | App.tsx:416-433 | The case and every join row, testimony and analysis of it disappear. Every other row stays, in order and with all its copies. The people and evidence tables are unchanged. |
| AppDeletes.DeleteCaseKeepsIntegrity | App.tsx:420-429 | Deleting a case keeps every remaining reference valid. |
| AppDeletes.DeleteCaseIdempotent | App.tsx:420-429 | Deleting a case twice equals deleting it once. |
| AppDeletes.Unmatch | App.tsx:442 | An analysis matched to the suspect loses the match and returns to Pendente. Others are untouched. |
| AppDeletes.DeleteSuspect | App.tsx:435-447 | The suspect and its case links disappear; the other suspects and links stay, in order and with all their copies. Analyses matching it are reset in place, so none still names it. Nothing else changes. |
| AppDeletes.DeleteSuspectKeepsIntegrity | App.tsx:438-443 | Deleting a suspect keeps every reference valid. |
| AppDeletes.DeleteSuspectIdempotent | App.tsx:438-443 | Deleting a suspect twice equals deleting it once. |
| AppDeletes.DeleteDetective | App.tsx:449-460 | The detective and its case links disappear. The other detectives and links stay, in order and with all their copies. Nothing else changes. |
| AppDeletes.DeleteDetectiveKeepsIntegrity | App.tsx:452-456 | Deleting a detective keeps every reference valid. |
| AppDeletes.DeleteVictim | App.tsx:485-496 | The victim and its case links disappear. The other victims and links stay, in order and with all their copies. Nothing else changes. |
| AppDeletes.DeleteVictimKeepsIntegrity | App.tsx:488-492 | Deleting a victim keeps every reference valid. |
| AppDeletes.DeleteWitness | App.tsx:541-552 | The witness and all its testimonies disappear. The other witnesses and testimonies stay, in order and with all their copies. Nothing else changes. |
| AppDeletes.DeleteWitnessKeepsIntegrity | App.tsx:544-548 | Deleting a witness keeps every reference valid. |
| AppDeletes.DeleteEvidence | App.tsx:583-595 | The evidence item, its case links and its analyses disappear. The other rows stay, in order and with all their copies. Nothing else changes. |
| AppDeletes.DeleteEvidenceKeepsIntegrity | App.tsx:586-591 | Deleting evidence keeps every reference valid. |
| AppDeletes.DeleteAnalysis | App.tsx:597-607 | Only the analyses with the id disappear. The others stay, in order and with all their copies. |
| AppDeletes.DeleteAnalysisKeepsIntegrity | App.tsx:600-603 | Deleting an analysis keeps every reference valid. |
| AppForms.UpdateKeepsIntegrity | App.tsx:400-412 | Updating a person, case or evidence record keeps every reference valid. |
| AppForms.CreateKeepsIntegrity | App.tsx:385-396 | Creating a person, case or evidence record keeps every reference valid. |
| AppForms.VictimSubmit | App.tsx:462-483 | A form with an id updates the victim. Without an id but with a case, the victim gets a fresh id and is appended together with its link to the case. With neither, the victim is created. |
| AppForms.CreatedVictimIsLinked | App.tsx:467-476 | A victim created from a case is in the table and linked to that case. |
| AppForms.VictimSubmitKeepsIntegrity | App.tsx:462-483 | Submitting a victim keeps every reference valid, provided that a victim created from a case names an existing case. |
| AppForms.TestimonyRows | App.tsx:509-526 | One row per non-empty statement of the form, in the form's order, each for the given case and witness. |
| AppForms.OtherTestimonies | App.tsx:506-508 | Every testimony not for this case and witness, in order. |
| AppForms.ReplaceTestimonies | App.tsx:503-515 | Testimonies of other cases or witnesses are unaffected: they stay, in order and with all their copies. |
| AppForms.NonEmpty | App.tsx:513 | The form's non-empty statements, in order, each as often as it was typed. |
| AppForms.ReplacedTestimoniesRead | App.tsx:503-515 | After replacement, the witness's statements for the case read back as exactly the form's non-empty statements. |
| AppForms.WitnessSubmit | App.tsx:498-539 | Editing updates the witness and, when a case and statements are given, replaces its testimonies for that case. Creating from a case appends the witness with a fresh id and its non-empty testimonies. Otherwise the witness is only created. |
| AppForms.WitnessSubmitKeepsIntegrity | App.tsx:498-539 | Submitting a witness keeps every reference valid, provided that a form used from a case names an existing case, and an edit from a case names an existing witness. |
| AppForms.EvidenceSubmit | App.tsx:554-581 | Editing appends a "Descrição atualizada" custody entry and updates. Creating from a case gives a fresh id, an "Evidência criada e vinculada ao caso #n" entry and a link. Otherwise the item is created with an "Evidência criada" entry. |
| AppForms.EditAppendsOneCustodyEntry | App.tsx:558-562 | An edit extends the custody chain by exactly one entry, stamped now, and keeps the old entries. |
| AppForms.EvidenceSubmitKeepsIntegrity | App.tsx:554-581 | Submitting evidence keeps every reference valid, provided that an item created from a case names an existing case. |
| Permissions.CanEdit | pages/CaseDetailPage.tsx:560 | Editing is allowed for every role but Perito Forense. |
| Permissions.CanDelete | pages/CasesPage.tsx:95-96 | Only Delegada Chefe may delete, and whoever may delete may also edit. |
| Permissions.CaseDeleteEnabled | pages/CasesPage.tsx:205 | The delete button is live iff the user is Delegada Chefe and the case is not Crítico. |
| CaseDetailPage.LinkTo | pages/CaseDetailPage.tsx:485-501 | An existing link leaves the data unchanged. A missing link is appended to the detective or suspect join table. Nothing else changes. |
| CaseDetailPage.LinkIdempotent | pages/CaseDetailPage.tsx:494 | Linking twice equals linking once. |
| CaseDetailPage.Unlinked | pages/CaseDetailPage.tsx:525 | Every copy of the link row is removed and all other rows stay, in order. |
| CaseDetailPage.Unlink | pages/CaseDetailPage.tsx:503-528 | After unlinking, the link is gone from its join table, every other row is kept, and nothing else changes. |
| CaseDetailPage.UnlinkIdempotent | pages/CaseDetailPage.tsx:525 | Unlinking twice equals unlinking once. |
| CaseDetailPage.UnlinkUndoesLink | pages/CaseDetailPage.tsx:485-528 | Linking then unlinking equals just unlinking. |
| CaseDetailPage.JoinChangeKeepsIntegrity | pages/CaseDetailPage.tsx:485-528 | Changing one join table, with its rows naming existing records, keeps every reference valid. |
| CaseDetailPage.LinkToKeepsIntegrity | pages/CaseDetailPage.tsx:485-501 | Linking an existing case to an existing detective or suspect keeps every reference valid. |
| CaseDetailPage.UnlinkKeepsIntegrity | pages/CaseDetailPage.tsx:503-528 | Unlinking keeps every reference valid. |
| CaseDetailPage.UploadAnexo | pages/CaseDetailPage.tsx:530-541 | The attachment is appended to the cases with the page's id, with absent lists counting as empty. Other cases and tables are unchanged. |
| CaseDetailPage.WithoutAnexo | pages/CaseDetailPage.tsx:548 | Every attachment with the id is dropped and the rest are kept, in order, each as often as before. |
| CaseDetailPage.DeleteAnexo | pages/CaseDetailPage.tsx:543-554 | Cases with the page's id lose the attachments with that id and keep every other copy in order, and their list becomes present. Other cases and tables are unchanged. |
| CaseDetailPage.AnexoChangesKeepIntegrity | pages/CaseDetailPage.tsx:530-554 | Uploading or deleting an attachment changes no id, so every reference stays valid. |
| CaseDetailPage.DeleteUndoesUpload | pages/CaseDetailPage.tsx:530-554 | Uploading a new attachment and then deleting it restores every case's attachment list. |
| CaseDetailPage.CaseTimeline | pages/CaseDetailPage.tsx:442-474 | One opening event, one per evidence item and one per attachment, as a permutation of the pushed events, ordered by date, with every pushed event present. |
| CaseDetailPage.CaseTimelineStable | pages/CaseDetailPage.tsx:473 | Events with equal dates keep their pushed order. |
| CaseDetailPage.PageTimeline | pages/CaseDetailPage.tsx:437-443 | The page shows the first case with the address's id. An unknown id has an empty timeline; a known one has that case's timeline. |
| CaseDetailPage.AvailableDetectives | pages/CaseDetailPage.tsx:557 | Exactly the detectives not already on the case, in table order, each as often as in the table. |
| CaseDetailPage.AvailableSuspects | pages/CaseDetailPage.tsx:558 | Exactly the suspects not already on the case, in table order, each as often as in the table. |
| CaseDetailPage.AvailableDetectivesPartition | pages/CaseDetailPage.tsx:557 | Every detective is either available or already assigned, never both. |
| CaseDetailPage.AvailableSuspectsPartition | pages/CaseDetailPage.tsx:558 | Every suspect is either available or already assigned, never both. |
| CasesPage.DurationOf | pages/CasesPage.tsx:108-116 | Under 30 days the count is in days. From 30 to 364 it is whole months of 30 days (1 to 12). From 365 on it is whole years of 365 days. |
| CasesPage.FormatDays | pages/CasesPage.tsx:108-116 | The amount in decimal followed by " dia(s)", " mes(es)" or " ano(s)". |
| CasesPage.FormatDaysReadsBack | pages/CasesPage.tsx:108-116 | The digits before the unit parse back to the amount. |
| CasesPage.FilteredCases | pages/CasesPage.tsx:38-52 | The kept cases match the lower-cased term in id, description or city, and every filter that is set. Case order is kept, and each kept case appears as often as in the list. |
| CasesPage.NoCriteriaShowsAll | pages/CasesPage.tsx:42-49 | With an empty search and no filters every case is shown, in order. |
| CasesPage.SeverityRank | pages/CasesPage.tsx:30-36 | Ranks lie in 1..5, with Crítico highest and Baixo lowest. |
| CasesPage.SeverityRankInjective | pages/CasesPage.tsx:30-36 | Different severities have different ranks. |
| CasesPage.StatusRankIsStringOrder | pages/CasesPage.tsx:65-73 | The status rank orders statuses as JavaScript's `<` orders their names. |
| CasesPage.SortCases | pages/CasesPage.tsx:54-78 | The sort is a permutation, left unsorted for the tags key and otherwise sorted by the column. |
| CasesPage.SortCasesOrder | pages/CasesPage.tsx:56-75 | Ascending order gives non-decreasing column values and descending order non-increasing ones. |
| CasesPage.SeveritySortOrder | pages/CasesPage.tsx:57-63 | Sorting by severity orders cases by severity rank. |
| CasesPage.TextSortOrder | pages/CasesPage.tsx:65-73 | Sorting by city or description orders cases lexicographically in the chosen direction. |
| CasesPage.SortCasesStable | pages/CasesPage.tsx:56-75 | Cases with equal column values keep their relative order. |
| CasesPage.ShownCases | pages/CasesPage.tsx:38-79 | The table shows exactly the matching cases, as a permutation of the filtered list. They are sorted by the chosen column and direction, cases tying on it stay in list order, and under `tags` the filtered order is kept. |
| CasesPage.RequestSort | pages/CasesPage.tsx:81-88 | The tags key is ignored. Another key becomes the sort key, descending iff it was already the key in ascending order. |
| CasesPage.RequestSortToggles | pages/CasesPage.tsx:84-87 | Requesting the same key twice flips the direction. |
| DashboardPage.RecentCases | pages/DashboardPage.tsx:84-87 | At most five unsolved cases, each at most as often as in the list, newest first. When fewer than five exist they are all there. No newer unsolved case is left out. Cases of the same date are the earliest of that date in the list, in list order. Every unsolved case newer than a shown one is shown, with every copy. |
| DashboardPage.MostWanted | pages/DashboardPage.tsx:108 | The three most dangerous suspects, or all if fewer, by falling danger. No more dangerous suspect is left out. Suspects of equal danger are the earliest of that danger in the list, in list order. Every suspect more dangerous than a shown one is shown, with every copy. |
| DashboardPage.TopDetectives | pages/DashboardPage.tsx:135 | The two detectives with the best success rate, or all if fewer, by falling rate. No better detective is left out. Detectives of equal rate are the earliest of that rate in the list, in list order. Every detective with a better rate than a shown one is shown, with every copy. |
| DashboardPage.SeverityData | pages/DashboardPage.tsx:160-164 | The five severities in their fixed order, each with the number of cases of that severity. |
| DashboardPage.CountSeverityFilter | pages/DashboardPage.tsx:160-164 | The per-case tally counts exactly the cases of that severity. |
| DashboardPage.SeverityCountsAddUp | pages/DashboardPage.tsx:161-162 | The five severity counts add up to the number of cases. |
| DashboardPage.SeverityBucketsCoverCases | pages/DashboardPage.tsx:160-164 | The severity chart's values add up to the number of cases. |
| DashboardPage.StatusData | pages/DashboardPage.tsx:211-215 | The four statuses in their fixed order, each with the number of cases in that status. |
| DashboardPage.CountStatusFilter | pages/DashboardPage.tsx:211-215 | The per-case tally counts exactly the cases in that status. |
| DashboardPage.StatusCountsAddUp | pages/DashboardPage.tsx:212-213 | The four status counts add up to the number of cases. |
| DashboardPage.StatusBucketsCoverCases | pages/DashboardPage.tsx:211-215 | The status chart's values add up to the number of cases. |
| DashboardPage.MaxCount | pages/DashboardPage.tsx:166 | At least 1 and at least every bucket's value. It is 1 or one of those values. |
| RelationshipMapPage.JsOr | pages/RelationshipMapPage.tsx:100-116 | JavaScript's logical or on optional strings: the first value if it is a non-empty string, else the second. |
| RelationshipMapPage.CaseConnections | pages/RelationshipMapPage.tsx:79-107 | A case's suspects, detectives, victims, witnesses and evidence, in that group order and in list order within each group, each tagged with its kind, and nothing else. |
| RelationshipMapPage.SuspectConnections | pages/RelationshipMapPage.tsx:91-107 | A suspect's cases and then its associates, in list order, and nothing else. |
| RelationshipMapPage.StarGraph | pages/RelationshipMapPage.tsx:97-127 | The central node comes first. Then there is one node per connected entity with a truthy id, in connection order. There is one edge per spoke, from the centre to it. |
| RelationshipMapPage.StarGraphSpokes | pages/RelationshipMapPage.tsx:122-126 | Each edge runs from the centre to its spoke and is named after both ends. |
| RelationshipMapPage.Spokes | pages/RelationshipMapPage.tsx:110-111 | Exactly the connected entities that have a truthy id, in order and with all their copies. |
| RelationshipMapPage.StarGraphCoversConnections | pages/RelationshipMapPage.tsx:107-127 | An entity is drawn as a spoke iff it is connected and has an id. |
| RelationshipMapPage.MapEffect | pages/RelationshipMapPage.tsx:54-129 | A closed modal, a missing focus or data, or an unmounted container clears the graph. A zero-sized container or an unknown focal id leaves it untouched. Otherwise the star graph around the focal case or suspect is set. |
| RelationshipMapPage.DrawnGraphIsCentredOnFocus | pages/RelationshipMapPage.tsx:74-105 | Whenever a graph is set, its centre has the focal id and kind, and each other node has one edge. |

## Left out

- Photos (`foto`), the AI report table and the AI summaries are opaque lookups passed in as `Lookups`. The fixed URL tables and the DiceBear fallback strings are not modelled.
- The clock and date parsing. Instants are integer milliseconds, and `today`/`now` are parameters. `new Date(...)` on ISO strings is not modelled, and the custody timestamp is the instant itself rather than its ISO text.
- Floating point. `Math.round` and `Math.ceil` are modelled exactly on the integer operands the source divides. Float rounding error near halves is not modelled.
- Object.entries order. Occupation counts are assumed to enumerate in insertion order. JavaScript lists integer-like keys such as "123" first, in numeric order.
- DataStats.StatusDistribution: victims whose status is `undefined` (a negative id not divisible by 6) are not counted. The source would add a spurious `undefined: NaN` entry instead.
- CasesPage.FilteredCases: `toLowerCase` is a parameter, not Unicode case mapping.
- CasesPage.TextSortOrder: strings are compared by Dafny's `char` order, not by UTF-16 code units.
- CasesPage.SortCases: the date and duration columns compare integers. The source compares the date column's ISO strings, which order the same way only for well-formed ISO dates.
- Data.ProcessData: the contract states table lengths only. The per-index facts are stated in the lemmas Data.ProcessDataWrapsPeople, Data.ProcessDataWrapsRecords, DataCases.ResolveCases and its neighbours, to keep each proof small.
- AppForms.UpdateKeepsIntegrity: integrity is proved for people, case and evidence records, not for forensic analyses. A created or edited analysis may name any case.
- AppForms.CreateKeepsIntegrity: the same restriction to non-analysis records applies.
- The form modals (splitting the statements textarea on newlines, field validation, image upload) are not part of this model. Their fields arrive as typed records; the victim age is the exception below.
- DataStats.AverageAge: a victim's `idade` is an integer, and `if (v.idade)` is modelled as "not 0". A victim saved through the form keeps the input's text instead, so an age of "0" is truthy and counted in the average as 0, and a fractional age such as "30.5" is averaged but falls in no band. The model covers the integer ages of the seeded data only.
- DataStats.Tally: occupation counts live in a plain object, so for names such as "constructor" or "toString" the lookup finds an inherited member instead of no count and the count becomes text, and "__proto__" is never counted. The model counts every name alike.
- Toast messages, modal open/close state, localStorage persistence, PDF export and the reset button are UI side effects with no data content.
- The relationship map's coordinates (angle, radius, centre) and the container's size are reduced to `Unmounted`, `ZeroSized` and `LaidOut`. Node labels are optional strings, with `undefined` as `None`.
- The global search and the generic table sorts on the suspect, victim, witness and evidence list pages are not part of this model.
- Chart percentages and CSS widths derived from `maxCount` are floating-point presentation.

=== FILE: app_deletes.dfy ===
/** The delete handlers of the application shell and the cascades they perform on the
    join tables and the forensic analyses, with the referential integrity they keep. */
module AppDeletes {
  import opened Wrappers
  import opened Seqs
  import opened Types

  // ---- referential integrity ----

  /** The ids present in a table. */
  function IdSet<T(==)>(s: seq<T>, key: T -> int): set<int> {
    set x | x in s :: key(x)
  }

  predicate LinksInto(rows: seq<Link>, cases: set<int>, entities: set<int>) {
    forall l :: l in rows ==> l.idCaso in cases && l.idEntidade in entities
  }

  predicate TestimoniesInto(rows: seq<Testimony>, cases: set<int>, witnesses: set<int>) {
    forall t :: t in rows ==> t.idCaso in cases && t.idTestemunha in witnesses
  }

  predicate AnalysesInto(rows: seq<RawAnalysis>, cases: set<int>, evidences: set<int>, suspects: set<int>) {
    forall a :: a in rows ==>
      && a.idCaso in cases && a.idEvidencia in evidences
      && (a.idSuspeitoMatch.Some? ==> a.idSuspeitoMatch.value in suspects)
  }

  function CaseIds(raw: RawData): set<int> { IdSet(raw.casesRaw, RawCaseId) }
  function DetectiveIds(raw: RawData): set<int> { IdSet(raw.detectivesRaw, RawDetectiveId) }
  function SuspectIds(raw: RawData): set<int> { IdSet(raw.suspectsRaw, RawSuspectId) }
  function VictimIds(raw: RawData): set<int> { IdSet(raw.victimsRaw, RawVictimId) }
  function EvidenceIds(raw: RawData): set<int> { IdSet(raw.evidencesRaw, EvidenceId) }
  function WitnessIds(raw: RawData): set<int> { IdSet(raw.witnessesRaw, WitnessId) }

  /** Every join row and every analysis names records that exist. */
  predicate Integrity(raw: RawData) {
    && LinksInto(raw.casosDetetives, CaseIds(raw), DetectiveIds(raw))
    && LinksInto(raw.casosSuspeitos, CaseIds(raw), SuspectIds(raw))
    && LinksInto(raw.casosEvidencias, CaseIds(raw), EvidenceIds(raw))
    && LinksInto(raw.casosVitimas, CaseIds(raw), VictimIds(raw))
    && TestimoniesInto(raw.casosTestemunhas, CaseIds(raw), WitnessIds(raw))
    && AnalysesInto(raw.forenseAnalysesRaw, CaseIds(raw), EvidenceIds(raw), SuspectIds(raw))
  }

  // ---- row selectors ----

  function RawCaseId(c: RawCase): int { c.id }
  function RawDetectiveId(d: RawDetective): int { d.id }
  function RawSuspectId(s: RawSuspect): int { s.id }
  function RawVictimId(v: RawVictim): int { v.id }
  function AnalysisId(a: RawAnalysis): int { a.id }
  function AnalysisCase(a: RawAnalysis): int { a.idCaso }
  function AnalysisEvidence(a: RawAnalysis): int { a.idEvidencia }
  function LinkCase(l: Link): int { l.idCaso }
  function LinkEntity(l: Link): int { l.idEntidade }
  function TestimonyCase(t: Testimony): int { t.idCaso }
  function TestimonyWitness(t: Testimony): int { t.idTestemunha }

  /** `r` is `s` with the rows keyed `id` dropped: the other rows stay in their order and
      with all their copies, and no row keyed `id` is left. */
  ghost predicate Dropped<T(!new)>(r: seq<T>, s: seq<T>, key: T -> int, id: int) {
    && IsSubseq(r, s)
    && forall x :: multiset(r)[x] == if key(x) != id then multiset(s)[x] else 0
  }

  /** `Dropped` leaves no choice: at most one sequence is `s` with the rows keyed `id` dropped. */
  lemma {:induction false} DroppedUnique<T(!new)>(r1: seq<T>, r2: seq<T>, s: seq<T>, key: T -> int, id: int)
    requires Dropped(r1, s, key, id) && Dropped(r2, s, key, id)
    ensures r1 == r2
    decreases |s|
  {
    if s == [] {
      assert r1 == [] && r2 == [];
    } else {
      var h, t := s[0], s[1..];
      assert s == [h] + t;
      DroppedStep(r1, s, key, id);
      DroppedStep(r2, s, key, id);
      if key(h) != id {
        DroppedUnique(r1[1..], r2[1..], t, key, id);
        assert r1 == [h] + r1[1..] && r2 == [h] + r2[1..];
      } else {
        DroppedUnique(r1, r2, t, key, id);
      }
    }
  }

  /** One step of `DroppedUnique`: a kept head leads the result, a dropped head is absent. */
  lemma DroppedStep<T(!new)>(r: seq<T>, s: seq<T>, key: T -> int, id: int)
    requires s != [] && Dropped(r, s, key, id)
    ensures key(s[0]) != id ==> r != [] && r[0] == s[0] && Dropped(r[1..], s[1..], key, id)
    ensures key(s[0]) == id ==> Dropped(r, s[1..], key, id)
  {
    var h, t := s[0], s[1..];
    assert s == [h] + t;
    assert multiset(s) == multiset{h} + multiset(t);
    if key(h) != id {
      assert multiset(r)[h] == multiset(s)[h] >= 1;
      assert r != [];
      if !(r[0] == h && IsSubseq(r[1..], t)) {
        assert IsSubseq(r, t);
        SubseqMultiset(r, t);
        assert false;
      }
      assert r == [h] + r[1..];
      assert multiset(r) == multiset{h} + multiset(r[1..]);
    } else {
      if r != [] {
        assert r[0] in r;
        assert multiset(r)[r[0]] > 0;
      }
      assert IsSubseq(r, t);
    }
  }

  /** `s.filter(x => key(x) !== id)`. */
  function Without<T(==,!new)>(s: seq<T>, key: T -> int, id: int): (r: seq<T>)
    ensures Dropped(r, s, key, id)
    ensures forall x :: x in r <==> x in s && key(x) != id
  {
    Filter(s, (x: T) => key(x) != id)
  }

  /** Removing by key removes exactly that key from the id set. */
  lemma IdSetWithout<T(!new)>(s: seq<T>, key: T -> int, id: int)
    ensures IdSet(Without(s, key, id), key) == IdSet(s, key) - {id}
  {
    var r := Without(s, key, id);
    forall k | k in IdSet(s, key) - {id}
      ensures k in IdSet(r, key)
    {
      var x :| x in s && key(x) == k;
      assert x in r;
    }
  }

  /** Removing twice removes nothing more. */
  lemma WithoutIdempotent<T(!new)>(s: seq<T>, key: T -> int, id: int)
    ensures Without(Without(s, key, id), key, id) == Without(s, key, id)
  {
    FilterIdempotent(s, (x: T) => key(x) != id);
  }

  // ---- cascades ----

  /** `handleDeleteCase`: the case goes, with every join row and analysis naming it. */
  function DeleteCase(raw: RawData, caseId: int): (r: RawData)
    ensures forall c :: c in r.casesRaw <==> c in raw.casesRaw && c.id != caseId
    ensures forall l :: l in r.casosDetetives <==> l in raw.casosDetetives && l.idCaso != caseId
    ensures forall l :: l in r.casosSuspeitos <==> l in raw.casosSuspeitos && l.idCaso != caseId
    ensures forall l :: l in r.casosEvidencias <==> l in raw.casosEvidencias && l.idCaso != caseId
    ensures forall l :: l in r.casosVitimas <==> l in raw.casosVitimas && l.idCaso != caseId
    ensures forall t :: t in r.casosTestemunhas <==> t in raw.casosTestemunhas && t.idCaso != caseId
    ensures forall a :: a in r.forenseAnalysesRaw <==> a in raw.forenseAnalysesRaw && a.idCaso != caseId
    ensures Dropped(r.casesRaw, raw.casesRaw, RawCaseId, caseId)
    ensures Dropped(r.casosDetetives, raw.casosDetetives, LinkCase, caseId)
    ensures Dropped(r.casosSuspeitos, raw.casosSuspeitos, LinkCase, caseId)
    ensures Dropped(r.casosEvidencias, raw.casosEvidencias, LinkCase, caseId)
    ensures Dropped(r.casosVitimas, raw.casosVitimas, LinkCase, caseId)
    ensures Dropped(r.casosTestemunhas, raw.casosTestemunhas, TestimonyCase, caseId)
    ensures Dropped(r.forenseAnalysesRaw, raw.forenseAnalysesRaw, AnalysisCase, caseId)
    ensures r.detectivesRaw == raw.detectivesRaw && r.suspectsRaw == raw.suspectsRaw
    ensures r.victimsRaw == raw.victimsRaw && r.evidencesRaw == raw.evidencesRaw
    ensures r.witnessesRaw == raw.witnessesRaw
  {
    raw.(casesRaw := Without(raw.casesRaw, RawCaseId, caseId),
         casosDetetives := Without(raw.casosDetetives, LinkCase, caseId),
         casosSuspeitos := Without(raw.casosSuspeitos, LinkCase, caseId),
         casosEvidencias := Without(raw.casosEvidencias, LinkCase, caseId),
         casosVitimas := Without(raw.casosVitimas, LinkCase, caseId),
         casosTestemunhas := Without(raw.casosTestemunhas, TestimonyCase, caseId),
         forenseAnalysesRaw := Without(raw.forenseAnalysesRaw, AnalysisCase, caseId))
  }

  lemma DeleteCaseKeepsIntegrity(raw: RawData, caseId: int)
    requires Integrity(raw)
    ensures Integrity(DeleteCase(raw, caseId))
  {
    var r := DeleteCase(raw, caseId);
    IdSetWithout(raw.casesRaw, RawCaseId, caseId);
    var cs := CaseIds(raw);
    assert CaseIds(r) == cs - {caseId};
    LinksWithoutCase(raw.casosDetetives, cs, DetectiveIds(raw), caseId);
    LinksWithoutCase(raw.casosSuspeitos, cs, SuspectIds(raw), caseId);
    LinksWithoutCase(raw.casosEvidencias, cs, EvidenceIds(raw), caseId);
    LinksWithoutCase(raw.casosVitimas, cs, VictimIds(raw), caseId);
    assert TestimoniesInto(r.casosTestemunhas, CaseIds(r), WitnessIds(r));
    assert AnalysesInto(r.forenseAnalysesRaw, CaseIds(r), EvidenceIds(r), SuspectIds(r));
  }

  lemma LinksWithoutCase(rows: seq<Link>, cases: set<int>, entities: set<int>, caseId: int)
    requires LinksInto(rows, cases, entities)
    ensures LinksInto(Without(rows, LinkCase, caseId), cases - {caseId}, entities)
  {
  }



  lemma DeleteCaseIdempotent(raw: RawData, caseId: int)
    ensures DeleteCase(DeleteCase(raw, caseId), caseId) == DeleteCase(raw, caseId)
  {
    WithoutIdempotent(raw.casesRaw, RawCaseId, caseId);
    WithoutIdempotent(raw.casosDetetives, LinkCase, caseId);
    WithoutIdempotent(raw.casosSuspeitos, LinkCase, caseId);
    WithoutIdempotent(raw.casosEvidencias, LinkCase, caseId);
    WithoutIdempotent(raw.casosVitimas, LinkCase, caseId);
    WithoutIdempotent(raw.casosTestemunhas, TestimonyCase, caseId);
    WithoutIdempotent(raw.forenseAnalysesRaw, AnalysisCase, caseId);
  }

  /** An analysis that matched the deleted suspect loses the match and returns to pending. */
  function Unmatch(a: RawAnalysis, suspectId: int): (b: RawAnalysis)
    ensures a.idSuspeitoMatch == Some(suspectId) ==> b == a.(idSuspeitoMatch := None, status := Pendente)
    ensures a.idSuspeitoMatch != Some(suspectId) ==> b == a
  {
    if a.idSuspeitoMatch == Some(suspectId) then a.(idSuspeitoMatch := None, status := Pendente) else a
  }

  /** `handleDeleteSuspect`: the suspect and its case links go; analyses matching it are
      kept but unmatched. */
  function DeleteSuspect(raw: RawData, suspectId: int): (r: RawData)
    ensures forall s :: s in r.suspectsRaw <==> s in raw.suspectsRaw && s.id != suspectId
    ensures forall l :: l in r.casosSuspeitos <==> l in raw.casosSuspeitos && l.idEntidade != suspectId
    ensures Dropped(r.suspectsRaw, raw.suspectsRaw, RawSuspectId, suspectId)
    ensures Dropped(r.casosSuspeitos, raw.casosSuspeitos, LinkEntity, suspectId)
    ensures |r.forenseAnalysesRaw| == |raw.forenseAnalysesRaw|
    ensures forall i :: 0 <= i < |r.forenseAnalysesRaw| ==>
              r.forenseAnalysesRaw[i] == Unmatch(raw.forenseAnalysesRaw[i], suspectId)
    ensures forall a :: a in r.forenseAnalysesRaw ==> a.idSuspeitoMatch != Some(suspectId)
    ensures r.casesRaw == raw.casesRaw && r.detectivesRaw == raw.detectivesRaw
    ensures r.victimsRaw == raw.victimsRaw && r.evidencesRaw == raw.evidencesRaw
    ensures r.witnessesRaw == raw.witnessesRaw
    ensures r.casosDetetives == raw.casosDetetives && r.casosEvidencias == raw.casosEvidencias
    ensures r.casosVitimas == raw.casosVitimas && r.casosTestemunhas == raw.casosTestemunhas
  {
    raw.(suspectsRaw := Without(raw.suspectsRaw, RawSuspectId, suspectId),
         casosSuspeitos := Without(raw.casosSuspeitos, LinkEntity, suspectId),
         forenseAnalysesRaw := Map((a: RawAnalysis) => Unmatch(a, suspectId), raw.forenseAnalysesRaw))
  }

  lemma DeleteSuspectKeepsIntegrity(raw: RawData, suspectId: int)
    requires Integrity(raw)
    ensures Integrity(DeleteSuspect(raw, suspectId))
  {
    IdSetWithout(raw.suspectsRaw, RawSuspectId, suspectId);
    var r := DeleteSuspect(raw, suspectId);
    forall a | a in r.forenseAnalysesRaw
      ensures a.idCaso in CaseIds(r) && a.idEvidencia in EvidenceIds(r)
      ensures a.idSuspeitoMatch.Some? ==> a.idSuspeitoMatch.value in SuspectIds(r)
    {
      var i :| 0 <= i < |r.forenseAnalysesRaw| && r.forenseAnalysesRaw[i] == a;
      assert raw.forenseAnalysesRaw[i] in raw.forenseAnalysesRaw;
    }
  }


  /** Deleting a suspect twice has the effect of deleting it once. */
  lemma DeleteSuspectIdempotent(raw: RawData, suspectId: int)
    ensures DeleteSuspect(DeleteSuspect(raw, suspectId), suspectId) == DeleteSuspect(raw, suspectId)
  {
    WithoutIdempotent(raw.suspectsRaw, RawSuspectId, suspectId);
    WithoutIdempotent(raw.casosSuspeitos, LinkEntity, suspectId);
    var once := DeleteSuspect(raw, suspectId);
    var twice := DeleteSuspect(once, suspectId);
    assert twice.forenseAnalysesRaw == once.forenseAnalysesRaw;
  }

  /** `handleDeleteDetective`: the detective and its case links go. */
  function DeleteDetective(raw: RawData, detectiveId: int): (r: RawData)
    ensures forall d :: d in r.detectivesRaw <==> d in raw.detectivesRaw && d.id != detectiveId
    ensures forall l :: l in r.casosDetetives <==> l in raw.casosDetetives && l.idEntidade != detectiveId
    ensures Dropped(r.detectivesRaw, raw.detectivesRaw, RawDetectiveId, detectiveId)
    ensures Dropped(r.casosDetetives, raw.casosDetetives, LinkEntity, detectiveId)
    ensures r == raw.(detectivesRaw := r.detectivesRaw, casosDetetives := r.casosDetetives)
  {
    raw.(detectivesRaw := Without(raw.detectivesRaw, RawDetectiveId, detectiveId),
         casosDetetives := Without(raw.casosDetetives, LinkEntity, detectiveId))
  }

  lemma DeleteDetectiveKeepsIntegrity(raw: RawData, detectiveId: int)
    requires Integrity(raw)
    ensures Integrity(DeleteDetective(raw, detectiveId))
  {
    IdSetWithout(raw.detectivesRaw, RawDetectiveId, detectiveId);
  }


  /** `handleDeleteVictim`: the victim and its case links go. */
  function DeleteVictim(raw: RawData, victimId: int): (r: RawData)
    ensures forall v :: v in r.victimsRaw <==> v in raw.victimsRaw && v.id != victimId
    ensures forall l :: l in r.casosVitimas <==> l in raw.casosVitimas && l.idEntidade != victimId
    ensures Dropped(r.victimsRaw, raw.victimsRaw, RawVictimId, victimId)
    ensures Dropped(r.casosVitimas, raw.casosVitimas, LinkEntity, victimId)
    ensures r == raw.(victimsRaw := r.victimsRaw, casosVitimas := r.casosVitimas)
  {
    raw.(victimsRaw := Without(raw.victimsRaw, RawVictimId, victimId),
         casosVitimas := Without(raw.casosVitimas, LinkEntity, victimId))
  }

  lemma DeleteVictimKeepsIntegrity(raw: RawData, victimId: int)
    requires Integrity(raw)
    ensures Integrity(DeleteVictim(raw, victimId))
  {
    IdSetWithout(raw.victimsRaw, RawVictimId, victimId);
  }


  /** `handleDeleteWitness`: the witness and all its testimonies go. */
  function DeleteWitness(raw: RawData, witnessId: int): (r: RawData)
    ensures forall w :: w in r.witnessesRaw <==> w in raw.witnessesRaw && w.id != witnessId
    ensures forall t :: t in r.casosTestemunhas <==> t in raw.casosTestemunhas && t.idTestemunha != witnessId
    ensures Dropped(r.witnessesRaw, raw.witnessesRaw, WitnessId, witnessId)
    ensures Dropped(r.casosTestemunhas, raw.casosTestemunhas, TestimonyWitness, witnessId)
    ensures r == raw.(witnessesRaw := r.witnessesRaw, casosTestemunhas := r.casosTestemunhas)
  {
    raw.(witnessesRaw := Without(raw.witnessesRaw, WitnessId, witnessId),
         casosTestemunhas := Without(raw.casosTestemunhas, TestimonyWitness, witnessId))
  }

  lemma DeleteWitnessKeepsIntegrity(raw: RawData, witnessId: int)
    requires Integrity(raw)
    ensures Integrity(DeleteWitness(raw, witnessId))
  {
    IdSetWithout(raw.witnessesRaw, WitnessId, witnessId);
  }


  /** `handleDeleteEvidence`: the item, its case links and the analyses of it go. */
  function DeleteEvidence(raw: RawData, evidenceId: int): (r: RawData)
    ensures forall e :: e in r.evidencesRaw <==> e in raw.evidencesRaw && e.id != evidenceId
    ensures forall l :: l in r.casosEvidencias <==> l in raw.casosEvidencias && l.idEntidade != evidenceId
    ensures forall a :: a in r.forenseAnalysesRaw <==> a in raw.forenseAnalysesRaw && a.idEvidencia != evidenceId
    ensures Dropped(r.evidencesRaw, raw.evidencesRaw, EvidenceId, evidenceId)
    ensures Dropped(r.casosEvidencias, raw.casosEvidencias, LinkEntity, evidenceId)
    ensures Dropped(r.forenseAnalysesRaw, raw.forenseAnalysesRaw, AnalysisEvidence, evidenceId)
    ensures r == raw.(evidencesRaw := r.evidencesRaw, casosEvidencias := r.casosEvidencias,
                      forenseAnalysesRaw := r.forenseAnalysesRaw)
  {
    raw.(evidencesRaw := Without(raw.evidencesRaw, EvidenceId, evidenceId),
         casosEvidencias := Without(raw.casosEvidencias, LinkEntity, evidenceId),
         forenseAnalysesRaw := Without(raw.forenseAnalysesRaw, AnalysisEvidence, evidenceId))
  }

  lemma DeleteEvidenceKeepsIntegrity(raw: RawData, evidenceId: int)
    requires Integrity(raw)
    ensures Integrity(DeleteEvidence(raw, evidenceId))
  {
    IdSetWithout(raw.evidencesRaw, EvidenceId, evidenceId);
  }


  /** `handleDeleteForenseAnalysis`: only the analysis goes; nothing refers to it. */
  function DeleteAnalysis(raw: RawData, analysisId: int): (r: RawData)
    ensures forall a :: a in r.forenseAnalysesRaw <==> a in raw.forenseAnalysesRaw && a.id != analysisId
    ensures Dropped(r.forenseAnalysesRaw, raw.forenseAnalysesRaw, AnalysisId, analysisId)
    ensures r == raw.(forenseAnalysesRaw := r.forenseAnalysesRaw)
  {
    raw.(forenseAnalysesRaw := Without(raw.forenseAnalysesRaw, AnalysisId, analysisId))
  }

  lemma DeleteAnalysisKeepsIntegrity(raw: RawData, analysisId: int)
    requires Integrity(raw)
    ensures Integrity(DeleteAnalysis(raw, analysisId))
  {
  }
}

=== FILE: app_forms.dfy ===
/** The submit handlers of the victim, witness and evidence forms, and the proof that
    every handler of the application shell keeps the stored data referentially intact. */
module AppForms {
  import opened Wrappers
  import opened Seqs
  import opened Types
  import opened Strings
  import opened DataCases
  import opened AppRecords
  import opened AppDeletes

  // ---- integrity under create and update ----

  /** The ids of a table as a set. */
  function ColumnSet(raw: RawData, t: Table): set<int> {
    set x | x in Ids(raw, t)
  }

  lemma IdSetOfColumn<T(!new)>(s: seq<T>, key: T -> int, ids: seq<int>)
    requires |ids| == |s|
    requires forall i :: 0 <= i < |s| ==> ids[i] == key(s[i])
    ensures IdSet(s, key) == set x | x in ids
  {
    forall k | k in IdSet(s, key)
      ensures k in ids
    {
      var x :| x in s && key(x) == k;
      var i :| 0 <= i < |s| && s[i] == x;
      assert ids[i] == k;
    }
    forall k | k in ids
      ensures k in IdSet(s, key)
    {
      var i :| 0 <= i < |ids| && ids[i] == k;
      assert s[i] in s;
    }
  }

  /** The id sets integrity speaks of are the tables' id columns. */
  lemma IdSetsAreColumns(raw: RawData)
    ensures CaseIds(raw) == ColumnSet(raw, Cases)
    ensures DetectiveIds(raw) == ColumnSet(raw, Detectives)
    ensures SuspectIds(raw) == ColumnSet(raw, Suspects)
    ensures VictimIds(raw) == ColumnSet(raw, Victims)
    ensures EvidenceIds(raw) == ColumnSet(raw, Evidences)
    ensures WitnessIds(raw) == ColumnSet(raw, Witnesses)
  {
    IdSetOfColumn(raw.casesRaw, RawCaseId, Ids(raw, Cases));
    IdSetOfColumn(raw.detectivesRaw, RawDetectiveId, Ids(raw, Detectives));
    IdSetOfColumn(raw.suspectsRaw, RawSuspectId, Ids(raw, Suspects));
    IdSetOfColumn(raw.victimsRaw, RawVictimId, Ids(raw, Victims));
    IdSetOfColumn(raw.evidencesRaw, EvidenceId, Ids(raw, Evidences));
    IdSetOfColumn(raw.witnessesRaw, WitnessId, Ids(raw, Witnesses));
  }

  /** Integrity survives any change that keeps the join rows and analyses and loses no id. */
  lemma IntegrityWhenIdsGrow(a: RawData, b: RawData)
    requires Integrity(a)
    requires JoinsUnchanged(a, b) && a.forenseAnalysesRaw == b.forenseAnalysesRaw
    requires forall t :: t != Analyses ==> ColumnSet(a, t) <= ColumnSet(b, t)
    ensures Integrity(b)
  {
    IdSetsAreColumns(a);
    IdSetsAreColumns(b);
    assert ColumnSet(a, Cases) <= ColumnSet(b, Cases);
    assert ColumnSet(a, Detectives) <= ColumnSet(b, Detectives);
    assert ColumnSet(a, Suspects) <= ColumnSet(b, Suspects);
    assert ColumnSet(a, Victims) <= ColumnSet(b, Victims);
    assert ColumnSet(a, Evidences) <= ColumnSet(b, Evidences);
    assert ColumnSet(a, Witnesses) <= ColumnSet(b, Witnesses);
  }

  /** Editing any record other than an analysis keeps integrity: ids do not change. */
  lemma UpdateKeepsIntegrity(raw: RawData, rec: Record)
    requires Integrity(raw)
    requires TableOf(rec) != Analyses
    ensures Integrity(Update(raw, rec))
  {
    forall t | t != Analyses
      ensures ColumnSet(raw, t) <= ColumnSet(Update(raw, rec), t)
    {
      UpdateKeepsIds(raw, rec, t);
    }
    IntegrityWhenIdsGrow(raw, Update(raw, rec));
  }

  /** Creating any record other than an analysis keeps integrity: ids are only added. */
  lemma CreateKeepsIntegrity(raw: RawData, rec: Record)
    requires Integrity(raw)
    requires TableOf(rec) != Analyses
    ensures Integrity(Create(raw, rec))
  {
    var r := Create(raw, rec);
    forall t | t != Analyses
      ensures ColumnSet(raw, t) <= ColumnSet(r, t)
    {
      if t == TableOf(rec) {
        var extra := [WithId(rec, FreshId(raw, t))];
        MapConcat(RecordId, RecordsOf(raw, t), extra);
      } else {
        assert RecordsOf(r, t) == RecordsOf(raw, t);
      }
    }
    IntegrityWhenIdsGrow(raw, r);
  }

  // ---- victims ----

  /** The victim form: the record (id 0 when new) and the case it is added from (0 when
      none). */
  datatype VictimForm = VictimForm(victim: RawVictim, caseId: int)

  /** `handleVictimSubmit`: a record with an id is an edit; a new one submitted from a case
      is created and linked to it; otherwise it is only created. */
  function VictimSubmit(raw: RawData, f: VictimForm): (r: RawData)
    ensures f.victim.id != 0 ==> r == Update(raw, VictimRec(f.victim))
    ensures f.victim.id == 0 && f.caseId == 0 ==> r == Create(raw, VictimRec(f.victim))
    ensures f.victim.id == 0 && f.caseId != 0 ==>
              var n := FreshId(raw, Victims);
              && n !in Ids(raw, Victims)
              && r.victimsRaw == raw.victimsRaw + [f.victim.(id := n)]
              && r.casosVitimas == raw.casosVitimas + [Link(f.caseId, n)]
              && r == raw.(victimsRaw := r.victimsRaw, casosVitimas := r.casosVitimas)
  {
    if f.victim.id != 0 then Update(raw, VictimRec(f.victim))
    else if f.caseId != 0 then
      var n := FreshId(raw, Victims);
      raw.(victimsRaw := raw.victimsRaw + [f.victim.(id := n)],
           casosVitimas := raw.casosVitimas + [Link(f.caseId, n)])
    else Create(raw, VictimRec(f.victim))
  }

  /** A victim created from a case shows up among that case's victims. */
  lemma CreatedVictimIsLinked(raw: RawData, f: VictimForm)
    requires f.victim.id == 0 && f.caseId != 0
    ensures FreshId(raw, Victims) in LinkedIds(VictimSubmit(raw, f).casosVitimas, f.caseId)
    ensures f.victim.(id := FreshId(raw, Victims)) in VictimSubmit(raw, f).victimsRaw
  {
  }

  /** Submitting the victim form keeps integrity when the case it names exists. */
  lemma VictimSubmitKeepsIntegrity(raw: RawData, f: VictimForm)
    requires Integrity(raw)
    requires f.victim.id == 0 && f.caseId != 0 ==> f.caseId in CaseIds(raw)
    ensures Integrity(VictimSubmit(raw, f))
  {
    if f.victim.id != 0 {
      UpdateKeepsIntegrity(raw, VictimRec(f.victim));
    } else if f.caseId == 0 {
      CreateKeepsIntegrity(raw, VictimRec(f.victim));
    } else {
      var r := VictimSubmit(raw, f);
      var v := f.victim.(id := FreshId(raw, Victims));
      assert VictimIds(r) == VictimIds(raw) + {v.id} by {
        assert v in r.victimsRaw;
      }
    }
  }

  // ---- witnesses ----

  /** The witness form: the record (id 0 when new), the testimonies typed in (absent when
      the form had none) and the case it is used from (0 when none). */
  datatype WitnessForm = WitnessForm(testemunha: Witness, depoimentos: Option<seq<string>>, caseId: int)

  function HasText(t: Testimony): bool {
    t.depoimento != ""
  }

  /** The non-empty testimonies of the form as rows of one case and witness. */
  function TestimonyRows(caseId: int, witnessId: int, ds: seq<string>): (r: seq<Testimony>)
    ensures forall t :: t in r <==> t.idCaso == caseId && t.idTestemunha == witnessId
                                    && t.depoimento != "" && t.depoimento in ds
    ensures |r| == |NonEmpty(ds)|
    ensures forall i :: 0 <= i < |r| ==> r[i] == Testimony(caseId, witnessId, NonEmpty(ds)[i])
    decreases |ds|
  {
    if ds == [] then []
    else
      var rest := TestimonyRows(caseId, witnessId, ds[1..]);
      assert forall d :: d in ds <==> d == ds[0] || d in ds[1..];
      NonEmptyCons(ds);
      if ds[0] != "" then [Testimony(caseId, witnessId, ds[0])] + rest else rest
  }

  /** Whether a row belongs to some other case or witness than the pair edited. */
  function OtherPair(caseId: int, witnessId: int): Testimony -> bool {
    (t: Testimony) => !(t.idCaso == caseId && t.idTestemunha == witnessId)
  }

  /** The rows of every other case or witness. */
  function OtherTestimonies(rows: seq<Testimony>, caseId: int, witnessId: int): (r: seq<Testimony>)
    ensures forall t :: t in r <==> t in rows && !(t.idCaso == caseId && t.idTestemunha == witnessId)
    ensures IsSubseq(r, rows)
  {
    Filter(rows, OtherPair(caseId, witnessId))
  }

  /** Replaces a witness's testimonies in one case by the non-empty ones given. The rows of
      every other case or witness come out as they went in: same order, same copies. */
  function ReplaceTestimonies(rows: seq<Testimony>, caseId: int, witnessId: int, ds: seq<string>): (r: seq<Testimony>)
    ensures forall t :: t in r && !(t.idCaso == caseId && t.idTestemunha == witnessId) <==>
                        t in rows && !(t.idCaso == caseId && t.idTestemunha == witnessId)
    ensures Filter(r, OtherPair(caseId, witnessId)) == Filter(rows, OtherPair(caseId, witnessId))
  {
    var p := OtherPair(caseId, witnessId);
    var added := TestimonyRows(caseId, witnessId, ds);
    FilterConcat(Filter(rows, p), added, p);
    FilterIdempotent(rows, p);
    NoneSelected(added, p);
    OtherTestimonies(rows, caseId, witnessId) + added
  }

  /** Filtering keeps nothing when no element passes. */
  lemma NoneSelected<T(!new)>(s: seq<T>, p: T -> bool)
    requires forall x :: x in s ==> !p(x)
    ensures Filter(s, p) == []
  {
  }

  /** The statements typed in, without the empty ones: same order, same copies. */
  function NonEmpty(ds: seq<string>): (r: seq<string>)
    ensures forall d :: d in r <==> d in ds && d != ""
    ensures forall d :: multiset(r)[d] == if d != "" then multiset(ds)[d] else 0
    ensures IsSubseq(r, ds)
  {
    Filter(ds, (d: string) => d != "")
  }

  lemma NonEmptyCons(ds: seq<string>)
    requires ds != []
    ensures NonEmpty(ds) == (if ds[0] != "" then [ds[0]] else []) + NonEmpty(ds[1..])
  {
  }

  lemma {:induction false} TestimoniesOfConcat(a: seq<Testimony>, b: seq<Testimony>, caseId: int, witnessId: int)
    ensures TestimoniesOf(a + b, caseId, witnessId) == TestimoniesOf(a, caseId, witnessId) + TestimoniesOf(b, caseId, witnessId)
    decreases |a|
  {
    if a != [] {
      var head := if a[0].idCaso == caseId && a[0].idTestemunha == witnessId then [a[0].depoimento] else [];
      var ab := a + b;
      assert ab[0] == a[0];
      assert ab[1..] == a[1..] + b;
      assert TestimoniesOf(ab, caseId, witnessId) == head + TestimoniesOf(ab[1..], caseId, witnessId);
      assert TestimoniesOf(a, caseId, witnessId) == head + TestimoniesOf(a[1..], caseId, witnessId);
      TestimoniesOfConcat(a[1..], b, caseId, witnessId);
      assert head + (TestimoniesOf(a[1..], caseId, witnessId) + TestimoniesOf(b, caseId, witnessId))
          == (head + TestimoniesOf(a[1..], caseId, witnessId)) + TestimoniesOf(b, caseId, witnessId);
    } else {
      assert a + b == b;
    }
  }

  lemma {:induction false} TestimoniesOfOthers(rows: seq<Testimony>, caseId: int, witnessId: int)
    requires forall t :: t in rows ==> !(t.idCaso == caseId && t.idTestemunha == witnessId)
    ensures TestimoniesOf(rows, caseId, witnessId) == []
    decreases |rows|
  {
    if rows != [] {
      assert rows[0] in rows;
      assert forall t :: t in rows[1..] ==> t in rows;
      TestimoniesOfOthers(rows[1..], caseId, witnessId);
    }
  }

  lemma {:induction false} TestimoniesOfNew(caseId: int, witnessId: int, ds: seq<string>)
    ensures TestimoniesOf(TestimonyRows(caseId, witnessId, ds), caseId, witnessId) == NonEmpty(ds)
    decreases |ds|
  {
    if ds != [] {
      TestimoniesOfNew(caseId, witnessId, ds[1..]);
      var rest := TestimonyRows(caseId, witnessId, ds[1..]);
      if ds[0] != "" {
        assert ([Testimony(caseId, witnessId, ds[0])] + rest)[1..] == rest;
      }
    }
  }

  /** After the edit, the case shows exactly the non-empty testimonies typed in, in order. */
  lemma ReplacedTestimoniesRead(rows: seq<Testimony>, caseId: int, witnessId: int, ds: seq<string>)
    ensures TestimoniesOf(ReplaceTestimonies(rows, caseId, witnessId, ds), caseId, witnessId) == NonEmpty(ds)
  {
    var others := OtherTestimonies(rows, caseId, witnessId);
    TestimoniesOfConcat(others, TestimonyRows(caseId, witnessId, ds), caseId, witnessId);
    TestimoniesOfOthers(others, caseId, witnessId);
    TestimoniesOfNew(caseId, witnessId, ds);
  }

  /** `handleWitnessSubmit`. An edit updates the witness and, when made from a case with
      testimonies, replaces its testimonies in that case; a new witness submitted from a
      case is created with its testimonies there; otherwise it is only created. */
  function WitnessSubmit(raw: RawData, f: WitnessForm): (r: RawData)
    ensures f.testemunha.id != 0 ==>
              var edited := Update(raw, WitnessRec(f.testemunha));
              if f.caseId != 0 && f.depoimentos.Some? then
                r == edited.(casosTestemunhas := ReplaceTestimonies(raw.casosTestemunhas, f.caseId,
                                                                     f.testemunha.id, f.depoimentos.value))
              else r == edited
    ensures f.testemunha.id == 0 && f.caseId == 0 ==> r == Create(raw, WitnessRec(f.testemunha))
    ensures f.testemunha.id == 0 && f.caseId != 0 ==>
              var n := FreshId(raw, Witnesses);
              && n !in Ids(raw, Witnesses)
              && r.witnessesRaw == raw.witnessesRaw + [f.testemunha.(id := n)]
              && r.casosTestemunhas == raw.casosTestemunhas
                                       + TestimonyRows(f.caseId, n, f.depoimentos.GetOr([]))
              && r == raw.(witnessesRaw := r.witnessesRaw, casosTestemunhas := r.casosTestemunhas)
  {
    if f.testemunha.id != 0 then
      var edited := Update(raw, WitnessRec(f.testemunha));
      if f.caseId != 0 && f.depoimentos.Some? then
        edited.(casosTestemunhas := ReplaceTestimonies(edited.casosTestemunhas, f.caseId,
                                                       f.testemunha.id, f.depoimentos.value))
      else edited
    else if f.caseId != 0 then
      var n := FreshId(raw, Witnesses);
      raw.(witnessesRaw := raw.witnessesRaw + [f.testemunha.(id := n)],
           casosTestemunhas := raw.casosTestemunhas + TestimonyRows(f.caseId, n, f.depoimentos.GetOr([])))
    else Create(raw, WitnessRec(f.testemunha))
  }

  /** Submitting the witness form keeps integrity when the case it names exists and, for
      an edit, the witness exists. */
  lemma WitnessSubmitKeepsIntegrity(raw: RawData, f: WitnessForm)
    requires Integrity(raw)
    requires f.caseId != 0 ==> f.caseId in CaseIds(raw)
    requires f.testemunha.id != 0 && f.caseId != 0 ==> f.testemunha.id in WitnessIds(raw)
    ensures Integrity(WitnessSubmit(raw, f))
  {
    var r := WitnessSubmit(raw, f);
    if f.testemunha.id != 0 {
      var edited := Update(raw, WitnessRec(f.testemunha));
      UpdateKeepsIntegrity(raw, WitnessRec(f.testemunha));
      if f.caseId != 0 && f.depoimentos.Some? {
        UpdateKeepsIds(raw, WitnessRec(f.testemunha), Cases);
        UpdateKeepsIds(raw, WitnessRec(f.testemunha), Witnesses);
        IdSetsAreColumns(raw);
        IdSetsAreColumns(edited);
        assert r == edited.(casosTestemunhas := r.casosTestemunhas);
      }
    } else if f.caseId == 0 {
      CreateKeepsIntegrity(raw, WitnessRec(f.testemunha));
    } else {
      var w := f.testemunha.(id := FreshId(raw, Witnesses));
      assert WitnessIds(r) == WitnessIds(raw) + {w.id} by {
        assert w in r.witnessesRaw;
      }
    }
  }

  // ---- evidence ----

  /** The evidence form: the record (id 0 when new, its custody chain carried along when
      edited) and the case it is added from (0 when none). */
  datatype EvidenceForm = EvidenceForm(evidence: Evidence, caseId: int)

  /** `handleEvidenceSubmit`. An edit logs the new description in the custody chain and
      updates the item; a new item from a case is created with a one-entry chain and
      linked; otherwise it is created with a one-entry chain. `now` and `user` are the
      clock and the signed-in user's name. */
  function EvidenceSubmit(raw: RawData, f: EvidenceForm, now: Time, user: string): (r: RawData)
    ensures f.evidence.id != 0 ==>
              var logged := f.evidence.(chainOfCustody := f.evidence.chainOfCustody
                + [CustodyEntry(now, user, "Descrição atualizada para: \"" + f.evidence.descricao + "\"")]);
              r == Update(raw, EvidenceRec(logged))
    ensures f.evidence.id == 0 && f.caseId == 0 ==>
              r == Create(raw, EvidenceRec(f.evidence.(chainOfCustody := [CustodyEntry(now, user, "Evidência criada")])))
    ensures f.evidence.id == 0 && f.caseId != 0 ==>
              var n := FreshId(raw, Evidences);
              var entry := CustodyEntry(now, user, "Evidência criada e vinculada ao caso #" + IntToString(f.caseId));
              && n !in Ids(raw, Evidences)
              && r.evidencesRaw == raw.evidencesRaw + [f.evidence.(id := n, chainOfCustody := [entry])]
              && r.casosEvidencias == raw.casosEvidencias + [Link(f.caseId, n)]
              && r == raw.(evidencesRaw := r.evidencesRaw, casosEvidencias := r.casosEvidencias)
  {
    if f.evidence.id != 0 then
      var entry := CustodyEntry(now, user, "Descrição atualizada para: \"" + f.evidence.descricao + "\"");
      Update(raw, EvidenceRec(f.evidence.(chainOfCustody := f.evidence.chainOfCustody + [entry])))
    else if f.caseId != 0 then
      var n := FreshId(raw, Evidences);
      var entry := CustodyEntry(now, user, "Evidência criada e vinculada ao caso #" + IntToString(f.caseId));
      raw.(evidencesRaw := raw.evidencesRaw + [f.evidence.(id := n, chainOfCustody := [entry])],
           casosEvidencias := raw.casosEvidencias + [Link(f.caseId, n)])
    else
      Create(raw, EvidenceRec(f.evidence.(chainOfCustody := [CustodyEntry(now, user, "Evidência criada")])))
  }

  /** An edit appends exactly one custody entry and keeps the earlier ones. */
  lemma EditAppendsOneCustodyEntry(raw: RawData, f: EvidenceForm, now: Time, user: string, i: int)
    requires f.evidence.id != 0
    requires 0 <= i < |raw.evidencesRaw| && raw.evidencesRaw[i].id == f.evidence.id
    ensures var e := EvidenceSubmit(raw, f, now, user).evidencesRaw[i];
            && |e.chainOfCustody| == |f.evidence.chainOfCustody| + 1
            && e.chainOfCustody[..|f.evidence.chainOfCustody|] == f.evidence.chainOfCustody
            && e.chainOfCustody[|f.evidence.chainOfCustody|].timestamp == now
  {
    var r := EvidenceSubmit(raw, f, now, user);
    assert RecordsOf(raw, Evidences)[i] == EvidenceRec(raw.evidencesRaw[i]);
    assert RecordsOf(r, Evidences)[i] == EvidenceRec(r.evidencesRaw[i]);
  }

  /** Submitting the evidence form keeps integrity when the case it names exists. */
  lemma EvidenceSubmitKeepsIntegrity(raw: RawData, f: EvidenceForm, now: Time, user: string)
    requires Integrity(raw)
    requires f.evidence.id == 0 && f.caseId != 0 ==> f.caseId in CaseIds(raw)
    ensures Integrity(EvidenceSubmit(raw, f, now, user))
  {
    if f.evidence.id != 0 {
      var entry := CustodyEntry(now, user, "Descrição atualizada para: \"" + f.evidence.descricao + "\"");
      UpdateKeepsIntegrity(raw, EvidenceRec(f.evidence.(chainOfCustody := f.evidence.chainOfCustody + [entry])));
    } else if f.caseId == 0 {
      CreateKeepsIntegrity(raw, EvidenceRec(f.evidence.(chainOfCustody := [CustodyEntry(now, user, "Evidência criada")])));
    } else {
      var r := EvidenceSubmit(raw, f, now, user);
      var e := r.evidencesRaw[|raw.evidencesRaw|];
      assert EvidenceIds(r) == EvidenceIds(raw) + {e.id} by {
        assert e in r.evidencesRaw;
      }
    }
  }
}

=== FILE: app_records.dfy ===
/** The generic create and update handlers of the application shell: every stored entity
    table is addressed by a `Table` tag and its records travel as a `Record`. */
module AppRecords {
  import opened Wrappers
  import opened Seqs
  import opened Types

  datatype Table = Detectives | Suspects | Cases | Victims | Evidences | Witnesses | Analyses

  datatype Record =
    | DetectiveRec(detective: RawDetective)
    | SuspectRec(suspect: RawSuspect)
    | CaseRec(rawCase: RawCase)
    | VictimRec(victim: RawVictim)
    | EvidenceRec(evidence: Evidence)
    | WitnessRec(testemunha: Witness)
    | AnalysisRec(analysis: RawAnalysis)

  function TableOf(r: Record): Table {
    match r
    case DetectiveRec(_) => Detectives
    case SuspectRec(_) => Suspects
    case CaseRec(_) => Cases
    case VictimRec(_) => Victims
    case EvidenceRec(_) => Evidences
    case WitnessRec(_) => Witnesses
    case AnalysisRec(_) => Analyses
  }

  function RecordId(r: Record): int {
    match r
    case DetectiveRec(d) => d.id
    case SuspectRec(s) => s.id
    case CaseRec(c) => c.id
    case VictimRec(v) => v.id
    case EvidenceRec(e) => e.id
    case WitnessRec(w) => w.id
    case AnalysisRec(a) => a.id
  }

  /** `{ ...item, id }`: the same record under another id. */
  function WithId(r: Record, id: int): (s: Record)
    ensures TableOf(s) == TableOf(r) && RecordId(s) == id
  {
    match r
    case DetectiveRec(d) => DetectiveRec(d.(id := id))
    case SuspectRec(x) => SuspectRec(x.(id := id))
    case CaseRec(c) => CaseRec(c.(id := id))
    case VictimRec(v) => VictimRec(v.(id := id))
    case EvidenceRec(e) => EvidenceRec(e.(id := id))
    case WitnessRec(w) => WitnessRec(w.(id := id))
    case AnalysisRec(a) => AnalysisRec(a.(id := id))
  }

  function AsDetective(d: RawDetective): Record { DetectiveRec(d) }
  function AsSuspect(s: RawSuspect): Record { SuspectRec(s) }
  function AsCase(c: RawCase): Record { CaseRec(c) }
  function AsVictim(v: RawVictim): Record { VictimRec(v) }
  function AsEvidence(e: Evidence): Record { EvidenceRec(e) }
  function AsWitness(w: Witness): Record { WitnessRec(w) }
  function AsAnalysis(a: RawAnalysis): Record { AnalysisRec(a) }

  /** The records of one table, in stored order. */
  function RecordsOf(raw: RawData, t: Table): (rs: seq<Record>)
    ensures forall i :: 0 <= i < |rs| ==> TableOf(rs[i]) == t
  {
    match t
    case Detectives => Map(AsDetective, raw.detectivesRaw)
    case Suspects => Map(AsSuspect, raw.suspectsRaw)
    case Cases => Map(AsCase, raw.casesRaw)
    case Victims => Map(AsVictim, raw.victimsRaw)
    case Evidences => Map(AsEvidence, raw.evidencesRaw)
    case Witnesses => Map(AsWitness, raw.witnessesRaw)
    case Analyses => Map(AsAnalysis, raw.forenseAnalysesRaw)
  }

  /** The id column of one table. */
  function Ids(raw: RawData, t: Table): seq<int> {
    Map(RecordId, RecordsOf(raw, t))
  }

  /** The join tables are untouched. */
  predicate JoinsUnchanged(a: RawData, b: RawData) {
    && a.casosDetetives == b.casosDetetives
    && a.casosSuspeitos == b.casosSuspeitos
    && a.casosEvidencias == b.casosEvidencias
    && a.casosVitimas == b.casosVitimas
    && a.casosTestemunhas == b.casosTestemunhas
  }

  /** Every entity table other than `t`, and every join table, is untouched. */
  predicate OnlyTableChanged(a: RawData, b: RawData, t: Table) {
    && (t != Detectives ==> a.detectivesRaw == b.detectivesRaw)
    && (t != Suspects ==> a.suspectsRaw == b.suspectsRaw)
    && (t != Cases ==> a.casesRaw == b.casesRaw)
    && (t != Victims ==> a.victimsRaw == b.victimsRaw)
    && (t != Evidences ==> a.evidencesRaw == b.evidencesRaw)
    && (t != Witnesses ==> a.witnessesRaw == b.witnessesRaw)
    && (t != Analyses ==> a.forenseAnalysesRaw == b.forenseAnalysesRaw)
    && JoinsUnchanged(a, b)
  }

  /** The largest id of a non-empty column. */
  function MaxId(ids: seq<int>): (m: int)
    requires |ids| > 0
    ensures m in ids
    ensures forall i :: 0 <= i < |ids| ==> ids[i] <= m
    decreases |ids|
  {
    if |ids| == 1 then ids[0]
    else
      var rest := MaxId(ids[1..]);
      assert forall i :: 1 <= i < |ids| ==> ids[i] == ids[1..][i - 1];
      if ids[0] >= rest then ids[0] else rest
  }

  /** The id a new record receives: one more than the largest id, or 1 for an empty table. */
  function NextId(ids: seq<int>): (n: int)
    ensures forall x :: x in ids ==> x < n
    ensures n !in ids
    ensures ids == [] ==> n == 1
    ensures ids != [] ==> n - 1 in ids
  {
    if |ids| > 0 then MaxId(ids) + 1 else 1
  }

  /** The fresh id `Create` gives a record for table `t`. */
  function FreshId(raw: RawData, t: Table): int {
    NextId(Ids(raw, t))
  }

  /** `handleCreate`: appends the record to its table under a fresh id. */
  function Create(raw: RawData, rec: Record): (r: RawData)
    ensures RecordsOf(r, TableOf(rec)) == RecordsOf(raw, TableOf(rec)) + [WithId(rec, FreshId(raw, TableOf(rec)))]
    ensures OnlyTableChanged(raw, r, TableOf(rec))
  {
    var n := FreshId(raw, TableOf(rec));
    match rec
    case DetectiveRec(d) =>
      var r := raw.(detectivesRaw := raw.detectivesRaw + [d.(id := n)]);
      MapConcat(AsDetective, raw.detectivesRaw, [d.(id := n)]);
      r
    case SuspectRec(s) =>
      var r := raw.(suspectsRaw := raw.suspectsRaw + [s.(id := n)]);
      MapConcat(AsSuspect, raw.suspectsRaw, [s.(id := n)]);
      r
    case CaseRec(c) =>
      var r := raw.(casesRaw := raw.casesRaw + [c.(id := n)]);
      MapConcat(AsCase, raw.casesRaw, [c.(id := n)]);
      r
    case VictimRec(v) =>
      var r := raw.(victimsRaw := raw.victimsRaw + [v.(id := n)]);
      MapConcat(AsVictim, raw.victimsRaw, [v.(id := n)]);
      r
    case EvidenceRec(e) =>
      var r := raw.(evidencesRaw := raw.evidencesRaw + [e.(id := n)]);
      MapConcat(AsEvidence, raw.evidencesRaw, [e.(id := n)]);
      r
    case WitnessRec(w) =>
      var r := raw.(witnessesRaw := raw.witnessesRaw + [w.(id := n)]);
      MapConcat(AsWitness, raw.witnessesRaw, [w.(id := n)]);
      r
    case AnalysisRec(a) =>
      var r := raw.(forenseAnalysesRaw := raw.forenseAnalysesRaw + [a.(id := n)]);
      MapConcat(AsAnalysis, raw.forenseAnalysesRaw, [a.(id := n)]);
      r
  }

  /** Re-keying a record to its own id gives it back: `WithId` changes the id alone. */
  lemma WithIdOwnId(r: Record)
    ensures WithId(r, RecordId(r)) == r
  {
  }

  /** The first record of a table carrying an id. */
  function FindById(rs: seq<Record>, id: int): (r: Option<Record>)
    ensures r.None? <==> forall j :: 0 <= j < |rs| ==> RecordId(rs[j]) != id
    ensures r.Some? ==> exists i :: 0 <= i < |rs| && rs[i] == r.value && RecordId(rs[i]) == id
                                    && forall j :: 0 <= j < i ==> RecordId(rs[j]) != id
  {
    Find(rs, (x: Record) => RecordId(x) == id)
  }

  /** The record created is the only one with its id, so it can be found by that id. */
  lemma CreatedRecordIsFound(raw: RawData, rec: Record)
    ensures var t := TableOf(rec);
            var n := FreshId(raw, t);
            FindById(RecordsOf(Create(raw, rec), t), n) == Some(WithId(rec, n))
  {
    var t := TableOf(rec);
    var n := FreshId(raw, t);
    var old_ := RecordsOf(raw, t);
    var rs := RecordsOf(Create(raw, rec), t);
    assert rs == old_ + [WithId(rec, n)];
    forall j | 0 <= j < |old_|
      ensures RecordId(rs[j]) != n
    {
      assert Ids(raw, t)[j] == RecordId(old_[j]);
    }
    assert RecordId(rs[|old_|]) == n;
    var f := FindById(rs, n);
    var i :| 0 <= i < |rs| && rs[i] == f.value && RecordId(rs[i]) == n;
    assert i == |old_|;
  }

  /** `handleUpdate`: every record of the table carrying the submitted record's id is
      replaced by it; all else stays. */
  function Update(raw: RawData, rec: Record): (r: RawData)
    ensures var t := TableOf(rec);
            && |RecordsOf(r, t)| == |RecordsOf(raw, t)|
            && forall i :: 0 <= i < |RecordsOf(r, t)| ==>
                 RecordsOf(r, t)[i] == if RecordId(RecordsOf(raw, t)[i]) == RecordId(rec) then rec
                                       else RecordsOf(raw, t)[i]
    ensures OnlyTableChanged(raw, r, TableOf(rec))
  {
    match rec
    case DetectiveRec(d) =>
      raw.(detectivesRaw := Map((x: RawDetective) => if x.id == d.id then d else x, raw.detectivesRaw))
    case SuspectRec(s) =>
      raw.(suspectsRaw := Map((x: RawSuspect) => if x.id == s.id then s else x, raw.suspectsRaw))
    case CaseRec(c) =>
      raw.(casesRaw := Map((x: RawCase) => if x.id == c.id then c else x, raw.casesRaw))
    case VictimRec(v) =>
      raw.(victimsRaw := Map((x: RawVictim) => if x.id == v.id then v else x, raw.victimsRaw))
    case EvidenceRec(e) =>
      raw.(evidencesRaw := Map((x: Evidence) => if x.id == e.id then e else x, raw.evidencesRaw))
    case WitnessRec(w) =>
      raw.(witnessesRaw := Map((x: Witness) => if x.id == w.id then w else x, raw.witnessesRaw))
    case AnalysisRec(a) =>
      raw.(forenseAnalysesRaw := Map((x: RawAnalysis) => if x.id == a.id then a else x, raw.forenseAnalysesRaw))
  }

  /** An update never changes a table's id column. */
  lemma UpdateKeepsIds(raw: RawData, rec: Record, t: Table)
    ensures Ids(Update(raw, rec), t) == Ids(raw, t)
  {
    if t == TableOf(rec) {
      var a, b := RecordsOf(raw, t), RecordsOf(Update(raw, rec), t);
      assert forall i :: 0 <= i < |b| ==> RecordId(b[i]) == RecordId(a[i]);
    } else {
      assert RecordsOf(Update(raw, rec), t) == RecordsOf(raw, t);
    }
  }

  /** Submitting the same edit twice has the effect of submitting it once. */
  lemma UpdateIdempotent(raw: RawData, rec: Record)
    ensures Update(Update(raw, rec), rec) == Update(raw, rec)
  {
    var once := Update(raw, rec);
    var t := TableOf(rec);
    var a, b := RecordsOf(once, t), RecordsOf(Update(once, rec), t);
    assert |a| == |b|;
    assert forall i :: 0 <= i < |b| ==> b[i] == a[i];
    RecordsDetermineTable(Update(once, rec), once, t);
  }

  /** Two snapshots that agree on a table's records and on everything else are equal. */
  lemma RecordsDetermineTable(a: RawData, b: RawData, t: Table)
    requires OnlyTableChanged(a, b, t)
    requires RecordsOf(a, t) == RecordsOf(b, t)
    ensures a == b
  {
    match t
    case Detectives =>
      assert forall i :: 0 <= i < |a.detectivesRaw| ==> RecordsOf(a, t)[i].detective == a.detectivesRaw[i];
    case Suspects =>
      assert forall i :: 0 <= i < |a.suspectsRaw| ==> RecordsOf(a, t)[i].suspect == a.suspectsRaw[i];
    case Cases =>
      assert forall i :: 0 <= i < |a.casesRaw| ==> RecordsOf(a, t)[i].rawCase == a.casesRaw[i];
    case Victims =>
      assert forall i :: 0 <= i < |a.victimsRaw| ==> RecordsOf(a, t)[i].victim == a.victimsRaw[i];
    case Evidences =>
      assert forall i :: 0 <= i < |a.evidencesRaw| ==> RecordsOf(a, t)[i].evidence == a.evidencesRaw[i];
    case Witnesses =>
      assert forall i :: 0 <= i < |a.witnessesRaw| ==> RecordsOf(a, t)[i].testemunha == a.witnessesRaw[i];
    case Analyses =>
      assert forall i :: 0 <= i < |a.forenseAnalysesRaw| ==> RecordsOf(a, t)[i].analysis == a.forenseAnalysesRaw[i];
  }
}

=== FILE: case_detail_page.dfy ===
/** The case page: linking and unlinking people, adding and removing attachments, the
    case's own timeline and the pickers of people not yet on the case. Who may edit is
    `Permissions.CanEdit`. */
module CaseDetailPage {
  import opened Wrappers
  import opened Seqs
  import opened Types
  import opened AppDeletes
  import opened DataProjections

  // ---- links ----

  /** The join tables the page edits. Only detectives and suspects can be linked from the
      page; victims can only be unlinked. */
  datatype Join = CasosDetetives | CasosSuspeitos | CasosVitimas

  predicate Linkable(j: Join) {
    j != CasosVitimas
  }

  function Rows(raw: RawData, j: Join): seq<Link> {
    match j
    case CasosDetetives => raw.casosDetetives
    case CasosSuspeitos => raw.casosSuspeitos
    case CasosVitimas => raw.casosVitimas
  }

  function WithRows(raw: RawData, j: Join, rows: seq<Link>): (r: RawData)
    ensures Rows(r, j) == rows
    ensures OnlyJoinChanged(raw, r, j)
  {
    match j
    case CasosDetetives => raw.(casosDetetives := rows)
    case CasosSuspeitos => raw.(casosSuspeitos := rows)
    case CasosVitimas => raw.(casosVitimas := rows)
  }

  /** `b` differs from `a` in join table `j` at most. */
  predicate OnlyJoinChanged(a: RawData, b: RawData, j: Join) {
    && (forall k :: k != j ==> Rows(a, k) == Rows(b, k))
    && a.detectivesRaw == b.detectivesRaw && a.suspectsRaw == b.suspectsRaw
    && a.casesRaw == b.casesRaw && a.victimsRaw == b.victimsRaw
    && a.evidencesRaw == b.evidencesRaw && a.witnessesRaw == b.witnessesRaw
    && a.forenseAnalysesRaw == b.forenseAnalysesRaw
    && a.casosEvidencias == b.casosEvidencias && a.casosTestemunhas == b.casosTestemunhas
  }

  /** Two states that agree outside join table `j` and on `j` are the same state. */
  lemma SameRowsSameData(a: RawData, b: RawData, j: Join)
    requires OnlyJoinChanged(a, b, j) && Rows(a, j) == Rows(b, j)
    ensures a == b
  {
    assert Rows(a, CasosDetetives) == Rows(b, CasosDetetives);
    assert Rows(a, CasosSuspeitos) == Rows(b, CasosSuspeitos);
    assert Rows(a, CasosVitimas) == Rows(b, CasosVitimas);
  }

  /** `handleLink`: adds the row (case, entity) unless it is already there. */
  function LinkTo(raw: RawData, j: Join, caseId: int, entityId: int): (r: RawData)
    requires Linkable(j)
    ensures Link(caseId, entityId) in Rows(r, j)
    ensures Link(caseId, entityId) in Rows(raw, j) ==> r == raw
    ensures Link(caseId, entityId) !in Rows(raw, j) ==> Rows(r, j) == Rows(raw, j) + [Link(caseId, entityId)]
    ensures OnlyJoinChanged(raw, r, j)
  {
    var rows := Rows(raw, j);
    if Link(caseId, entityId) in rows then raw
    else WithRows(raw, j, rows + [Link(caseId, entityId)])
  }

  /** Linking twice is linking once. */
  lemma LinkIdempotent(raw: RawData, j: Join, caseId: int, entityId: int)
    requires Linkable(j)
    ensures LinkTo(LinkTo(raw, j, caseId, entityId), j, caseId, entityId) == LinkTo(raw, j, caseId, entityId)
  {
  }

  function Unlinked(rows: seq<Link>, caseId: int, entityId: int): (r: seq<Link>)
    ensures forall l :: l in r <==> l in rows && l != Link(caseId, entityId)
    ensures multiset(r) == multiset(rows)[Link(caseId, entityId) := 0]
    ensures IsSubseq(r, rows)
  {
    Filter(rows, (l: Link) => l != Link(caseId, entityId))
  }

  /** `handleUnlink`: removes every row (case, entity) from the table, keeping the others in
      order. */
  function Unlink(raw: RawData, j: Join, caseId: int, entityId: int): (r: RawData)
    ensures Link(caseId, entityId) !in Rows(r, j)
    ensures forall l :: l in Rows(r, j) <==> l in Rows(raw, j) && l != Link(caseId, entityId)
    ensures multiset(Rows(r, j)) == multiset(Rows(raw, j))[Link(caseId, entityId) := 0]
    ensures IsSubseq(Rows(r, j), Rows(raw, j))
    ensures OnlyJoinChanged(raw, r, j)
  {
    WithRows(raw, j, Unlinked(Rows(raw, j), caseId, entityId))
  }

  /** Unlinking twice is unlinking once. */
  lemma UnlinkIdempotent(raw: RawData, j: Join, caseId: int, entityId: int)
    ensures Unlink(Unlink(raw, j, caseId, entityId), j, caseId, entityId) == Unlink(raw, j, caseId, entityId)
  {
    var once := Unlink(raw, j, caseId, entityId);
    var twice := Unlink(once, j, caseId, entityId);
    FilterIdempotent(Rows(raw, j), (l: Link) => l != Link(caseId, entityId));
    assert Rows(twice, j) == Rows(once, j);
    SameRowsSameData(twice, once, j);
  }

  /** Linking and then unlinking the same pair leaves what unlinking alone leaves. */
  lemma UnlinkUndoesLink(raw: RawData, j: Join, caseId: int, entityId: int)
    requires Linkable(j)
    ensures Unlink(LinkTo(raw, j, caseId, entityId), j, caseId, entityId) == Unlink(raw, j, caseId, entityId)
  {
    var l := Link(caseId, entityId);
    if l !in Rows(raw, j) {
      var p := (x: Link) => x != l;
      FilterConcat(Rows(raw, j), [l], p);
      assert Filter([l], p) == [];
      var a := Unlink(LinkTo(raw, j, caseId, entityId), j, caseId, entityId);
      var b := Unlink(raw, j, caseId, entityId);
      assert Rows(a, j) == Rows(b, j);
      SameRowsSameData(a, b, j);
    }
  }

  /** The records a join table's entity column points into. */
  function EntityIds(raw: RawData, j: Join): set<int> {
    match j
    case CasosDetetives => DetectiveIds(raw)
    case CasosSuspeitos => SuspectIds(raw)
    case CasosVitimas => VictimIds(raw)
  }

  /** A state that agrees with `raw` outside join table `j`, whose rows in `j` name existing
      records, keeps integrity. */
  lemma JoinChangeKeepsIntegrity(raw: RawData, r: RawData, j: Join)
    requires Integrity(raw) && OnlyJoinChanged(raw, r, j)
    requires LinksInto(Rows(r, j), CaseIds(raw), EntityIds(raw, j))
    ensures Integrity(r)
  {
    assert CaseIds(r) == CaseIds(raw) && DetectiveIds(r) == DetectiveIds(raw);
    assert SuspectIds(r) == SuspectIds(raw) && VictimIds(r) == VictimIds(raw);
    match j
    case CasosDetetives =>
      assert Rows(r, CasosSuspeitos) == Rows(raw, CasosSuspeitos) && Rows(r, CasosVitimas) == Rows(raw, CasosVitimas);
    case CasosSuspeitos =>
      assert Rows(r, CasosDetetives) == Rows(raw, CasosDetetives) && Rows(r, CasosVitimas) == Rows(raw, CasosVitimas);
    case CasosVitimas =>
      assert Rows(r, CasosDetetives) == Rows(raw, CasosDetetives) && Rows(r, CasosSuspeitos) == Rows(raw, CasosSuspeitos);
  }

  /** Linking an existing case to an existing detective or suspect keeps every join row
      pointing at existing records. The page only offers records of the tables, but the
      handler itself does not check. */
  lemma LinkToKeepsIntegrity(raw: RawData, j: Join, caseId: int, entityId: int)
    requires Linkable(j) && Integrity(raw)
    requires caseId in CaseIds(raw) && entityId in EntityIds(raw, j)
    ensures Integrity(LinkTo(raw, j, caseId, entityId))
  {
    var r := LinkTo(raw, j, caseId, entityId);
    assert Rows(raw, j) == Rows(raw, CasosDetetives) || Rows(raw, j) == Rows(raw, CasosSuspeitos);
    assert LinksInto(Rows(raw, j), CaseIds(raw), EntityIds(raw, j));
    JoinChangeKeepsIntegrity(raw, r, j);
  }

  /** Unlinking keeps integrity: it only drops join rows. */
  lemma UnlinkKeepsIntegrity(raw: RawData, j: Join, caseId: int, entityId: int)
    requires Integrity(raw)
    ensures Integrity(Unlink(raw, j, caseId, entityId))
  {
    var r := Unlink(raw, j, caseId, entityId);
    assert LinksInto(Rows(raw, j), CaseIds(raw), EntityIds(raw, j));
    JoinChangeKeepsIntegrity(raw, r, j);
  }

  // ---- attachments ----

  /** `handleAnexoUpload`: appends the attachment to the case with the given id. */
  function UploadAnexo(raw: RawData, caseId: int, a: Anexo): (r: RawData)
    ensures r == raw.(casesRaw := r.casesRaw)
    ensures |r.casesRaw| == |raw.casesRaw|
    ensures forall i :: 0 <= i < |raw.casesRaw| && raw.casesRaw[i].id != caseId ==> r.casesRaw[i] == raw.casesRaw[i]
    ensures forall i :: 0 <= i < |raw.casesRaw| && raw.casesRaw[i].id == caseId ==>
              && r.casesRaw[i] == raw.casesRaw[i].(anexos := r.casesRaw[i].anexos)
              && r.casesRaw[i].anexos.GetOr([]) == raw.casesRaw[i].anexos.GetOr([]) + [a]
  {
    raw.(casesRaw := Map((c: RawCase) => if c.id == caseId then c.(anexos := Some(c.anexos.GetOr([]) + [a])) else c,
                         raw.casesRaw))
  }

  function WithoutAnexo(anexos: seq<Anexo>, anexoId: string): (r: seq<Anexo>)
    ensures forall x :: x in r <==> x in anexos && x.id != anexoId
    ensures forall x :: multiset(r)[x] == if x.id != anexoId then multiset(anexos)[x] else 0
    ensures IsSubseq(r, anexos)
  {
    Filter(anexos, (x: Anexo) => x.id != anexoId)
  }

  /** `handleAnexoDelete`: removes the attachments with the given id from the case with the
      given id. */
  function DeleteAnexo(raw: RawData, caseId: int, anexoId: string): (r: RawData)
    ensures r == raw.(casesRaw := r.casesRaw)
    ensures |r.casesRaw| == |raw.casesRaw|
    ensures forall i :: 0 <= i < |raw.casesRaw| && raw.casesRaw[i].id != caseId ==> r.casesRaw[i] == raw.casesRaw[i]
    ensures forall i :: 0 <= i < |raw.casesRaw| && raw.casesRaw[i].id == caseId ==>
              && r.casesRaw[i] == raw.casesRaw[i].(anexos := r.casesRaw[i].anexos)
              && r.casesRaw[i].anexos.Some?
              && (forall x :: x in r.casesRaw[i].anexos.value <==> x in raw.casesRaw[i].anexos.GetOr([]) && x.id != anexoId)
              && IsSubseq(r.casesRaw[i].anexos.value, raw.casesRaw[i].anexos.GetOr([]))
              && forall x :: multiset(r.casesRaw[i].anexos.value)[x]
                             == if x.id != anexoId then multiset(raw.casesRaw[i].anexos.GetOr([]))[x] else 0
  {
    raw.(casesRaw := Map((c: RawCase) => if c.id == caseId then c.(anexos := Some(WithoutAnexo(c.anexos.GetOr([]), anexoId))) else c,
                         raw.casesRaw))
  }

  /** Two case tables whose ids agree position by position have the same id set. */
  lemma SameCaseIds(a: seq<RawCase>, b: seq<RawCase>)
    requires |a| == |b| && forall i :: 0 <= i < |a| ==> a[i].id == b[i].id
    ensures IdSet(a, RawCaseId) == IdSet(b, RawCaseId)
  {
    forall x | x in IdSet(a, RawCaseId)
      ensures x in IdSet(b, RawCaseId)
    {
      var c :| c in a && c.id == x;
      var i :| 0 <= i < |a| && a[i] == c;
      assert b[i] in b;
    }
    forall x | x in IdSet(b, RawCaseId)
      ensures x in IdSet(a, RawCaseId)
    {
      var c :| c in b && c.id == x;
      var i :| 0 <= i < |b| && b[i] == c;
      assert a[i] in a;
    }
  }

  /** Adding or removing attachments changes no id, so every join row and analysis still
      points at existing records. */
  lemma AnexoChangesKeepIntegrity(raw: RawData, caseId: int, a: Anexo, anexoId: string)
    requires Integrity(raw)
    ensures Integrity(UploadAnexo(raw, caseId, a))
    ensures Integrity(DeleteAnexo(raw, caseId, anexoId))
  {
    var up := UploadAnexo(raw, caseId, a);
    var del := DeleteAnexo(raw, caseId, anexoId);
    assert forall i :: 0 <= i < |raw.casesRaw| ==> up.casesRaw[i].id == raw.casesRaw[i].id;
    assert forall i :: 0 <= i < |raw.casesRaw| ==> del.casesRaw[i].id == raw.casesRaw[i].id;
    SameCaseIds(up.casesRaw, raw.casesRaw);
    SameCaseIds(del.casesRaw, raw.casesRaw);
    assert CaseIds(up) == CaseIds(raw) && CaseIds(del) == CaseIds(raw);
  }

  /** Deleting an attachment just uploaded, under an id the case did not use yet, restores
      every case's attachment list. */
  lemma DeleteUndoesUpload(raw: RawData, caseId: int, a: Anexo, i: int)
    requires 0 <= i < |raw.casesRaw|
    requires raw.casesRaw[i].id == caseId ==> forall x :: x in raw.casesRaw[i].anexos.GetOr([]) ==> x.id != a.id
    ensures DeleteAnexo(UploadAnexo(raw, caseId, a), caseId, a.id).casesRaw[i].anexos.GetOr([])
            == raw.casesRaw[i].anexos.GetOr([])
  {
    if raw.casesRaw[i].id == caseId {
      var old_ := raw.casesRaw[i].anexos.GetOr([]);
      var p := (x: Anexo) => x.id != a.id;
      FilterConcat(old_, [a], p);
      FilterAll(old_, p);
      assert Filter([a], p) == [];
      assert UploadAnexo(raw, caseId, a).casesRaw[i].anexos.GetOr([]) == old_ + [a];
    }
  }

  // ---- the case timeline ----

  datatype DetailEventType = Ocorrencia | EvidenciaDetalhe | AnexoDetalhe

  datatype DetailEvent = DetailEvent(date: Time, kind: DetailEventType, description: string)

  function OccurrenceEvent(c: Case): DetailEvent {
    DetailEvent(c.dataOcorrido, Ocorrencia, "Início do caso: " + c.descricao)
  }

  function EvidenceDetail(e: Evidence): DetailEvent {
    DetailEvent(e.dataDescoberta, EvidenciaDetalhe, "Evidência: " + e.descricao)
  }

  function AnexoDetail(a: Anexo): DetailEvent {
    DetailEvent(a.timestamp, AnexoDetalhe, "Anexo: " + a.name)
  }

  function EventDate(e: DetailEvent): int {
    e.date
  }

  /** The events in the order they are pushed: occurrence, evidence, attachments. */
  function PushedEvents(c: Case): seq<DetailEvent> {
    [OccurrenceEvent(c)] + Map(EvidenceDetail, c.evidencias) + Map(AnexoDetail, c.anexos)
  }

  /** `caseTimelineEvents`: one event for the occurrence, one per evidence item and one per
      attachment, ordered by date. */
  function CaseTimeline(c: Case): (r: seq<DetailEvent>)
    ensures |r| == 1 + |c.evidencias| + |c.anexos|
    ensures multiset(r) == multiset(PushedEvents(c))
    ensures forall i, j :: 0 <= i < j < |r| ==> r[i].date <= r[j].date
    ensures OccurrenceEvent(c) in r
    ensures forall e :: e in c.evidencias ==> EvidenceDetail(e) in r
    ensures forall a :: a in c.anexos ==> AnexoDetail(a) in r
  {
    var all := PushedEvents(c);
    PushedEventsContain(c);
    var r := SortBy(all, EventDate);
    assert forall x :: x in all ==> x in multiset(r);
    r
  }

  lemma PushedEventsContain(c: Case)
    ensures OccurrenceEvent(c) in PushedEvents(c)
    ensures forall e :: e in c.evidencias ==> EvidenceDetail(e) in PushedEvents(c)
    ensures forall a :: a in c.anexos ==> AnexoDetail(a) in PushedEvents(c)
  {
    var all := PushedEvents(c);
    assert all[0] == OccurrenceEvent(c);
    forall e | e in c.evidencias
      ensures EvidenceDetail(e) in all
    {
      var i :| 0 <= i < |c.evidencias| && c.evidencias[i] == e;
      assert all[1 + i] == EvidenceDetail(e);
    }
    forall a | a in c.anexos
      ensures AnexoDetail(a) in all
    {
      var i :| 0 <= i < |c.anexos| && c.anexos[i] == a;
      assert all[1 + |c.evidencias| + i] == AnexoDetail(a);
    }
  }

  /** Events on the same date keep the order they were pushed in. */
  lemma CaseTimelineStable(c: Case, d: int)
    ensures KeyClass(CaseTimeline(c), EventDate, d) == KeyClass(PushedEvents(c), EventDate, d)
  {
    SortByStable(PushedEvents(c), EventDate, d);
  }

  /** The page's timeline: the first case with the id in the address is shown (`CaseById`);
      the timeline is empty when no case has the id. */
  function PageTimeline(cases: seq<Case>, id: int): (r: seq<DetailEvent>)
    ensures (forall c :: c in cases ==> c.id != id) ==> r == []
    ensures (exists c :: c in cases && c.id == id) ==>
              exists c :: c in cases && c.id == id && r == CaseTimeline(c)
    ensures forall i :: 0 <= i < |cases| && cases[i].id == id && (forall j :: 0 <= j < i ==> cases[j].id != id) ==>
              r == CaseTimeline(cases[i])
  {
    match CaseById(cases, id)
    case None => []
    case Some(c) => CaseTimeline(c)
  }

  // ---- the pickers ----

  /** The rows of `s` whose id is not in `taken`, in order. */
  function AvailableAmong<T(==,!new)>(s: seq<T>, idOf: T -> int, taken: set<int>): (r: seq<T>)
    ensures forall x :: x in r <==> x in s && idOf(x) !in taken
    ensures forall x :: multiset(r)[x] == if idOf(x) !in taken then multiset(s)[x] else 0
    ensures IsSubseq(r, s)
    decreases |s|
  {
    if s == [] then []
    else
      var rest := AvailableAmong(s[1..], idOf, taken);
      assert forall x :: x in s <==> x == s[0] || x in s[1..];
      assert s == [s[0]] + s[1..];
      if idOf(s[0]) !in taken then
        assert ([s[0]] + rest)[1..] == rest;
        [s[0]] + rest
      else rest
  }

  /** The rows of `s` whose id is in `taken`, in order. */
  function TakenAmong<T(==,!new)>(s: seq<T>, idOf: T -> int, taken: set<int>): (r: seq<T>)
    ensures forall x :: x in r <==> x in s && idOf(x) in taken
    ensures forall x :: multiset(r)[x] == if idOf(x) in taken then multiset(s)[x] else 0
    ensures IsSubseq(r, s)
    decreases |s|
  {
    if s == [] then []
    else
      var rest := TakenAmong(s[1..], idOf, taken);
      assert forall x :: x in s <==> x == s[0] || x in s[1..];
      assert s == [s[0]] + s[1..];
      if idOf(s[0]) in taken then
        assert ([s[0]] + rest)[1..] == rest;
        [s[0]] + rest
      else rest
  }

  /** The available rows and the taken rows split the table between them. */
  lemma {:induction false} AvailablePartition<T(!new)>(s: seq<T>, idOf: T -> int, taken: set<int>)
    ensures |AvailableAmong(s, idOf, taken)| + |TakenAmong(s, idOf, taken)| == |s|
    decreases |s|
  {
    if s != [] {
      AvailablePartition(s[1..], idOf, taken);
    }
  }

  function CaseDetectiveIds(c: Case): set<int> {
    set d | d in c.detetives :: d.id
  }

  function CaseSuspectIds(c: Case): set<int> {
    set s | s in c.suspeitos :: s.id
  }

  /** `availableDetectives`: the stored detectives not already on the case. */
  function AvailableDetectives(raw: RawData, c: Case): (r: seq<RawDetective>)
    ensures forall d :: d in r <==> d in raw.detectivesRaw && forall cd :: cd in c.detetives ==> cd.id != d.id
    ensures forall d :: multiset(r)[d] == if forall cd :: cd in c.detetives ==> cd.id != d.id
                                        then multiset(raw.detectivesRaw)[d] else 0
    ensures IsSubseq(r, raw.detectivesRaw)
  {
    AvailableAmong(raw.detectivesRaw, RawDetectiveId, CaseDetectiveIds(c))
  }

  /** `availableSuspects`: the stored suspects not already on the case. */
  function AvailableSuspects(raw: RawData, c: Case): (r: seq<RawSuspect>)
    ensures forall s :: s in r <==> s in raw.suspectsRaw && forall cs :: cs in c.suspeitos ==> cs.id != s.id
    ensures forall s :: multiset(r)[s] == if forall cs :: cs in c.suspeitos ==> cs.id != s.id
                                        then multiset(raw.suspectsRaw)[s] else 0
    ensures IsSubseq(r, raw.suspectsRaw)
  {
    AvailableAmong(raw.suspectsRaw, RawSuspectId, CaseSuspectIds(c))
  }

  /** Every stored detective is either offered or already on the case, never both. */
  lemma AvailableDetectivesPartition(raw: RawData, c: Case)
    ensures |AvailableDetectives(raw, c)| + |TakenAmong(raw.detectivesRaw, RawDetectiveId, CaseDetectiveIds(c))|
            == |raw.detectivesRaw|
    ensures forall d :: d in TakenAmong(raw.detectivesRaw, RawDetectiveId, CaseDetectiveIds(c)) ==>
              d !in AvailableDetectives(raw, c)
  {
    AvailablePartition(raw.detectivesRaw, RawDetectiveId, CaseDetectiveIds(c));
  }

  /** Every stored suspect is either offered or already on the case, never both. */
  lemma AvailableSuspectsPartition(raw: RawData, c: Case)
    ensures |AvailableSuspects(raw, c)| + |TakenAmong(raw.suspectsRaw, RawSuspectId, CaseSuspectIds(c))|
            == |raw.suspectsRaw|
    ensures forall s :: s in TakenAmong(raw.suspectsRaw, RawSuspectId, CaseSuspectIds(c)) ==>
              s !in AvailableSuspects(raw, c)
  {
    AvailablePartition(raw.suspectsRaw, RawSuspectId, CaseSuspectIds(c));
  }
}

=== FILE: cases_page.dfy ===
/** The case list: search and filters, the sortable columns, the column-header toggle and
    how durations are worded. */
module CasesPage {
  import opened Wrappers
  import opened Seqs
  import opened Types
  import opened Strings

  // ---- durations ----

  datatype DurationUnit = Dias | Meses | Anos

  /** A duration in the unit it is shown in. */
  datatype Duration = Duration(unit: DurationUnit, amount: int)

  /** The unit and amount `formatDays` shows: days below 30, whole 30-day months below 365,
      whole 365-day years from there on. */
  function DurationOf(days: int): (d: Duration)
    ensures d.unit == Dias <==> days < 30
    ensures d.unit == Dias ==> d.amount == days
    ensures d.unit == Meses <==> 30 <= days < 365
    ensures d.unit == Meses ==> 1 <= d.amount <= 12 && 30 * d.amount <= days < 30 * d.amount + 30
    ensures d.unit == Anos <==> days >= 365
    ensures d.unit == Anos ==> d.amount >= 1 && 365 * d.amount <= days < 365 * d.amount + 365
  {
    if days < 30 then Duration(Dias, days)
    else if days < 365 then Duration(Meses, days / 30)
    else Duration(Anos, days / 365)
  }

  function UnitSuffix(u: DurationUnit): string {
    match u
    case Dias => " dia(s)"
    case Meses => " mes(es)"
    case Anos => " ano(s)"
  }

  /** `formatDays`: the amount in decimal followed by its unit. */
  function FormatDays(days: int): (s: string)
    ensures var d := DurationOf(days);
            s == IntToString(d.amount) + UnitSuffix(d.unit)
  {
    if days < 30 then IntToString(days) + " dia(s)"
    else if days < 365 then IntToString(days / 30) + " mes(es)"
    else IntToString(days / 365) + " ano(s)"
  }

  /** The amount shown can be read back from the text for any duration that is not
      negative. */
  lemma FormatDaysReadsBack(days: int)
    requires days >= 0
    ensures var d := DurationOf(days);
            && d.amount >= 0
            && FormatDays(days)[..|FormatDays(days)| - |UnitSuffix(d.unit)|] == NatToString(d.amount)
            && ParseDigits(NatToString(d.amount)) == d.amount
  {
    var d := DurationOf(days);
    NatToStringRoundTrip(d.amount);
    var s := FormatDays(days);
    assert s == NatToString(d.amount) + UnitSuffix(d.unit);
    assert s[..|s| - |UnitSuffix(d.unit)|] == NatToString(d.amount);
  }

  // ---- search and filters ----

  /** The three drop-downs; `None` and the empty city mean "any". */
  datatype Filters = Filters(status: Option<CaseStatus>, gravidade: Option<CaseSeverity>, cidade: string)

  function NoFilters(): Filters {
    Filters(None, None, "")
  }

  /** The search box: `term` is the lower-cased search text; `lower` is the lower-casing
      the browser applies to the case's own texts. */
  predicate MatchesSearch(c: Case, term: string, lower: string -> string) {
    || term == ""
    || Contains(IntToString(c.id), term)
    || Contains(lower(c.descricao), term)
    || Contains(lower(c.cidade), term)
  }

  predicate MatchesFilters(c: Case, f: Filters) {
    && (f.status.Some? ==> c.status == f.status.value)
    && (f.gravidade.Some? ==> c.gravidade == f.gravidade.value)
    && (f.cidade != "" ==> c.cidade == f.cidade)
  }

  /** The cases the table shows before sorting, in their original order. */
  function FilteredCases(cases: seq<Case>, searchTerm: string, f: Filters, lower: string -> string): (r: seq<Case>)
    ensures IsSubseq(r, cases)
    ensures forall c :: c in r <==> c in cases && MatchesSearch(c, lower(searchTerm), lower) && MatchesFilters(c, f)
    ensures forall c :: c in r && f.status.Some? ==> c.status == f.status.value
    ensures forall c :: c in r && f.gravidade.Some? ==> c.gravidade == f.gravidade.value
    ensures forall c :: c in r && f.cidade != "" ==> c.cidade == f.cidade
    ensures forall c :: multiset(r)[c] == if MatchesSearch(c, lower(searchTerm), lower) && MatchesFilters(c, f)
                                          then multiset(cases)[c] else 0
  {
    var term := lower(searchTerm);
    Filter(cases, (c: Case) => MatchesSearch(c, term, lower) && MatchesFilters(c, f))
  }

  /** With no search text and no filter every case is shown. */
  lemma NoCriteriaShowsAll(cases: seq<Case>, searchTerm: string, lower: string -> string)
    requires lower(searchTerm) == ""
    ensures FilteredCases(cases, searchTerm, NoFilters(), lower) == cases
  {
    var term := lower(searchTerm);
    FilterAll(cases, (c: Case) => MatchesSearch(c, term, lower) && MatchesFilters(c, NoFilters()));
  }

  // ---- sorting ----

  /** `severityOrder`: Baixo 1 up to Crítico 5. */
  function SeverityRank(g: CaseSeverity): (r: int)
    ensures 1 <= r <= 5
    ensures r == 5 <==> g == Critico
    ensures r == 1 <==> g == Baixo
  {
    match g
    case Critico => 5
    case Gravissimo => 4
    case Grave => 3
    case Medio => 2
    case Baixo => 1
  }

  /** Distinct severities have distinct ranks. */
  lemma SeverityRankInjective(a: CaseSeverity, b: CaseSeverity)
    requires SeverityRank(a) == SeverityRank(b)
    ensures a == b
  {
  }

  /** The status as the program spells it. */
  function StatusText(s: CaseStatus): string {
    match s
    case Investigacao => "investigação"
    case Resolvido => "resolvido"
    case Arquivada => "arquivada"
    case Reaberta => "reaberta"
  }

  /** The position of a status when the statuses are ordered as strings. */
  function StatusRank(s: CaseStatus): int {
    match s
    case Arquivada => 0
    case Investigacao => 1
    case Reaberta => 2
    case Resolvido => 3
  }

  /** Ordering statuses by rank is ordering their spellings with `<`. */
  lemma StatusRankIsStringOrder(a: CaseStatus, b: CaseStatus)
    ensures StatusRank(a) < StatusRank(b) <==> StrLess(StatusText(a), StatusText(b))
  {
    StatusSpellingsOrdered();
    StrLessIrreflexive(StatusText(a));
  }

  /** "arquivada" < "investigação" < "reaberta" < "resolvido", and never the other way. */
  lemma StatusSpellingsOrdered()
    ensures StrLess(StatusText(Arquivada), StatusText(Investigacao)) && !StrLess(StatusText(Investigacao), StatusText(Arquivada))
    ensures StrLess(StatusText(Arquivada), StatusText(Reaberta)) && !StrLess(StatusText(Reaberta), StatusText(Arquivada))
    ensures StrLess(StatusText(Arquivada), StatusText(Resolvido)) && !StrLess(StatusText(Resolvido), StatusText(Arquivada))
    ensures StrLess(StatusText(Investigacao), StatusText(Reaberta)) && !StrLess(StatusText(Reaberta), StatusText(Investigacao))
    ensures StrLess(StatusText(Investigacao), StatusText(Resolvido)) && !StrLess(StatusText(Resolvido), StatusText(Investigacao))
    ensures StrLess(StatusText(Reaberta), StatusText(Resolvido)) && !StrLess(StatusText(Resolvido), StatusText(Reaberta))
  {
    assert StrLess("reaberta", "resolvido") by {
      assert "reaberta"[1..] == "eaberta" && "resolvido"[1..] == "esolvido";
      assert "eaberta"[1..] == "aberta" && "esolvido"[1..] == "solvido";
    }
    assert !StrLess("resolvido", "reaberta") by {
      assert "resolvido"[1..] == "esolvido" && "reaberta"[1..] == "eaberta";
      assert "esolvido"[1..] == "solvido" && "eaberta"[1..] == "aberta";
    }
  }

  /** The table's columns; `tags` is a column that does not sort. */
  datatype SortKey = ById | ByDescricao | ByCidade | ByDataOcorrido | ByTempoAtivoDias
                   | ByGravidade | ByStatus | ByTags

  datatype Direction = Ascending | Descending

  datatype SortConfig = SortConfig(key: SortKey, direction: Direction)

  /** The page starts sorted by id, ascending. */
  function InitialSort(): SortConfig {
    SortConfig(ById, Ascending)
  }

  function DescricaoSet(cases: seq<Case>): set<string> {
    set c | c in cases :: c.descricao
  }

  function CidadeSet(cases: seq<Case>): set<string> {
    set c | c in cases :: c.cidade
  }

  /** The integer a column compares by. Text columns compare by the rank of the text among
      all texts of that column in the list, which orders them as `<` on strings does. */
  function ColumnValue(cases: seq<Case>, k: SortKey, c: Case): int {
    match k
    case ById => c.id
    case ByDescricao => StrRank(DescricaoSet(cases), c.descricao)
    case ByCidade => StrRank(CidadeSet(cases), c.cidade)
    case ByDataOcorrido => c.dataOcorrido
    case ByTempoAtivoDias => c.tempoAtivoDias
    case ByGravidade => SeverityRank(c.gravidade)
    case ByStatus => StatusRank(c.status)
    case ByTags => 0
  }

  /** The sort key of a configuration: descending sorts ascending on the negated value. */
  function SortKeyOf(cases: seq<Case>, cfg: SortConfig): Case -> int {
    (c: Case) => if cfg.direction == Ascending then ColumnValue(cases, cfg.key, c) else -ColumnValue(cases, cfg.key, c)
  }

  /** The sort applied to the filtered list: stable, by the chosen column and direction;
      the `tags` column leaves the order alone. */
  function SortCases(cases: seq<Case>, cfg: SortConfig): (r: seq<Case>)
    ensures |r| == |cases|
    ensures multiset(r) == multiset(cases)
    ensures cfg.key == ByTags ==> r == cases
    ensures cfg.key != ByTags ==> SortedBy(r, SortKeyOf(cases, cfg))
  {
    if cfg.key == ByTags then cases else SortBy(cases, SortKeyOf(cases, cfg))
  }

  /** Along the sorted list the column's value never decreases when ascending and never
      increases when descending. */
  lemma SortCasesOrder(cases: seq<Case>, cfg: SortConfig, i: int, j: int)
    requires cfg.key != ByTags
    requires 0 <= i < j < |cases|
    ensures var r := SortCases(cases, cfg);
            && (cfg.direction == Ascending ==> ColumnValue(cases, cfg.key, r[i]) <= ColumnValue(cases, cfg.key, r[j]))
            && (cfg.direction == Descending ==> ColumnValue(cases, cfg.key, r[i]) >= ColumnValue(cases, cfg.key, r[j]))
  {
    var r := SortCases(cases, cfg);
    assert SortKeyOf(cases, cfg)(r[i]) <= SortKeyOf(cases, cfg)(r[j]);
  }

  /** Sorting by severity orders the ranks Baixo 1 … Crítico 5 in the chosen direction. */
  lemma SeveritySortOrder(cases: seq<Case>, d: Direction, i: int, j: int)
    requires 0 <= i < j < |cases|
    ensures var r := SortCases(cases, SortConfig(ByGravidade, d));
            && (d == Ascending ==> SeverityRank(r[i].gravidade) <= SeverityRank(r[j].gravidade))
            && (d == Descending ==> SeverityRank(r[i].gravidade) >= SeverityRank(r[j].gravidade))
  {
    SortCasesOrder(cases, SortConfig(ByGravidade, d), i, j);
  }

  /** Sorting by a text column orders the texts as `<` on strings does. */
  lemma TextSortOrder(cases: seq<Case>, d: Direction, i: int, j: int)
    requires 0 <= i < j < |cases|
    ensures var r := SortCases(cases, SortConfig(ByCidade, d));
            && (d == Ascending ==> !StrLess(r[j].cidade, r[i].cidade))
            && (d == Descending ==> !StrLess(r[i].cidade, r[j].cidade))
    ensures var r := SortCases(cases, SortConfig(ByDescricao, d));
            && (d == Ascending ==> !StrLess(r[j].descricao, r[i].descricao))
            && (d == Descending ==> !StrLess(r[i].descricao, r[j].descricao))
  {
    CidadeSortOrder(cases, d, i, j);
    DescricaoSortOrder(cases, d, i, j);
  }

  lemma CidadeSortOrder(cases: seq<Case>, d: Direction, i: int, j: int)
    requires 0 <= i < j < |cases|
    ensures var r := SortCases(cases, SortConfig(ByCidade, d));
            && (d == Ascending ==> !StrLess(r[j].cidade, r[i].cidade))
            && (d == Descending ==> !StrLess(r[i].cidade, r[j].cidade))
  {
    var rc := SortCases(cases, SortConfig(ByCidade, d));
    SortCasesOrder(cases, SortConfig(ByCidade, d), i, j);
    assert rc[i] in multiset(cases) && rc[j] in multiset(cases);
    if StrLess(rc[j].cidade, rc[i].cidade) {
      StrRankOrder(CidadeSet(cases), rc[j].cidade, rc[i].cidade);
    }
    if StrLess(rc[i].cidade, rc[j].cidade) {
      StrRankOrder(CidadeSet(cases), rc[i].cidade, rc[j].cidade);
    }
  }

  lemma DescricaoSortOrder(cases: seq<Case>, d: Direction, i: int, j: int)
    requires 0 <= i < j < |cases|
    ensures var r := SortCases(cases, SortConfig(ByDescricao, d));
            && (d == Ascending ==> !StrLess(r[j].descricao, r[i].descricao))
            && (d == Descending ==> !StrLess(r[i].descricao, r[j].descricao))
  {
    var rd := SortCases(cases, SortConfig(ByDescricao, d));
    SortCasesOrder(cases, SortConfig(ByDescricao, d), i, j);
    assert rd[i] in multiset(cases) && rd[j] in multiset(cases);
    if StrLess(rd[j].descricao, rd[i].descricao) {
      StrRankOrder(DescricaoSet(cases), rd[j].descricao, rd[i].descricao);
    }
    if StrLess(rd[i].descricao, rd[j].descricao) {
      StrRankOrder(DescricaoSet(cases), rd[i].descricao, rd[j].descricao);
    }
  }

  /** Cases that tie on the column keep their relative order. */
  lemma SortCasesStable(cases: seq<Case>, cfg: SortConfig, k: int)
    requires cfg.key != ByTags
    ensures KeyClass(SortCases(cases, cfg), SortKeyOf(cases, cfg), k) == KeyClass(cases, SortKeyOf(cases, cfg), k)
  {
    SortByStable(cases, SortKeyOf(cases, cfg), k);
  }

  lemma SortedCasesStable(cases: seq<Case>, cfg: SortConfig)
    ensures cfg.key != ByTags ==> forall k ::
              KeyClass(SortCases(cases, cfg), SortKeyOf(cases, cfg), k) == KeyClass(cases, SortKeyOf(cases, cfg), k)
  {
    if cfg.key != ByTags {
      forall k
        ensures KeyClass(SortCases(cases, cfg), SortKeyOf(cases, cfg), k) == KeyClass(cases, SortKeyOf(cases, cfg), k)
      {
        SortCasesStable(cases, cfg, k);
      }
    }
  }

  /** The rows the table shows: the filtered cases, sorted by the chosen column, or in list
      order under `tags`. */
  function ShownCases(cases: seq<Case>, searchTerm: string, f: Filters, lower: string -> string, cfg: SortConfig): (r: seq<Case>)
    ensures forall c :: c in r <==> c in cases && MatchesSearch(c, lower(searchTerm), lower) && MatchesFilters(c, f)
    ensures multiset(r) == multiset(FilteredCases(cases, searchTerm, f, lower))
    ensures cfg.key != ByTags ==> SortedBy(r, SortKeyOf(FilteredCases(cases, searchTerm, f, lower), cfg))
    ensures cfg.key == ByTags ==> r == FilteredCases(cases, searchTerm, f, lower)
    ensures cfg.key != ByTags ==> forall k ::
              KeyClass(r, SortKeyOf(FilteredCases(cases, searchTerm, f, lower), cfg), k)
              == KeyClass(FilteredCases(cases, searchTerm, f, lower), SortKeyOf(FilteredCases(cases, searchTerm, f, lower), cfg), k)
  {
    var filtered := FilteredCases(cases, searchTerm, f, lower);
    var r := SortCases(filtered, cfg);
    assert forall c :: c in r <==> c in multiset(filtered);
    SortedCasesStable(filtered, cfg);
    r
  }

  /** `requestSort`: clicking the ascending column flips it to descending; clicking any
      other column, or a descending one, sorts it ascending; `tags` does nothing. */
  function RequestSort(cfg: SortConfig, k: SortKey): (r: SortConfig)
    ensures k == ByTags ==> r == cfg
    ensures k != ByTags ==> r.key == k
    ensures k != ByTags ==> (r.direction == Descending <==> cfg == SortConfig(k, Ascending))
  {
    if k == ByTags then cfg
    else if cfg.key == k && cfg.direction == Ascending then SortConfig(k, Descending)
    else SortConfig(k, Ascending)
  }

  /** Clicking the same column again always reverses the direction it just got. */
  lemma RequestSortToggles(cfg: SortConfig, k: SortKey)
    requires k != ByTags
    ensures RequestSort(RequestSort(cfg, k), k).key == k
    ensures RequestSort(RequestSort(cfg, k), k).direction != RequestSort(cfg, k).direction
  {
  }
}

=== FILE: dashboard_page.dfy ===
/** The dashboard panels computed from the processed data: the recent unsolved cases, the
    most wanted suspects, the best detectives and the two case charts. */
module DashboardPage {
  import opened Wrappers
  import opened Seqs
  import opened Types

  // ---- rankings ----

  const RecentCasesShown: nat := 5
  const MostWantedShown: nat := 3
  const TopDetectivesShown: nat := 2

  /** Neither solved nor archived. */
  predicate IsUnsolved(c: Case) {
    c.status != Resolvido && c.status != Arquivada
  }

  function NegDate(c: Case): int {
    -c.dataOcorrido
  }

  /** `RecentCases`: the five latest unsolved cases, latest first; cases of the same date
      are the earliest of that date in the list, in list order. */
  function RecentCases(cases: seq<Case>): (r: seq<Case>)
    ensures |r| <= RecentCasesShown
    ensures multiset(r) <= multiset(Filter(cases, IsUnsolved))
    ensures |r| == RecentCasesShown || multiset(r) == multiset(Filter(cases, IsUnsolved))
    ensures forall c :: c in r ==> c in cases && IsActive(c.status)
    ensures forall i, j :: 0 <= i < j < |r| ==> r[i].dataOcorrido >= r[j].dataOcorrido
    ensures forall x, y :: x in r && y in cases && IsActive(y.status) && y.dataOcorrido > x.dataOcorrido ==> y in r
    ensures forall d :: KeyClass(r, NegDate, d) <= KeyClass(Filter(cases, IsUnsolved), NegDate, d)
    ensures forall x, y :: x in r && y in Filter(cases, IsUnsolved) && y.dataOcorrido > x.dataOcorrido ==>
              KeyClass(r, NegDate, NegDate(y)) == KeyClass(Filter(cases, IsUnsolved), NegDate, NegDate(y))
  {
    RecentCasesFacts(cases);
    RecentCasesWholeClasses(cases);
    TopBy(Filter(cases, IsUnsolved), NegDate, RecentCasesShown)
  }

  lemma RecentCasesFacts(cases: seq<Case>)
    ensures var r := TopBy(Filter(cases, IsUnsolved), NegDate, RecentCasesShown);
            && (|r| == RecentCasesShown || multiset(r) == multiset(Filter(cases, IsUnsolved)))
            && (forall c :: c in r ==> c in cases && IsActive(c.status))
            && (forall i, j :: 0 <= i < j < |r| ==> r[i].dataOcorrido >= r[j].dataOcorrido)
  {
    var unsolved := Filter(cases, IsUnsolved);
    var r := TopBy(unsolved, NegDate, RecentCasesShown);
    SubmultisetMembers(r, unsolved);
    NewestFirst(r);
    if |r| < RecentCasesShown {
      SubmultisetOfSameSize(r, unsolved);
    }
  }

  lemma RecentCasesWholeClasses(cases: seq<Case>)
    ensures var unsolved := Filter(cases, IsUnsolved);
            var r := TopBy(unsolved, NegDate, RecentCasesShown);
            forall x, y :: x in r && y in unsolved && y.dataOcorrido > x.dataOcorrido ==>
              KeyClass(r, NegDate, NegDate(y)) == KeyClass(unsolved, NegDate, NegDate(y))
  {
    var unsolved := Filter(cases, IsUnsolved);
    var r := TopBy(unsolved, NegDate, RecentCasesShown);
    TopByWholeClasses(unsolved, NegDate, RecentCasesShown);
    forall x, y | x in r && y in unsolved && y.dataOcorrido > x.dataOcorrido
      ensures KeyClass(r, NegDate, NegDate(y)) == KeyClass(unsolved, NegDate, NegDate(y))
    {
      assert NegDate(y) < NegDate(x);
    }
  }

  lemma NewestFirst(r: seq<Case>)
    requires SortedBy(r, NegDate)
    ensures forall i, j :: 0 <= i < j < |r| ==> r[i].dataOcorrido >= r[j].dataOcorrido
  {
    assert forall i, j :: 0 <= i < j < |r| ==> NegDate(r[i]) <= NegDate(r[j]);
  }

  lemma SubmultisetMembers<T>(a: seq<T>, b: seq<T>)
    requires multiset(a) <= multiset(b)
    ensures forall x :: x in a ==> x in b
  {
    forall x | x in a
      ensures x in b
    {
      assert x in multiset(a);
    }
  }

  /** A sub-multiset as large as the whole is the whole. */
  lemma SubmultisetOfSameSize<T>(a: seq<T>, b: seq<T>)
    requires multiset(a) <= multiset(b) && |a| == |b|
    ensures multiset(a) == multiset(b)
  {
    var d := multiset(b) - multiset(a);
    assert multiset(b) == multiset(a) + d;
    assert |d| == 0;
  }

  function NegDanger(s: SuspectWithCases): int {
    -s.suspect.pontuacaoPerigo
  }

  /** `MostWanted`: the three suspects with the highest danger score, highest first; of
      suspects with equal scores the earliest in the list are taken, in list order. The list
      itself is left as it was. */
  function MostWanted(suspects: seq<SuspectWithCases>): (r: seq<SuspectWithCases>)
    ensures |r| == if MostWantedShown < |suspects| then MostWantedShown else |suspects|
    ensures multiset(r) <= multiset(suspects)
    ensures forall i, j :: 0 <= i < j < |r| ==> r[i].suspect.pontuacaoPerigo >= r[j].suspect.pontuacaoPerigo
    ensures forall x, y :: x in r && y in suspects && y.suspect.pontuacaoPerigo > x.suspect.pontuacaoPerigo ==> y in r
    ensures forall k :: KeyClass(r, NegDanger, k) <= KeyClass(suspects, NegDanger, k)
    ensures forall x, y :: x in r && y in suspects && y.suspect.pontuacaoPerigo > x.suspect.pontuacaoPerigo ==>
              KeyClass(r, NegDanger, NegDanger(y)) == KeyClass(suspects, NegDanger, NegDanger(y))
  {
    var r := TopBy(suspects, NegDanger, MostWantedShown);
    MostWantedWholeClasses(suspects);
    assert forall i, j :: 0 <= i < j < |r| ==> NegDanger(r[i]) <= NegDanger(r[j]);
    r
  }

  lemma MostWantedWholeClasses(suspects: seq<SuspectWithCases>)
    ensures var r := TopBy(suspects, NegDanger, MostWantedShown);
            forall x, y :: x in r && y in suspects && y.suspect.pontuacaoPerigo > x.suspect.pontuacaoPerigo ==>
              KeyClass(r, NegDanger, NegDanger(y)) == KeyClass(suspects, NegDanger, NegDanger(y))
  {
    var r := TopBy(suspects, NegDanger, MostWantedShown);
    TopByWholeClasses(suspects, NegDanger, MostWantedShown);
    forall x, y | x in r && y in suspects && y.suspect.pontuacaoPerigo > x.suspect.pontuacaoPerigo
      ensures KeyClass(r, NegDanger, NegDanger(y)) == KeyClass(suspects, NegDanger, NegDanger(y))
    {
      assert NegDanger(y) < NegDanger(x);
    }
  }

  function NegSuccess(d: DetectiveWithStats): int {
    -d.successRate
  }

  /** `TopDetectives`: the two detectives with the best success rate, best first; of
      detectives with equal rates the earliest in the list are taken, in list order. */
  function TopDetectives(detectives: seq<DetectiveWithStats>): (r: seq<DetectiveWithStats>)
    ensures |r| == if TopDetectivesShown < |detectives| then TopDetectivesShown else |detectives|
    ensures multiset(r) <= multiset(detectives)
    ensures forall i, j :: 0 <= i < j < |r| ==> r[i].successRate >= r[j].successRate
    ensures forall x, y :: x in r && y in detectives && y.successRate > x.successRate ==> y in r
    ensures forall k :: KeyClass(r, NegSuccess, k) <= KeyClass(detectives, NegSuccess, k)
    ensures forall x, y :: x in r && y in detectives && y.successRate > x.successRate ==>
              KeyClass(r, NegSuccess, NegSuccess(y)) == KeyClass(detectives, NegSuccess, NegSuccess(y))
  {
    var r := TopBy(detectives, NegSuccess, TopDetectivesShown);
    TopDetectivesWholeClasses(detectives);
    assert forall i, j :: 0 <= i < j < |r| ==> NegSuccess(r[i]) <= NegSuccess(r[j]);
    r
  }

  lemma TopDetectivesWholeClasses(detectives: seq<DetectiveWithStats>)
    ensures var r := TopBy(detectives, NegSuccess, TopDetectivesShown);
            forall x, y :: x in r && y in detectives && y.successRate > x.successRate ==>
              KeyClass(r, NegSuccess, NegSuccess(y)) == KeyClass(detectives, NegSuccess, NegSuccess(y))
  {
    var r := TopBy(detectives, NegSuccess, TopDetectivesShown);
    TopByWholeClasses(detectives, NegSuccess, TopDetectivesShown);
    forall x, y | x in r && y in detectives && y.successRate > x.successRate
      ensures KeyClass(r, NegSuccess, NegSuccess(y)) == KeyClass(detectives, NegSuccess, NegSuccess(y))
    {
      assert NegSuccess(y) < NegSuccess(x);
    }
  }

  // ---- charts ----

  /** One bar or slice of a chart. */
  datatype Bucket<K> = Bucket(name: K, value: int)

  function Total<K>(bs: seq<Bucket<K>>): int
    decreases |bs|
  {
    if bs == [] then 0 else bs[0].value + Total(bs[1..])
  }

  /** The order the severities are declared in the chart's count record. */
  function SeverityOrder(): seq<CaseSeverity> {
    [Critico, Gravissimo, Grave, Medio, Baixo]
  }

  /** The per-case tally of `severityCounts[c.gravidade]++`. */
  function CountSeverity(cases: seq<Case>, g: CaseSeverity): nat
    decreases |cases|
  {
    if cases == [] then 0
    else (if cases[0].gravidade == g then 1 else 0) + CountSeverity(cases[1..], g)
  }

  function OfSeverity(g: CaseSeverity): Case -> bool {
    (c: Case) => c.gravidade == g
  }

  /** The tally counts exactly the cases of that severity. */
  lemma {:induction false} CountSeverityFilter(cases: seq<Case>, g: CaseSeverity)
    ensures CountSeverity(cases, g) == |Filter(cases, OfSeverity(g))|
    decreases |cases|
  {
    if cases != [] {
      assert cases == [cases[0]] + cases[1..];
      FilterCons(cases[0], cases[1..], OfSeverity(g));
      CountSeverityFilter(cases[1..], g);
    }
  }

  /** `severityData`: the number of cases of each severity, in declaration order. */
  function SeverityData(cases: seq<Case>): (r: seq<Bucket<CaseSeverity>>)
    ensures |r| == |SeverityOrder()|
    ensures forall i :: 0 <= i < |r| ==> r[i].name == SeverityOrder()[i]
    ensures forall i :: 0 <= i < |r| ==> r[i].value == |Filter(cases, OfSeverity(r[i].name))|
  {
    CountSeverityFilter(cases, Critico);
    CountSeverityFilter(cases, Gravissimo);
    CountSeverityFilter(cases, Grave);
    CountSeverityFilter(cases, Medio);
    CountSeverityFilter(cases, Baixo);
    Map((g: CaseSeverity) => Bucket(g, CountSeverity(cases, g)), SeverityOrder())
  }

  lemma {:induction false} SeverityCountsAddUp(cases: seq<Case>)
    ensures CountSeverity(cases, Critico) + CountSeverity(cases, Gravissimo) + CountSeverity(cases, Grave)
            + CountSeverity(cases, Medio) + CountSeverity(cases, Baixo) == |cases|
    decreases |cases|
  {
    if cases != [] {
      SeverityCountsAddUp(cases[1..]);
    }
  }

  /** Every case falls in exactly one severity bar. */
  lemma SeverityBucketsCoverCases(cases: seq<Case>)
    ensures Total(SeverityData(cases)) == |cases|
  {
    var r := SeverityData(cases);
    SeverityCountsAddUp(cases);
    assert r[0].value == CountSeverity(cases, Critico);
    assert r[4].value == CountSeverity(cases, Baixo);
    assert r[4..][1..] == [];
    assert Total(r) == r[0].value + r[1].value + r[2].value + r[3].value + r[4].value by {
      assert r[1..][1..] == r[2..] && r[2..][1..] == r[3..] && r[3..][1..] == r[4..];
    }
  }

  /** The order the statuses are declared in the chart's count record. */
  function StatusOrder(): seq<CaseStatus> {
    [Investigacao, Reaberta, Resolvido, Arquivada]
  }

  /** The per-case tally of `statusCounts[c.status]++`. */
  function CountStatus(cases: seq<Case>, s: CaseStatus): nat
    decreases |cases|
  {
    if cases == [] then 0
    else (if cases[0].status == s then 1 else 0) + CountStatus(cases[1..], s)
  }

  function OfStatus(s: CaseStatus): Case -> bool {
    (c: Case) => c.status == s
  }

  /** The tally counts exactly the cases in that status. */
  lemma {:induction false} CountStatusFilter(cases: seq<Case>, s: CaseStatus)
    ensures CountStatus(cases, s) == |Filter(cases, OfStatus(s))|
    decreases |cases|
  {
    if cases != [] {
      assert cases == [cases[0]] + cases[1..];
      FilterCons(cases[0], cases[1..], OfStatus(s));
      CountStatusFilter(cases[1..], s);
    }
  }

  /** `statusData`: the number of cases in each status, in declaration order. */
  function StatusData(cases: seq<Case>): (r: seq<Bucket<CaseStatus>>)
    ensures |r| == |StatusOrder()|
    ensures forall i :: 0 <= i < |r| ==> r[i].name == StatusOrder()[i]
    ensures forall i :: 0 <= i < |r| ==> r[i].value == |Filter(cases, OfStatus(r[i].name))|
  {
    CountStatusFilter(cases, Investigacao);
    CountStatusFilter(cases, Reaberta);
    CountStatusFilter(cases, Resolvido);
    CountStatusFilter(cases, Arquivada);
    Map((s: CaseStatus) => Bucket(s, CountStatus(cases, s)), StatusOrder())
  }

  lemma {:induction false} StatusCountsAddUp(cases: seq<Case>)
    ensures CountStatus(cases, Investigacao) + CountStatus(cases, Reaberta)
            + CountStatus(cases, Resolvido) + CountStatus(cases, Arquivada) == |cases|
    decreases |cases|
  {
    if cases != [] {
      StatusCountsAddUp(cases[1..]);
    }
  }

  /** Every case falls in exactly one status slice. */
  lemma StatusBucketsCoverCases(cases: seq<Case>)
    ensures Total(StatusData(cases)) == |cases|
  {
    var r := StatusData(cases);
    StatusCountsAddUp(cases);
    assert r[0].value == CountStatus(cases, Investigacao);
    assert r[3].value == CountStatus(cases, Arquivada);
    assert r[3..][1..] == [];
    assert Total(r) == r[0].value + r[1].value + r[2].value + r[3].value by {
      assert r[1..][1..] == r[2..] && r[2..][1..] == r[3..];
    }
  }

  /** `maxCount`: the largest bar, and at least 1 so that the bar widths can be divided by
      it; no bar is wider than it. */
  function MaxCount<K>(bs: seq<Bucket<K>>): (r: int)
    ensures r >= 1
    ensures forall b :: b in bs ==> b.value <= r
    ensures r == 1 || exists b :: b in bs && b.value == r
    decreases |bs|
  {
    if bs == [] then 1
    else
      var rest := MaxCount(bs[1..]);
      assert forall b :: b in bs ==> b == bs[0] || b in bs[1..];
      if bs[0].value > rest then bs[0].value else rest
  }
}

=== FILE: data.dfy ===
/** `processData`: turns the stored tables into the denormalised view every page reads. */
module Data {
  import opened Wrappers
  import opened Seqs
  import opened Types
  import opened DataCases
  import opened DataProjections
  import opened DataStats
  import opened DataTimeline

  /** Every stored record yields exactly one view, in table order, built from it. */
  function ProcessData(raw: RawData, lk: Lookups, today: Time): (r: ProcessedData)
    ensures |r.cases| == |raw.casesRaw|
    ensures |r.detectives| == |raw.detectivesRaw|
    ensures |r.suspeitos| == |raw.suspectsRaw|
    ensures |r.victims| == |raw.victimsRaw|
    ensures |r.witnesses| == |raw.witnessesRaw|
    ensures |r.evidences| == |raw.evidencesRaw|
    ensures |r.forenseAnalyses| == |raw.forenseAnalysesRaw|
    ensures |r.timelineEvents| >= |raw.casesRaw|
  {
    var cases := ResolveCases(raw, lk, today);
    var suspects := EnrichedSuspects(raw, lk);
    var victims := StatusedVictims(raw);
    var detectives := DetectivesWithStats(EnrichedDetectives(raw, lk), cases);
    ProcessedData(
      detectives,
      SuspectsWithCases(suspects, cases),
      cases,
      VictimsWithCase(victims, raw.casosVitimas, cases),
      WitnessesWithCaseCount(raw.witnessesRaw, raw.casosTestemunhas),
      EvidencesWithCase(raw.evidencesRaw, raw.casosEvidencias, cases),
      Map((fa: RawAnalysis) => ResolveAnalysis(fa, cases, raw.evidencesRaw, suspects, lk), raw.forenseAnalysesRaw),
      SummaryStats(cases, suspects, detectives),
      VictimStatsOf(victims),
      TimelineEvents(cases, raw.evidencesRaw, raw.casosEvidencias))
  }

  /** The suspect and victim views wrap the stored record at the same position. */
  lemma ProcessDataWrapsPeople(raw: RawData, lk: Lookups, today: Time)
    ensures var r := ProcessData(raw, lk, today);
            && (forall i :: 0 <= i < |r.suspeitos| ==> r.suspeitos[i].suspect == EnrichSuspect(raw.suspectsRaw[i], lk))
            && (forall i :: 0 <= i < |r.victims| ==> r.victims[i].victim == WithStatus(raw.victimsRaw[i]))
  {
  }

  /** The witness, evidence and analysis views wrap the stored record at the same position. */
  lemma ProcessDataWrapsRecords(raw: RawData, lk: Lookups, today: Time)
    ensures var r := ProcessData(raw, lk, today);
            && (forall i :: 0 <= i < |r.witnesses| ==> r.witnesses[i].testemunha == raw.witnessesRaw[i])
            && (forall i :: 0 <= i < |r.evidences| ==> r.evidences[i].evidence == raw.evidencesRaw[i])
            && (forall i :: 0 <= i < |r.forenseAnalyses| ==>
                  r.forenseAnalyses[i].analysis == raw.forenseAnalysesRaw[i])
  {
  }

  /** The headline averages of processed data are a percentage and a day count. */
  lemma ProcessedStatsBounded(raw: RawData, lk: Lookups, today: Time)
    ensures 0 <= ProcessData(raw, lk, today).stats.averageSuccessRate <= 100
    ensures ProcessData(raw, lk, today).stats.averageCaseAge >= 0
  {
    ProcessedStatsOf(raw, lk, today);
    CaseAgesNonNegative(raw, lk, today);
  }

  /** The headline figures are computed from the resolved cases and the detectives' stats. */
  lemma ProcessedStatsOf(raw: RawData, lk: Lookups, today: Time)
    ensures var cases := ResolveCases(raw, lk, today);
            ProcessData(raw, lk, today).stats
            == SummaryStats(cases, EnrichedSuspects(raw, lk), DetectivesWithStats(EnrichedDetectives(raw, lk), cases))
  {
  }

  lemma CaseAgesNonNegative(raw: RawData, lk: Lookups, today: Time)
    ensures forall c :: c in ResolveCases(raw, lk, today) ==> c.tempoAtivoDias >= 0
  {
    var cases := ResolveCases(raw, lk, today);
    forall c | c in cases
      ensures c.tempoAtivoDias >= 0
    {
      var i :| 0 <= i < |cases| && cases[i] == c;
      assert c == ResolveCase(raw, lk, today, raw.casesRaw[i]);
    }
  }
}

=== FILE: data_cases.dfy ===
/** The first half of `processData`: enrichment of the stored tables and the resolution of
    every stored case into its denormalised view (linked detectives, suspects, victims,
    witnesses with testimonies, evidence, active duration and criminal-cell flag). */
module DataCases {
  import opened Wrappers
  import opened Numbers
  import opened Seqs
  import opened Types

  const MsPerDay: int := 1000 * 60 * 60 * 24

  /** The fixed danger-score table, keyed by suspect id. */
  const DangerScores: map<int, int> :=
    map[100 := 95, 101 := 30, 102 := 75, 103 := 60, 104 := 85,
        105 := 90, 106 := 50, 107 := 98, 108 := 100, 109 := 92]

  const DefaultDangerScore: int := 20

  /** Photos and canned report texts: opaque lookups supplied by the caller. */
  datatype Lookups = Lookups(
    detectivePhoto: RawDetective -> string,
    suspectPhoto: RawSuspect -> string,
    forenseReport: int -> Option<AIForenseAnalysis>)

  /** A suspect's danger score: the table entry, or 20 for ids the table does not know. */
  function DangerScore(id: int): (score: int)
    ensures id in DangerScores ==> score == DangerScores[id]
    ensures id !in DangerScores ==> score == DefaultDangerScore
    ensures DefaultDangerScore <= score <= 100
    ensures score > 80 <==> id in {100, 104, 105, 107, 108, 109}
  {
    if id in DangerScores && DangerScores[id] != 0 then DangerScores[id] else DefaultDangerScore
  }

  function EnrichDetective(d: RawDetective, lk: Lookups): Detective {
    Detective(d.id, d.nome, d.cargo, d.especialidade, lk.detectivePhoto(d))
  }

  function EnrichSuspect(s: RawSuspect, lk: Lookups): Suspect {
    Suspect(s.id, s.nome, s.apelido, s.idade, s.historicoCriminal, s.fisico,
            DangerScore(s.id), lk.suspectPhoto(s))
  }

  /** The six-slot table the victim status is read from (four alive, one missing, one dead). */
  const WeightedStatuses: seq<VictimStatus> := [Viva, Viva, Viva, Viva, Desaparecida, Morta]

  /** The status shown for a victim, a pure function of its id: slot `id % 6` of the
      weighted table, with JavaScript's remainder, so a negative id that is not a
      multiple of six reads past the table and has no status. */
  function VictimStatusOf(id: int): (st: Option<VictimStatus>)
    ensures st.Some? <==> id >= 0 || id % 6 == 0
    ensures id >= 0 ==> (st == Some(Viva) <==> id % 6 < 4)
    ensures id >= 0 ==> (st == Some(Desaparecida) <==> id % 6 == 4)
    ensures id >= 0 ==> (st == Some(Morta) <==> id % 6 == 5)
  {
    var r := JsRem(id, |WeightedStatuses|);
    if r >= 0 then Some(WeightedStatuses[r]) else None
  }

  function WithStatus(v: RawVictim): Victim {
    Victim(v.id, v.nome, v.idade, v.ocupacao, VictimStatusOf(v.id))
  }

  function EnrichedDetectives(raw: RawData, lk: Lookups): (ds: seq<Detective>)
    ensures |ds| == |raw.detectivesRaw|
    ensures forall i :: 0 <= i < |ds| ==> ds[i] == EnrichDetective(raw.detectivesRaw[i], lk)
    ensures forall i :: 0 <= i < |ds| ==> ds[i].id == raw.detectivesRaw[i].id
  {
    Map((d: RawDetective) => EnrichDetective(d, lk), raw.detectivesRaw)
  }

  function EnrichedSuspects(raw: RawData, lk: Lookups): (ss: seq<Suspect>)
    ensures |ss| == |raw.suspectsRaw|
    ensures forall i :: 0 <= i < |ss| ==> ss[i] == EnrichSuspect(raw.suspectsRaw[i], lk)
    ensures forall i :: 0 <= i < |ss| ==> ss[i].id == raw.suspectsRaw[i].id
    ensures forall i :: 0 <= i < |ss| ==> ss[i].pontuacaoPerigo == DangerScore(ss[i].id)
  {
    Map((s: RawSuspect) => EnrichSuspect(s, lk), raw.suspectsRaw)
  }

  function StatusedVictims(raw: RawData): (vs: seq<Victim>)
    ensures |vs| == |raw.victimsRaw|
    ensures forall i :: 0 <= i < |vs| ==> vs[i] == WithStatus(raw.victimsRaw[i])
    ensures forall i :: 0 <= i < |vs| ==> vs[i].id == raw.victimsRaw[i].id && vs[i].idade == raw.victimsRaw[i].idade
    ensures forall i :: 0 <= i < |vs| ==> vs[i].ocupacao == raw.victimsRaw[i].ocupacao
    ensures forall i :: 0 <= i < |vs| ==> vs[i].status == VictimStatusOf(vs[i].id)
  {
    Map(WithStatus, raw.victimsRaw)
  }

  // ---- durations ----

  /** Whole days from `from` to `to`, rounded up and never negative. */
  function DaysBetween(from: Time, to: Time): (d: int)
    ensures d >= 0
    ensures to <= from ==> d == 0
    ensures to > from ==> (d - 1) * MsPerDay < to - from <= d * MsPerDay
  {
    Max(0, CeilDiv(to - from, MsPerDay))
  }

  /** `tempo_ativo_dias`: open cases count from the occurrence to today, resolved cases
      from the occurrence to the closure, archived cases from the closure to today; a
      closed case without a closure date counts zero. */
  function ActiveDays(c: RawCase, today: Time): (d: int)
    ensures d >= 0
    ensures IsActive(c.status) ==> d == DaysBetween(c.dataOcorrido, today)
    ensures !IsActive(c.status) && c.dataFinalizacao.None? ==> d == 0
    ensures c.status == Resolvido && c.dataFinalizacao.Some? ==>
              d == DaysBetween(c.dataOcorrido, c.dataFinalizacao.value)
    ensures c.status == Arquivada && c.dataFinalizacao.Some? ==>
              d == DaysBetween(c.dataFinalizacao.value, today)
  {
    if IsActive(c.status) then DaysBetween(c.dataOcorrido, today)
    else match c.dataFinalizacao
      case None => 0
      case Some(fim) =>
        if c.status == Resolvido then DaysBetween(c.dataOcorrido, fim)
        else DaysBetween(fim, today)
  }

  // ---- join rows ----

  /** The rows of a join table that belong to one case, in table order. */
  function RowsOfCase(rows: seq<Link>, caseId: int): (r: seq<Link>)
    ensures forall l :: l in r <==> l in rows && l.idCaso == caseId
    ensures forall l :: multiset(r)[l] == if l.idCaso == caseId then multiset(rows)[l] else 0
  {
    Filter(rows, (l: Link) => l.idCaso == caseId)
  }

  /** The entity ids a case is linked to (duplicates and dangling ids included). */
  function LinkedIds(rows: seq<Link>, caseId: int): (ids: seq<int>)
    ensures |ids| == |RowsOfCase(rows, caseId)|
    ensures forall x :: x in ids <==> Link(caseId, x) in rows
  {
    var rs := RowsOfCase(rows, caseId);
    var ids := Map((l: Link) => l.idEntidade, rs);
    assert forall x :: x in ids ==> Link(caseId, x) in rows by {
      forall x | x in ids ensures Link(caseId, x) in rows {
        var i :| 0 <= i < |ids| && ids[i] == x;
        assert rs[i] in rs;
      }
    }
    assert forall x :: Link(caseId, x) in rows ==> x in ids by {
      forall x | Link(caseId, x) in rows ensures x in ids {
        assert Link(caseId, x) in rs;
        var i :| 0 <= i < |rs| && rs[i] == Link(caseId, x);
        assert ids[i] == x;
      }
    }
    ids
  }

  /** `table.filter(x => ids.includes(x.id))`. */
  function SelectByIds<T(==,!new)>(s: seq<T>, idOf: T -> int, ids: seq<int>): (r: seq<T>)
    ensures forall x :: x in r <==> x in s && idOf(x) in ids
    ensures forall x :: multiset(r)[x] == if idOf(x) in ids then multiset(s)[x] else 0
    ensures IsSubseq(r, s)
  {
    Filter(s, (x: T) => idOf(x) in ids)
  }

  /** The records of a table that a join table links to the case, in table order and
      with their multiplicities. */
  function LinkedTo<T(==,!new)>(s: seq<T>, idOf: T -> int, rows: seq<Link>, caseId: int): (r: seq<T>)
    ensures forall x :: x in r <==> x in s && Link(caseId, idOf(x)) in rows
    ensures forall x :: multiset(r)[x] == if Link(caseId, idOf(x)) in rows then multiset(s)[x] else 0
    ensures IsSubseq(r, s)
  {
    SelectByIds(s, idOf, LinkedIds(rows, caseId))
  }

  // ---- witnesses of a case ----

  /** Whether a testimony row is one witness's row in one case. */
  function OfPair(caseId: int, witnessId: int): Testimony -> bool {
    (t: Testimony) => t.idCaso == caseId && t.idTestemunha == witnessId
  }

  /** The row one statement of a witness in a case is stored as. */
  function RowOf(caseId: int, witnessId: int): string -> Testimony {
    (d: string) => Testimony(caseId, witnessId, d)
  }

  /** The witness column of a case's rows, in row order and with repeats. */
  function WitnessColumn(rows: seq<Testimony>, caseId: int): (col: seq<int>)
    ensures forall w :: w in col <==> exists t :: t in rows && t.idCaso == caseId && t.idTestemunha == w
    decreases |rows|
  {
    if rows == [] then []
    else
      var rest := WitnessColumn(rows[1..], caseId);
      assert forall t :: t in rows <==> t == rows[0] || t in rows[1..];
      (if rows[0].idCaso == caseId then [rows[0].idTestemunha] else []) + rest
  }

  /** `rows.findIndex(...)` for a witness's first row in a case, with `|rows|` for none. */
  function FirstRowOf(rows: seq<Testimony>, caseId: int, w: int): (p: nat)
    ensures p <= |rows|
    ensures p < |rows| ==> rows[p].idCaso == caseId && rows[p].idTestemunha == w
    ensures forall q :: 0 <= q < p ==> !(rows[q].idCaso == caseId && rows[q].idTestemunha == w)
    decreases |rows|
  {
    if rows == [] then 0
    else if rows[0].idCaso == caseId && rows[0].idTestemunha == w then 0
    else 1 + FirstRowOf(rows[1..], caseId, w)
  }

  /** A witness seen earlier in the column has its first row of the case earlier in the table. */
  lemma {:induction false} ColumnOrder(rows: seq<Testimony>, caseId: int, w1: int, w2: int)
    requires IndexOf(WitnessColumn(rows, caseId), w1) < IndexOf(WitnessColumn(rows, caseId), w2)
    ensures FirstRowOf(rows, caseId, w1) < FirstRowOf(rows, caseId, w2)
    decreases |rows|
  {
    var col := WitnessColumn(rows, caseId);
    if rows == [] {
      assert false;
    }
    var tail := WitnessColumn(rows[1..], caseId);
    if rows[0].idCaso == caseId {
      assert col[0] == rows[0].idTestemunha && col[1..] == tail;
      assert w2 != rows[0].idTestemunha;
      if w1 != rows[0].idTestemunha {
        assert IndexOf(col, w1) == 1 + IndexOf(tail, w1);
        assert IndexOf(col, w2) == 1 + IndexOf(tail, w2);
        ColumnOrder(rows[1..], caseId, w1, w2);
      }
    } else {
      assert col == tail;
      ColumnOrder(rows[1..], caseId, w1, w2);
    }
  }

  lemma OrderedIds(rows: seq<Testimony>, caseId: int, ids: seq<int>)
    requires forall i, j :: 0 <= i < j < |ids| ==> IndexOf(WitnessColumn(rows, caseId), ids[i]) < IndexOf(WitnessColumn(rows, caseId), ids[j])
    ensures forall i, j :: 0 <= i < j < |ids| ==> FirstRowOf(rows, caseId, ids[i]) < FirstRowOf(rows, caseId, ids[j])
  {
    forall i, j | 0 <= i < j < |ids| {
      ColumnOrder(rows, caseId, ids[i], ids[j]);
    }
  }

  /** The distinct witness ids of a case's testimony rows, in order of first appearance. */
  function WitnessIdsOfCase(rows: seq<Testimony>, caseId: int): (ids: seq<int>)
    ensures Distinct(ids)
    ensures forall w :: w in ids <==> exists t :: t in rows && t.idCaso == caseId && t.idTestemunha == w
    ensures forall i, j :: 0 <= i < j < |ids| ==> FirstRowOf(rows, caseId, ids[i]) < FirstRowOf(rows, caseId, ids[j])
  {
    var all := WitnessColumn(rows, caseId);
    var ids := Dedup(all);
    OrderedIds(rows, caseId, ids);
    ids
  }

  /** The testimonies one witness gave in one case, in row order. */
  function TestimoniesOf(rows: seq<Testimony>, caseId: int, witnessId: int): seq<string>
    decreases |rows|
  {
    if rows == [] then []
    else
      (if rows[0].idCaso == caseId && rows[0].idTestemunha == witnessId then [rows[0].depoimento] else [])
      + TestimoniesOf(rows[1..], caseId, witnessId)
  }

  /** Each testimony text occurs as often as its row does. */
  lemma {:induction false} TestimoniesOfCounts(rows: seq<Testimony>, caseId: int, witnessId: int)
    ensures forall d :: multiset(TestimoniesOf(rows, caseId, witnessId))[d] == multiset(rows)[Testimony(caseId, witnessId, d)]
    decreases |rows|
  {
    if rows != [] {
      assert rows == [rows[0]] + rows[1..];
      TestimoniesOfCounts(rows[1..], caseId, witnessId);
    }
  }

  /** The testimonies are exactly the matching rows, in the order of the table. */
  lemma {:induction false} TestimoniesAreMatchingRows(rows: seq<Testimony>, caseId: int, witnessId: int)
    ensures Map(RowOf(caseId, witnessId), TestimoniesOf(rows, caseId, witnessId)) == Filter(rows, OfPair(caseId, witnessId))
    decreases |rows|
  {
    if rows != [] {
      var f := RowOf(caseId, witnessId);
      var head := if rows[0].idCaso == caseId && rows[0].idTestemunha == witnessId then [rows[0].depoimento] else [];
      var rest := TestimoniesOf(rows[1..], caseId, witnessId);
      assert TestimoniesOf(rows, caseId, witnessId) == head + rest;
      MapConcat(f, head, rest);
      TestimoniesAreMatchingRows(rows[1..], caseId, witnessId);
      if head != [] {
        assert Map(f, head) == [rows[0]];
      }
    }
  }

  /** `witnesses.find(w => w.id === id)`: the first witness with the id. */
  function WitnessById(witnesses: seq<Witness>, id: int): (r: Option<Witness>)
    ensures r.Some? ==> r.value in witnesses && r.value.id == id
    ensures r.None? <==> forall w :: w in witnesses ==> w.id != id
    ensures r.Some? ==> exists i :: 0 <= i < |witnesses| && witnesses[i] == r.value
                                    && forall j :: 0 <= j < i ==> witnesses[j].id != id
  {
    Find(witnesses, (w: Witness) => w.id == id)
  }

  lemma CaseWitnessCounts(rows: seq<Testimony>, caseId: int, ids: seq<int>)
    ensures forall i, d :: 0 <= i < |ids| ==>
              multiset(TestimoniesOf(rows, caseId, ids[i]))[d] == multiset(rows)[Testimony(caseId, ids[i], d)]
    ensures forall i :: 0 <= i < |ids| ==>
              Map(RowOf(caseId, ids[i]), TestimoniesOf(rows, caseId, ids[i])) == Filter(rows, OfPair(caseId, ids[i]))
  {
    forall i | 0 <= i < |ids| {
      TestimoniesOfCounts(rows, caseId, ids[i]);
    }
    forall i | 0 <= i < |ids| {
      TestimoniesAreMatchingRows(rows, caseId, ids[i]);
    }
  }

  /** `testemunhas` of a case: one entry per distinct witness of the case, carrying all of
      that witness's testimonies for the case. */
  function CaseWitnesses(witnesses: seq<Witness>, rows: seq<Testimony>, caseId: int): (r: seq<CaseWitness>)
    ensures |r| == |WitnessIdsOfCase(rows, caseId)|
    ensures forall i :: 0 <= i < |r| ==>
              var w := WitnessIdsOfCase(rows, caseId)[i];
              && (r[i].testemunha.Some? ==> r[i].testemunha.value in witnesses && r[i].testemunha.value.id == w)
              && (r[i].testemunha.None? <==> forall x :: x in witnesses ==> x.id != w)
              && (forall d :: multiset(r[i].depoimentos)[d] == multiset(rows)[Testimony(caseId, w, d)])
              && Map(RowOf(caseId, w), r[i].depoimentos) == Filter(rows, OfPair(caseId, w))
  {
    var ids := WitnessIdsOfCase(rows, caseId);
    CaseWitnessCounts(rows, caseId, ids);
    Map((w: int) => CaseWitness(WitnessById(witnesses, w), TestimoniesOf(rows, caseId, w)), ids)
  }

  // ---- the case view ----

  /** The view of one stored case. */
  function ResolveCase(raw: RawData, lk: Lookups, today: Time, c: RawCase): (r: Case)
    ensures r.id == c.id && r.descricao == c.descricao && r.dataOcorrido == c.dataOcorrido
    ensures r.status == c.status && r.gravidade == c.gravidade && r.cidade == c.cidade
    ensures r.dataFinalizacao == c.dataFinalizacao
    ensures r.anexos == c.anexos.GetOr([])
    ensures r.tempoAtivoDias == ActiveDays(c, today)
    ensures IsSubseq(r.detetives, EnrichedDetectives(raw, lk))
    ensures forall d :: multiset(r.detetives)[d]
                        == if Link(c.id, d.id) in raw.casosDetetives then multiset(EnrichedDetectives(raw, lk))[d] else 0
    ensures forall d :: d in r.detetives <==> d in EnrichedDetectives(raw, lk) && Link(c.id, d.id) in raw.casosDetetives
    ensures IsSubseq(r.suspeitos, EnrichedSuspects(raw, lk))
    ensures forall s :: multiset(r.suspeitos)[s]
                        == if Link(c.id, s.id) in raw.casosSuspeitos then multiset(EnrichedSuspects(raw, lk))[s] else 0
    ensures forall s :: s in r.suspeitos <==> s in EnrichedSuspects(raw, lk) && Link(c.id, s.id) in raw.casosSuspeitos
    ensures IsSubseq(r.vitimas, StatusedVictims(raw))
    ensures forall v :: multiset(r.vitimas)[v]
                        == if Link(c.id, v.id) in raw.casosVitimas then multiset(StatusedVictims(raw))[v] else 0
    ensures forall v :: v in r.vitimas <==> v in StatusedVictims(raw) && Link(c.id, v.id) in raw.casosVitimas
    ensures IsSubseq(r.evidencias, raw.evidencesRaw)
    ensures forall e :: multiset(r.evidencias)[e]
                        == if Link(c.id, e.id) in raw.casosEvidencias then multiset(raw.evidencesRaw)[e] else 0
    ensures forall e :: e in r.evidencias <==> e in raw.evidencesRaw && Link(c.id, e.id) in raw.casosEvidencias
    ensures r.testemunhas == CaseWitnesses(raw.witnessesRaw, raw.casosTestemunhas, c.id)
    ensures r.isCriminalCell <==> |RowsOfCase(raw.casosSuspeitos, c.id)| > 1
  {
    Case(
      c.id, c.descricao, c.dataOcorrido, c.dataFinalizacao, c.cidade, c.status, c.gravidade,
      ActiveDays(c, today),
      LinkedTo(EnrichedDetectives(raw, lk), DetectiveId, raw.casosDetetives, c.id),
      LinkedTo(EnrichedSuspects(raw, lk), SuspectId, raw.casosSuspeitos, c.id),
      LinkedTo(StatusedVictims(raw), VictimId, raw.casosVitimas, c.id),
      CaseWitnesses(raw.witnessesRaw, raw.casosTestemunhas, c.id),
      LinkedTo(raw.evidencesRaw, EvidenceId, raw.casosEvidencias, c.id),
      |LinkedIds(raw.casosSuspeitos, c.id)| > 1,
      c.anexos.GetOr([]))
  }

  /** `cases`: one view per stored case, in table order. */
  function ResolveCases(raw: RawData, lk: Lookups, today: Time): (cs: seq<Case>)
    ensures |cs| == |raw.casesRaw|
    ensures forall i :: 0 <= i < |cs| ==> cs[i] == ResolveCase(raw, lk, today, raw.casesRaw[i])
  {
    Map((c: RawCase) => ResolveCase(raw, lk, today, c), raw.casesRaw)
  }
}

=== FILE: data_projections.dfy ===
/** The second half of `processData`'s per-entity work: detective statistics, the
    suspects' case lists and associates, and the "with case" projections of victims,
    witnesses, evidence and forensic analyses. */
module DataProjections {
  import opened Wrappers
  import opened Numbers
  import opened Seqs
  import opened Types
  import opened DataCases

  predicate HasDetective(c: Case, id: int) {
    exists d :: d in c.detetives && d.id == id
  }

  predicate HasSuspect(c: Case, id: int) {
    exists s :: s in c.suspeitos && s.id == id
  }

  predicate IsResolvedCase(c: Case) {
    c.status == Resolvido
  }

  predicate IsActiveCase(c: Case) {
    IsActive(c.status)
  }

  // ---- detectives ----

  /** The cases a detective is assigned to, in case-table order. */
  function CasesOfDetective(cases: seq<Case>, id: int): (r: seq<Case>)
    ensures IsSubseq(r, cases)
    ensures forall c :: c in r <==> c in cases && HasDetective(c, id)
    ensures forall c :: multiset(r)[c] == if HasDetective(c, id) then multiset(cases)[c] else 0
  {
    Filter(cases, (c: Case) => HasDetective(c, id))
  }

  /** `Math.round(part / whole * 100)`, and 0 for an empty whole. */
  function Percent(part: nat, whole: nat): (r: int)
    requires part <= whole
    ensures 0 <= r <= 100
    ensures whole == 0 ==> r == 0
    ensures whole > 0 ==> 2 * r * whole <= 200 * part + whole < 2 * r * whole + 2 * whole
  {
    if whole == 0 then 0
    else
      RoundDivWithin(100 * part, whole, 0, 100);
      RoundDiv(100 * part, whole)
  }

  /** A detective with its assigned cases, resolved count and rounded success rate. */
  function DetectiveStatsOf(d: Detective, cases: seq<Case>): (r: DetectiveWithStats)
    ensures r.detective == d
    ensures r.cases == CasesOfDetective(cases, d.id)
    ensures r.totalCases == |r.cases|
    ensures r.resolvedCases == |Filter(r.cases, IsResolvedCase)|
    ensures 0 <= r.resolvedCases <= r.totalCases
    ensures 0 <= r.successRate <= 100
    ensures r.totalCases == 0 ==> r.successRate == 0
    ensures r.totalCases > 0 ==>
              2 * r.successRate * r.totalCases <= 200 * r.resolvedCases + r.totalCases
              < 2 * r.successRate * r.totalCases + 2 * r.totalCases
  {
    var theirs := CasesOfDetective(cases, d.id);
    var resolved := |Filter(theirs, IsResolvedCase)|;
    var total := |theirs|;
    DetectiveWithStats(d, theirs, total, resolved, Percent(resolved, total))
  }

  function DetectivesWithStats(detectives: seq<Detective>, cases: seq<Case>): (r: seq<DetectiveWithStats>)
    ensures |r| == |detectives|
    ensures forall i :: 0 <= i < |r| ==> r[i] == DetectiveStatsOf(detectives[i], cases)
  {
    Map((d: Detective) => DetectiveStatsOf(d, cases), detectives)
  }

  // ---- suspects ----

  /** The cases a suspect appears in, in case-table order. */
  function CasesOfSuspect(cases: seq<Case>, id: int): (r: seq<Case>)
    ensures IsSubseq(r, cases)
    ensures forall c :: c in r <==> c in cases && HasSuspect(c, id)
    ensures forall c :: multiset(r)[c] == if HasSuspect(c, id) then multiset(cases)[c] else 0
  {
    Filter(cases, (c: Case) => HasSuspect(c, id))
  }

  /** Two suspect ids appear together in some case. */
  predicate ShareCase(cases: seq<Case>, a: int, b: int) {
    exists c :: c in cases && HasSuspect(c, a) && HasSuspect(c, b)
  }

  /** Ids of every other suspect appearing in one of the given cases. */
  function CoSuspectIds(id: int, allCases: seq<Case>): (r: set<int>)
    ensures forall x :: x in r <==> x != id && exists c :: c in allCases && HasSuspect(c, x)
  {
    set c, s | c in allCases && s in c.suspeitos && s.id != id :: s.id
  }

  /** The other suspects that share a case with suspect `id`, in table order and with
      every copy the table holds. */
  function Associates(id: int, suspects: seq<Suspect>, cases: seq<Case>): (r: seq<Suspect>)
    ensures IsSubseq(r, suspects)
    ensures forall b :: b in r <==> b in suspects && b.id != id && ShareCase(cases, id, b.id)
    ensures forall b :: multiset(r)[b]
                        == if b.id != id && ShareCase(cases, id, b.id) then multiset(suspects)[b] else 0
  {
    var all := CasesOfSuspect(cases, id);
    var ids := CoSuspectIds(id, all);
    assert forall x :: x in ids <==> x != id && ShareCase(cases, id, x) by {
      forall x ensures x in ids <==> x != id && ShareCase(cases, id, x) {
        if x in ids {
          var c :| c in all && HasSuspect(c, x);
          assert c in cases && HasSuspect(c, id);
        }
        if x != id && ShareCase(cases, id, x) {
          var c :| c in cases && HasSuspect(c, id) && HasSuspect(c, x);
          assert c in all;
        }
      }
    }
    Filter(suspects, (x: Suspect) => x.id in ids)
  }

  /** A suspect with all its cases, the active ones, its associates and the key flag. */
  function SuspectWithCasesOf(s: Suspect, suspects: seq<Suspect>, cases: seq<Case>): (r: SuspectWithCases)
    ensures r.suspect == s
    ensures r.allCases == CasesOfSuspect(cases, s.id)
    ensures IsSubseq(r.activeCases, r.allCases)
    ensures forall c :: c in r.activeCases <==> c in r.allCases && IsActive(c.status)
    ensures forall c :: multiset(r.activeCases)[c] == if IsActive(c.status) then multiset(r.allCases)[c] else 0
    ensures IsSubseq(r.associates, suspects)
    ensures forall b :: b in r.associates <==> b in suspects && b.id != s.id && ShareCase(cases, s.id, b.id)
    ensures forall b :: multiset(r.associates)[b]
                        == if b.id != s.id && ShareCase(cases, s.id, b.id) then multiset(suspects)[b] else 0
    ensures r.isKeySuspect <==> |r.activeCases| > 1 || |r.associates| > 0
  {
    var all := CasesOfSuspect(cases, s.id);
    var active := Filter(all, IsActiveCase);
    var associates := Associates(s.id, suspects, cases);
    SuspectWithCases(s, active, all, |active| > 1 || |associates| > 0, associates)
  }

  function SuspectsWithCases(suspects: seq<Suspect>, cases: seq<Case>): (r: seq<SuspectWithCases>)
    ensures |r| == |suspects|
    ensures forall i :: 0 <= i < |r| ==> r[i] == SuspectWithCasesOf(suspects[i], suspects, cases)
  {
    Map((s: Suspect) => SuspectWithCasesOf(s, suspects, cases), suspects)
  }

  /** Being associates is symmetric: B is listed for A exactly when A is listed for B. */
  lemma AssociatesSymmetric(a: Suspect, b: Suspect, suspects: seq<Suspect>, cases: seq<Case>)
    requires a in suspects && b in suspects
    ensures b in SuspectWithCasesOf(a, suspects, cases).associates
            <==> a in SuspectWithCasesOf(b, suspects, cases).associates
  {
    if ShareCase(cases, a.id, b.id) {
      var c :| c in cases && HasSuspect(c, a.id) && HasSuspect(c, b.id);
      assert ShareCase(cases, b.id, a.id);
    }
    if ShareCase(cases, b.id, a.id) {
      var c :| c in cases && HasSuspect(c, b.id) && HasSuspect(c, a.id);
      assert ShareCase(cases, a.id, b.id);
    }
  }

  /** With a duplicate-free suspect table, nobody is listed twice as an associate, and a
      suspect is never its own associate. */
  lemma AssociatesDistinct(s: Suspect, suspects: seq<Suspect>, cases: seq<Case>)
    requires Distinct(suspects)
    ensures Distinct(SuspectWithCasesOf(s, suspects, cases).associates)
    ensures s !in SuspectWithCasesOf(s, suspects, cases).associates
  {
    var r := SuspectWithCasesOf(s, suspects, cases);
    SubseqDistinct(r.associates, suspects);
  }

  // ---- first-link projections ----

  /** The case id of the first join row naming the entity. */
  function FirstCaseId(rows: seq<Link>, entityId: int): (r: Option<int>)
    ensures r.None? <==> forall i :: 0 <= i < |rows| ==> rows[i].idEntidade != entityId
    ensures r.Some? ==> exists i :: 0 <= i < |rows| && rows[i] == Link(r.value, entityId)
                                    && forall j :: 0 <= j < i ==> rows[j].idEntidade != entityId
  {
    match Find(rows, (l: Link) => l.idEntidade == entityId)
    case None => None
    case Some(l) => Some(l.idCaso)
  }

  /** `cases.find(c => c.id === id)`. */
  function CaseById(cases: seq<Case>, id: int): (r: Option<Case>)
    ensures r.Some? ==> r.value in cases && r.value.id == id
    ensures r.None? <==> forall c :: c in cases ==> c.id != id
    ensures r.Some? ==> exists i :: 0 <= i < |cases| && cases[i] == r.value
                                    && forall j :: 0 <= j < i ==> cases[j].id != id
  {
    Find(cases, (c: Case) => c.id == id)
  }

  /** The case named by the entity's first join row; none when there is no row or when
      that first row names a case that does not exist (later rows are not consulted). */
  function FirstLinkedCase(rows: seq<Link>, cases: seq<Case>, entityId: int): (r: Option<Case>)
    ensures FirstCaseId(rows, entityId).None? ==> r.None?
    ensures FirstCaseId(rows, entityId).Some? ==> r == CaseById(cases, FirstCaseId(rows, entityId).value)
    ensures r.Some? ==> r.value in cases && Link(r.value.id, entityId) in rows
  {
    match FirstCaseId(rows, entityId)
    case None => None
    case Some(cid) => CaseById(cases, cid)
  }

  function VictimsWithCase(victims: seq<Victim>, rows: seq<Link>, cases: seq<Case>): (r: seq<VictimWithCase>)
    ensures |r| == |victims|
    ensures forall i :: 0 <= i < |r| ==>
              r[i].victim == victims[i] && r[i].linkedCase == FirstLinkedCase(rows, cases, victims[i].id)
  {
    Map((v: Victim) => VictimWithCase(v, FirstLinkedCase(rows, cases, v.id)), victims)
  }

  function EvidencesWithCase(evidences: seq<Evidence>, rows: seq<Link>, cases: seq<Case>): (r: seq<EvidenceWithCase>)
    ensures |r| == |evidences|
    ensures forall i :: 0 <= i < |r| ==>
              r[i].evidence == evidences[i] && r[i].linkedCase == FirstLinkedCase(rows, cases, evidences[i].id)
  {
    Map((e: Evidence) => EvidenceWithCase(e, FirstLinkedCase(rows, cases, e.id)), evidences)
  }

  // ---- witnesses ----

  /** Every testimony row of one witness, across all cases, in table order. */
  function WitnessRows(rows: seq<Testimony>, id: int): (r: seq<Testimony>)
    ensures IsSubseq(r, rows)
    ensures forall t :: multiset(r)[t] == if t.idTestemunha == id then multiset(rows)[t] else 0
  {
    Filter(rows, (t: Testimony) => t.idTestemunha == id)
  }

  /** A witness with all its testimonies flattened; `caseCount` counts testimony rows. */
  function WitnessWithCaseCountOf(w: Witness, rows: seq<Testimony>): (r: WitnessWithCaseCount)
    ensures r.testemunha == w
    ensures r.caseCount == |r.depoimentos| == |WitnessRows(rows, w.id)|
    ensures forall i :: 0 <= i < |r.depoimentos| ==> r.depoimentos[i] == WitnessRows(rows, w.id)[i].depoimento
  {
    var mine := WitnessRows(rows, w.id);
    WitnessWithCaseCount(w, |mine|, Map((t: Testimony) => t.depoimento, mine))
  }

  function WitnessesWithCaseCount(witnesses: seq<Witness>, rows: seq<Testimony>): (r: seq<WitnessWithCaseCount>)
    ensures |r| == |witnesses|
    ensures forall i :: 0 <= i < |r| ==> r[i] == WitnessWithCaseCountOf(witnesses[i], rows)
  {
    Map((w: Witness) => WitnessWithCaseCountOf(w, rows), witnesses)
  }

  /** The number of testimony rows naming witness `id`, counted one row at a time. */
  function RowsNaming(rows: seq<Testimony>, id: int): nat {
    if rows == [] then 0
    else (if rows[0].idTestemunha == id then 1 else 0) + RowsNaming(rows[1..], id)
  }

  /** `caseCount` counts testimony rows, not distinct cases: every row naming the witness
      adds one, so two testimonies in one case count twice. */
  lemma {:induction false} CaseCountCountsRows(w: Witness, rows: seq<Testimony>)
    ensures WitnessWithCaseCountOf(w, rows).caseCount == RowsNaming(rows, w.id)
    decreases |rows|
  {
    if rows != [] {
      CaseCountCountsRows(w, rows[1..]);
      assert rows == [rows[0]] + rows[1..];
      FilterCons(rows[0], rows[1..], (t: Testimony) => t.idTestemunha == w.id);
    }
  }

  // ---- forensic analyses ----

  /** `evidencesRaw.find(e => e.id === id)`. */
  function EvidenceById(evidences: seq<Evidence>, id: int): (r: Option<Evidence>)
    ensures r.Some? ==> r.value in evidences && r.value.id == id
    ensures r.None? <==> forall e :: e in evidences ==> e.id != id
    ensures r.Some? ==> exists i :: 0 <= i < |evidences| && evidences[i] == r.value
                                    && forall j :: 0 <= j < i ==> evidences[j].id != id
  {
    Find(evidences, (e: Evidence) => e.id == id)
  }

  /** `suspects.find(s => s.id === match)`; a null match finds nobody. */
  function SuspectByMatch(suspects: seq<Suspect>, m: Option<int>): (r: Option<Suspect>)
    ensures r.Some? ==> r.value in suspects && m == Some(r.value.id)
    ensures r.None? <==> forall s :: s in suspects ==> m != Some(s.id)
    ensures r.Some? ==> exists i :: 0 <= i < |suspects| && suspects[i] == r.value
                                    && forall j :: 0 <= j < i ==> m != Some(suspects[j].id)
  {
    Find(suspects, (s: Suspect) => m == Some(s.id))
  }

  function ResolveAnalysis(fa: RawAnalysis, cases: seq<Case>, evidences: seq<Evidence>,
                           suspects: seq<Suspect>, lk: Lookups): (r: ForenseAnalysis)
    ensures r.analysis == fa
    ensures r.linkedCase == CaseById(cases, fa.idCaso)
    ensures r.evidence == EvidenceById(evidences, fa.idEvidencia)
    ensures r.suspectMatch == SuspectByMatch(suspects, fa.idSuspeitoMatch)
    ensures fa.idSuspeitoMatch.None? ==> r.suspectMatch.None?
    ensures r.suspectMatch.Some? ==> r.suspectMatch.value in suspects && fa.idSuspeitoMatch == Some(r.suspectMatch.value.id)
    ensures r.aiReport == lk.forenseReport(fa.id)
  {
    ForenseAnalysis(fa, CaseById(cases, fa.idCaso), EvidenceById(evidences, fa.idEvidencia),
                    SuspectByMatch(suspects, fa.idSuspeitoMatch), lk.forenseReport(fa.id))
  }
}

=== FILE: data_stats.dfy ===
/** The dashboard figures `processData` derives after the projections: the headline
    statistics and the victim statistics (occupations, ages, statuses). */
module DataStats {
  import opened Wrappers
  import opened Numbers
  import opened Seqs
  import opened Types
  import opened DataProjections

  // ---- headline statistics ----

  predicate IsCriticalCase(c: Case) {
    c.gravidade == Critico
  }

  /** The threshold above which a suspect counts as highly dangerous. */
  const HighDangerThreshold: int := 80

  predicate IsHighDanger(s: Suspect) {
    s.pontuacaoPerigo > HighDangerThreshold
  }

  function SuccessRateOf(d: DetectiveWithStats): int {
    d.successRate
  }

  function ActiveDaysOf(c: Case): int {
    c.tempoAtivoDias
  }

  /** `Math.round(total / n)`, and 0 when there is nothing to average. */
  function Average(total: int, n: nat): (r: int)
    ensures n == 0 ==> r == 0
    ensures n > 0 ==> 2 * r * n <= 2 * total + n < 2 * r * n + 2 * n
  {
    if n == 0 then 0 else RoundDiv(total, n)
  }

  /** The mean of values that all lie in `[lo, hi]` lies in `[lo, hi]` as well. */
  lemma AverageWithin(s: seq<int>, lo: int, hi: int)
    requires |s| > 0
    requires forall i :: 0 <= i < |s| ==> lo <= s[i] <= hi
    ensures lo <= Average(Sum(s), |s|) <= hi
  {
    SumBounds(s, lo, hi);
    RoundDivWithin(Sum(s), |s|, lo, hi);
  }

  function SummaryStats(cases: seq<Case>, suspects: seq<Suspect>, detectives: seq<DetectiveWithStats>): (r: Stats)
    ensures r.totalActiveCases == |Filter(cases, IsActiveCase)| <= |cases|
    ensures r.criticalCases == |Filter(cases, IsCriticalCase)| <= |cases|
    ensures r.highDangerSuspects == |Filter(suspects, IsHighDanger)| <= |suspects|
    ensures r.averageSuccessRate == Average(Sum(Map(SuccessRateOf, detectives)), |detectives|)
    ensures r.averageCaseAge ==
              Average(Sum(Map(ActiveDaysOf, Filter(cases, IsActiveCase))), r.totalActiveCases)
    ensures (forall i :: 0 <= i < |detectives| ==> 0 <= detectives[i].successRate <= 100) ==>
              0 <= r.averageSuccessRate <= 100
    ensures (forall c :: c in cases ==> c.tempoAtivoDias >= 0) ==> r.averageCaseAge >= 0
  {
    var active := Filter(cases, IsActiveCase);
    var rates := Map(SuccessRateOf, detectives);
    var ages := Map(ActiveDaysOf, active);
    RatesAverageBounded(detectives);
    AgesAverageBounded(cases);
    Stats(|active|, |Filter(cases, IsCriticalCase)|, |Filter(suspects, IsHighDanger)|,
          Average(Sum(rates), |detectives|), Average(Sum(ages), |active|))
  }

  lemma RatesAverageBounded(detectives: seq<DetectiveWithStats>)
    ensures (forall i :: 0 <= i < |detectives| ==> 0 <= detectives[i].successRate <= 100) ==>
              0 <= Average(Sum(Map(SuccessRateOf, detectives)), |detectives|) <= 100
  {
    if |detectives| > 0 && forall i :: 0 <= i < |detectives| ==> 0 <= detectives[i].successRate <= 100 {
      AverageWithin(Map(SuccessRateOf, detectives), 0, 100);
    }
  }

  lemma AgesAverageBounded(cases: seq<Case>)
    ensures (forall c :: c in cases ==> c.tempoAtivoDias >= 0) ==>
              Average(Sum(Map(ActiveDaysOf, Filter(cases, IsActiveCase))), |Filter(cases, IsActiveCase)|) >= 0
  {
    var active := Filter(cases, IsActiveCase);
    var ages := Map(ActiveDaysOf, active);
    if |active| > 0 && forall c :: c in cases ==> c.tempoAtivoDias >= 0 {
      forall i | 0 <= i < |ages|
        ensures 0 <= ages[i] <= MaxOf(ages)
      {
        assert active[i] in active;
        MaxOfBounds(ages, i);
      }
      AverageWithin(ages, 0, MaxOf(ages));
    }
  }

  /** The largest element (0 for an empty sequence). */
  function MaxOf(s: seq<int>): int
    decreases |s|
  {
    if s == [] then 0 else Max(s[0], MaxOf(s[1..]))
  }

  lemma {:induction false} MaxOfBounds(s: seq<int>, i: int)
    requires 0 <= i < |s|
    ensures s[i] <= MaxOf(s)
    decreases |s|
  {
    if i > 0 {
      MaxOfBounds(s[1..], i - 1);
    }
  }

  // ---- occupation tally ----

  function NameOf(c: NamedCount): string {
    c.name
  }

  function Names(t: seq<NamedCount>): (r: seq<string>)
    ensures |r| == |t|
    ensures forall i :: 0 <= i < |t| ==> r[i] == t[i].name
  {
    seq(|t|, i requires 0 <= i < |t| => t[i].name)
  }

  /** The count recorded under a name (the first entry with it), 0 when absent. */
  function CountOf(t: seq<NamedCount>, n: string): int
    decreases |t|
  {
    if t == [] then 0 else if t[0].name == n then t[0].count else CountOf(t[1..], n)
  }

  /** `counts[name] = (counts[name] || 0) + 1` on an insertion-ordered record. */
  function Bump(t: seq<NamedCount>, name: string): (r: seq<NamedCount>)
    ensures Names(r) == if name in Names(t) then Names(t) else Names(t) + [name]
    ensures forall n :: CountOf(r, n) == CountOf(t, n) + (if n == name then 1 else 0)
    decreases |t|
  {
    if t == [] then [NamedCount(name, 1)]
    else if t[0].name == name then
      BumpHit(t, name);
      [NamedCount(name, t[0].count + 1)] + t[1..]
    else
      var rest := Bump(t[1..], name);
      BumpStep(t, name, rest);
      [t[0]] + rest
  }

  /** The step of `Bump` past an entry of another name. */
  lemma BumpStep(t: seq<NamedCount>, name: string, rest: seq<NamedCount>)
    requires t != [] && t[0].name != name
    requires Names(rest) == if name in Names(t[1..]) then Names(t[1..]) else Names(t[1..]) + [name]
    requires forall n :: CountOf(rest, n) == CountOf(t[1..], n) + (if n == name then 1 else 0)
    ensures Names([t[0]] + rest) == if name in Names(t) then Names(t) else Names(t) + [name]
    ensures forall n :: CountOf([t[0]] + rest, n) == CountOf(t, n) + (if n == name then 1 else 0)
  {
    NamesCons(t[0], t[1..]);
    assert t == [t[0]] + t[1..];
    NamesCons(t[0], rest);
    if name !in Names(t[1..]) {
      assert [t[0].name] + (Names(t[1..]) + [name]) == ([t[0].name] + Names(t[1..])) + [name];
    }
    forall n
      ensures CountOf([t[0]] + rest, n) == CountOf(t, n) + (if n == name then 1 else 0)
    {
      assert ([t[0]] + rest)[1..] == rest;
    }
  }

  /** The step of `Bump` at the entry of the name: its count goes up by one. */
  lemma BumpHit(t: seq<NamedCount>, name: string)
    requires t != [] && t[0].name == name
    ensures Names([NamedCount(name, t[0].count + 1)] + t[1..]) == Names(t)
    ensures name in Names(t)
    ensures forall n :: CountOf([NamedCount(name, t[0].count + 1)] + t[1..], n) == CountOf(t, n) + (if n == name then 1 else 0)
  {
    var r := [NamedCount(name, t[0].count + 1)] + t[1..];
    NamesCons(r[0], t[1..]);
    assert t == [t[0]] + t[1..];
    NamesCons(t[0], t[1..]);
    assert Names(t)[0] == name;
    assert r[1..] == t[1..];
  }

  lemma NamesCons(x: NamedCount, t: seq<NamedCount>)
    ensures Names([x] + t) == [x.name] + Names(t)
  {
  }

  function NameSet(t: seq<NamedCount>): set<string> {
    set n | n in Names(t)
  }

  /** Tallies the rest of `s` onto `t`, one `Bump` per element, left to right. */
  function TallyFrom(t: seq<NamedCount>, s: seq<string>): seq<NamedCount>
    decreases |s|
  {
    if s == [] then t else TallyFrom(Bump(t, s[0]), s[1..])
  }

  /** New names are appended in first-seen order. */
  lemma {:induction false} TallyFromNames(t: seq<NamedCount>, s: seq<string>)
    ensures Names(TallyFrom(t, s)) == Names(t) + DedupFrom(s, NameSet(t))
    decreases |s|
  {
    if s != [] {
      var x, rest := s[0], s[1..];
      var next := Bump(t, x);
      assert TallyFrom(t, s) == TallyFrom(next, rest);
      TallyFromNames(next, rest);
      if x in Names(t) {
        assert Names(next) == Names(t);
        assert x in NameSet(t);
        assert DedupFrom(s, NameSet(t)) == DedupFrom(rest, NameSet(t));
      } else {
        assert Names(next) == Names(t) + [x];
        NameSetSnoc(t, next, x);
        assert DedupFrom(s, NameSet(t)) == [x] + DedupFrom(rest, NameSet(t) + {x});
        assert Names(t) + [x] + DedupFrom(rest, NameSet(next))
               == Names(t) + ([x] + DedupFrom(rest, NameSet(next)));
      }
    }
  }

  lemma NameSetSnoc(t: seq<NamedCount>, u: seq<NamedCount>, x: string)
    requires Names(u) == Names(t) + [x]
    ensures NameSet(u) == NameSet(t) + {x}
  {
  }

  /** Every name gains its number of occurrences. */
  lemma {:induction false} TallyFromCounts(t: seq<NamedCount>, s: seq<string>, n: string)
    ensures CountOf(TallyFrom(t, s), n) == CountOf(t, n) + multiset(s)[n]
    decreases |s|
  {
    if s != [] {
      TallyFromCounts(Bump(t, s[0]), s[1..], n);
      assert s == [s[0]] + s[1..];
      assert multiset(s)[n] == (if n == s[0] then 1 else 0) + multiset(s[1..])[n];
    }
  }

  function OccupationOf(v: Victim): string {
    v.ocupacao
  }

  predicate NonEmpty(o: string) {
    o != ""
  }

  function HasOccupation(o: string): Victim -> bool {
    (v: Victim) => v.ocupacao == o
  }

  /** The occupations `if (v.ocupacao)` admits, in victim order: every non-empty occupation
      once per victim that has it. */
  function Occupations(victims: seq<Victim>): (r: seq<string>)
    ensures forall o :: o in r ==> o != ""
    ensures "" !in r
    ensures |r| <= |victims|
    ensures forall o :: o != "" ==> multiset(r)[o] == |Filter(victims, HasOccupation(o))|
  {
    OccupationsCounted(victims);
    Filter(Map(OccupationOf, victims), NonEmpty)
  }

  lemma OccupationsCounted(victims: seq<Victim>)
    ensures forall o :: multiset(Map(OccupationOf, victims))[o] == |Filter(victims, HasOccupation(o))|
  {
    forall o
      ensures multiset(Map(OccupationOf, victims))[o] == |Filter(victims, HasOccupation(o))|
    {
      OccupationCount(victims, o);
    }
  }

  /** Each occupation occurs in the mapped list once per victim that has it. */
  lemma {:induction false} OccupationCount(victims: seq<Victim>, o: string)
    ensures multiset(Map(OccupationOf, victims))[o] == |Filter(victims, HasOccupation(o))|
    decreases |victims|
  {
    if victims != [] {
      var v, rest := victims[0], victims[1..];
      assert victims == [v] + rest;
      MapConcat(OccupationOf, [v], rest);
      FilterCons(v, rest, HasOccupation(o));
      OccupationCount(rest, o);
    }
  }

  /** Counting lemma for a tally built on an empty record: distinct names give every
      entry its own count. */
  lemma {:induction false} CountOfDistinct(t: seq<NamedCount>, i: int)
    requires Distinct(Names(t)) && 0 <= i < |t|
    ensures CountOf(t, t[i].name) == t[i].count
    decreases |t|
  {
    if i > 0 {
      assert Names(t)[0] != Names(t)[i];
      assert Distinct(Names(t[1..])) by {
        forall a, b | 0 <= a < b < |t| - 1
          ensures Names(t[1..])[a] != Names(t[1..])[b]
        {
          assert Names(t)[a + 1] != Names(t)[b + 1];
        }
      }
      CountOfDistinct(t[1..], i - 1);
    }
  }

  /** Occurrence counts in first-seen order. */
  function Tally(s: seq<string>): (r: seq<NamedCount>)
    ensures Names(r) == Dedup(s)
    ensures forall i :: 0 <= i < |r| ==> r[i].count == multiset(s)[r[i].name]
    ensures forall i :: 0 <= i < |r| ==> r[i].count >= 1
  {
    TallyCounts(s);
    TallyFrom([], s)
  }

  lemma TallyCounts(s: seq<string>)
    ensures Names(TallyFrom([], s)) == Dedup(s)
    ensures forall i :: 0 <= i < |TallyFrom([], s)| ==>
              TallyFrom([], s)[i].count == multiset(s)[TallyFrom([], s)[i].name] >= 1
  {
    var r := TallyFrom([], s);
    assert NameSet([]) == {};
    TallyFromNames([], s);
    forall i | 0 <= i < |r|
      ensures r[i].count == multiset(s)[r[i].name] >= 1
    {
      CountOfDistinct(r, i);
      TallyFromCounts([], s, r[i].name);
      assert r[i].name == Names(r)[i];
      assert r[i].name in s;
    }
  }

  function NegCount(c: NamedCount): int {
    -c.count
  }

  /** The size of the occupation ranking. */
  const TopOccupations: nat := 5

  /** The five most common occupations, most common first, ties in first-seen order: the
      tally lists occupations in first-seen order, and for every count the entries shown
      are a prefix of the tally's entries with that count. */
  function CommonOccupations(victims: seq<Victim>): (r: seq<NamedCount>)
    ensures |r| == Min(TopOccupations, |Dedup(Occupations(victims))|)
    ensures forall i, j :: 0 <= i < j < |r| ==> r[i].count >= r[j].count
    ensures Distinct(Names(r))
    ensures forall i :: 0 <= i < |r| ==>
              r[i].name != "" && r[i].count == multiset(Occupations(victims))[r[i].name] >= 1
    ensures forall i :: 0 <= i < |r| ==> r[i].count == |Filter(victims, HasOccupation(r[i].name))|
    ensures forall k :: KeyClass(r, NegCount, k) <= KeyClass(Tally(Occupations(victims)), NegCount, k)
    ensures forall x, y :: x in r && y in Tally(Occupations(victims)) && y.count > x.count ==>
              KeyClass(r, NegCount, NegCount(y)) == KeyClass(Tally(Occupations(victims)), NegCount, NegCount(y))
  {
    CommonOccupationsFacts(victims);
    CommonOccupationsWholeClasses(victims);
    TopBy(Tally(Occupations(victims)), NegCount, TopOccupations)
  }

  lemma CommonOccupationsWholeClasses(victims: seq<Victim>)
    ensures var tally := Tally(Occupations(victims));
            var r := TopBy(tally, NegCount, TopOccupations);
            forall x, y :: x in r && y in tally && y.count > x.count ==>
              KeyClass(r, NegCount, NegCount(y)) == KeyClass(tally, NegCount, NegCount(y))
  {
    var tally := Tally(Occupations(victims));
    var r := TopBy(tally, NegCount, TopOccupations);
    TopByWholeClasses(tally, NegCount, TopOccupations);
    forall x, y | x in r && y in tally && y.count > x.count
      ensures KeyClass(r, NegCount, NegCount(y)) == KeyClass(tally, NegCount, NegCount(y))
    {
      assert NegCount(y) < NegCount(x);
    }
  }

  lemma CommonOccupationsFacts(victims: seq<Victim>)
    ensures var r := TopBy(Tally(Occupations(victims)), NegCount, TopOccupations);
            && |r| == Min(TopOccupations, |Dedup(Occupations(victims))|)
            && (forall i, j :: 0 <= i < j < |r| ==> r[i].count >= r[j].count)
            && Distinct(Names(r))
            && forall i :: 0 <= i < |r| ==>
                 r[i].name != "" && r[i].count == multiset(Occupations(victims))[r[i].name] >= 1
  {
    var tally := Tally(Occupations(victims));
    var r := TopBy(tally, NegCount, TopOccupations);
    assert |Names(tally)| == |tally|;
    TopEntries(Occupations(victims), r);
    TopOrdered(r);
    assert Distinct(Names(r)) by {
      forall a, b | 0 <= a < b < |r|
        ensures Names(r)[a] != Names(r)[b]
      {
        TopNamesDistinct(tally, r, a, b);
      }
    }
  }

  lemma TopEntries(occ: seq<string>, r: seq<NamedCount>)
    requires forall o :: o in occ ==> o != ""
    requires multiset(r) <= multiset(Tally(occ))
    ensures forall i :: 0 <= i < |r| ==> r[i].name != "" && r[i].count == multiset(occ)[r[i].name] >= 1
  {
    var tally := Tally(occ);
    forall i | 0 <= i < |r|
      ensures r[i].name != "" && r[i].count == multiset(occ)[r[i].name] >= 1
    {
      assert r[i] in multiset(r);
      var j :| 0 <= j < |tally| && tally[j] == r[i];
      assert r[i].name == Names(tally)[j];
      assert r[i].name in Dedup(occ);
    }
  }

  lemma TopOrdered(r: seq<NamedCount>)
    requires SortedBy(r, NegCount)
    ensures forall i, j :: 0 <= i < j < |r| ==> r[i].count >= r[j].count
  {
    forall i, j | 0 <= i < j < |r|
      ensures r[i].count >= r[j].count
    {
      assert NegCount(r[i]) <= NegCount(r[j]);
    }
  }

  /** Entries picked at most once each from a tally with distinct names have distinct
      names. */
  lemma TopNamesDistinct(tally: seq<NamedCount>, r: seq<NamedCount>, a: int, b: int)
    requires Distinct(Names(tally))
    requires multiset(r) <= multiset(tally)
    requires 0 <= a < b < |r|
    ensures r[a].name != r[b].name
  {
    NamesDistinctKeys(tally);
    PickedKeysDistinct(tally, r, NameOf, a, b);
  }

  lemma NamesDistinctKeys(t: seq<NamedCount>)
    requires Distinct(Names(t))
    ensures forall i, j :: 0 <= i < j < |t| ==> NameOf(t[i]) != NameOf(t[j])
  {
    forall i, j | 0 <= i < j < |t|
      ensures NameOf(t[i]) != NameOf(t[j])
    {
      assert Names(t)[i] != Names(t)[j];
    }
  }

  /** Every occupation left out of the ranking is no more common than any listed one. */
  lemma CommonOccupationsAreTop(victims: seq<Victim>, o: NamedCount, x: NamedCount)
    requires x in CommonOccupations(victims)
    requires o in Tally(Occupations(victims)) && o !in CommonOccupations(victims)
    ensures o.count <= x.count
  {
    assert !(NegCount(o) < NegCount(x));
  }

  // ---- ages ----

  predicate HasAge(v: Victim) {
    v.idade != 0
  }

  function AgeOf(v: Victim): int {
    v.idade
  }

  /** The ages `if (v.idade)` admits, in victim order. */
  function Ages(victims: seq<Victim>): (r: seq<int>)
    ensures |r| <= |victims|
    decreases |victims|
  {
    if victims == [] then []
    else (if HasAge(victims[0]) then [victims[0].idade] else []) + Ages(victims[1..])
  }

  /** The ages kept are exactly the age of each victim that has one, in victim order. */
  lemma {:induction false} AgesOfFiltered(victims: seq<Victim>)
    ensures Ages(victims) == Map(AgeOf, Filter(victims, HasAge))
    decreases |victims|
  {
    if victims != [] {
      var v, rest := victims[0], victims[1..];
      var h := if HasAge(v) then [v] else [];
      assert victims == [v] + rest;
      AgesOfFiltered(rest);
      FilterCons(v, rest, HasAge);
      MapConcat(AgeOf, h, Filter(rest, HasAge));
      assert Map(AgeOf, h) == if HasAge(v) then [v.idade] else [];
    }
  }

  /** Rounded mean age of the victims with an age: `Math.round(totalAge / victimCountWithAge)`,
      and 0 when no victim has one. */
  function AverageAge(victims: seq<Victim>): (r: int)
    ensures var aged := Filter(victims, HasAge);
            && (|aged| == 0 ==> r == 0)
            && (|aged| > 0 ==> 2 * r * |aged| <= 2 * Sum(Map(AgeOf, aged)) + |aged| < 2 * r * |aged| + 2 * |aged|)
  {
    AgesOfFiltered(victims);
    Average(Sum(Ages(victims)), |Ages(victims)|)
  }

  /** The ages kept are those of victims with an age, and there is one per such victim. */
  lemma {:induction false} AgesOfAgedVictims(victims: seq<Victim>, lo: int, hi: int)
    requires forall v :: v in victims && HasAge(v) ==> lo <= v.idade <= hi
    ensures forall i :: 0 <= i < |Ages(victims)| ==> lo <= Ages(victims)[i] <= hi && Ages(victims)[i] != 0
    ensures (exists v :: v in victims && HasAge(v)) ==> |Ages(victims)| > 0
    decreases |victims|
  {
    if victims != [] {
      var rest := victims[1..];
      assert forall v :: v in rest ==> v in victims;
      AgesOfAgedVictims(rest, lo, hi);
      if exists v :: v in victims && HasAge(v) {
        var v :| v in victims && HasAge(v);
        if v != victims[0] {
          assert v in rest;
        }
      }
    }
  }

  /** The mean age lies between the youngest and the oldest age given. */
  lemma AverageAgeWithin(victims: seq<Victim>, lo: int, hi: int)
    requires exists v :: v in victims && HasAge(v)
    requires forall v :: v in victims && HasAge(v) ==> lo <= v.idade <= hi
    ensures lo <= AverageAge(victims) <= hi
  {
    AgesOfAgedVictims(victims, lo, hi);
    AverageWithin(Ages(victims), lo, hi);
  }

  /** The age bands `18-30`, `31-45`, `46-60` and `60+` (from 61 up), first match wins;
      ages below 18 fall in none. */
  function AgeBand(age: int): (b: Option<nat>)
    ensures b.None? <==> age < 18
    ensures b == Some(0) <==> 18 <= age <= 30
    ensures b == Some(1) <==> 31 <= age <= 45
    ensures b == Some(2) <==> 46 <= age <= 60
    ensures b == Some(3) <==> 61 <= age
  {
    if 18 <= age <= 30 then Some(0)
    else if 31 <= age <= 45 then Some(1)
    else if 46 <= age <= 60 then Some(2)
    else if 61 <= age then Some(3)
    else None
  }

  const AgeBandNames: seq<string> := ["18-30", "31-45", "46-60", "60+"]

  function InBand(v: Victim, k: nat): bool {
    HasAge(v) && AgeBand(v.idade) == Some(k)
  }

  /** The number of victims with an age in band `k`. */
  function BandCount(victims: seq<Victim>, k: nat): nat
    decreases |victims|
  {
    if victims == [] then 0
    else (if InBand(victims[0], k) then 1 else 0) + BandCount(victims[1..], k)
  }

  predicate IsAdult(v: Victim) {
    v.idade >= 18
  }

  function AgeDistribution(victims: seq<Victim>): (r: seq<NamedCount>)
    ensures Names(r) == AgeBandNames
    ensures forall k :: 0 <= k < 4 ==> r[k].count == BandCount(victims, k)
  {
    [NamedCount("18-30", BandCount(victims, 0)), NamedCount("31-45", BandCount(victims, 1)),
     NamedCount("46-60", BandCount(victims, 2)), NamedCount("60+", BandCount(victims, 3))]
  }

  /** The four bands together count exactly the victims aged 18 or more. */
  lemma {:induction false} AgeBandsCoverAdults(victims: seq<Victim>)
    ensures BandCount(victims, 0) + BandCount(victims, 1) + BandCount(victims, 2) + BandCount(victims, 3)
            == |Filter(victims, IsAdult)|
    decreases |victims|
  {
    if victims != [] {
      var v := victims[0];
      AgeBandsCoverAdults(victims[1..]);
      assert Filter(victims, IsAdult) == if IsAdult(v) then [v] + Filter(victims[1..], IsAdult)
                                         else Filter(victims[1..], IsAdult);
      OneBandPerAdult(v);
    }
  }

  lemma OneBandPerAdult(v: Victim)
    ensures (if InBand(v, 0) then 1 else 0) + (if InBand(v, 1) then 1 else 0)
            + (if InBand(v, 2) then 1 else 0) + (if InBand(v, 3) then 1 else 0)
            == if IsAdult(v) then 1 else 0
  {
  }

  // ---- statuses ----

  const StatusOrder: seq<VictimStatus> := [Viva, Morta, Desaparecida]

  /** The number of victims with status `st` (`None`: undefined). */
  function StatusCountOf(victims: seq<Victim>, st: Option<VictimStatus>): nat
    decreases |victims|
  {
    if victims == [] then 0
    else (if victims[0].status == st then 1 else 0) + StatusCountOf(victims[1..], st)
  }

  function StatusDistribution(victims: seq<Victim>): (r: seq<StatusCount>)
    ensures |r| == |StatusOrder|
    ensures forall k :: 0 <= k < |r| ==>
              r[k].name == StatusOrder[k] && r[k].count == StatusCountOf(victims, Some(StatusOrder[k]))
  {
    Map((st: VictimStatus) => StatusCount(st, StatusCountOf(victims, Some(st))), StatusOrder)
  }

  /** Every victim is counted under exactly one status, or under none when its status is
      undefined. */
  lemma {:induction false} StatusesPartitionVictims(victims: seq<Victim>)
    ensures StatusCountOf(victims, Some(Viva)) + StatusCountOf(victims, Some(Morta))
            + StatusCountOf(victims, Some(Desaparecida)) + StatusCountOf(victims, None) == |victims|
    decreases |victims|
  {
    if victims != [] {
      StatusesPartitionVictims(victims[1..]);
      match victims[0].status
      case None =>
      case Some(st) =>
        match st
        case Viva =>
        case Morta =>
        case Desaparecida =>
    }
  }

  /** A victim without a status is never counted under one, so when every victim has a
      status the undefined count is 0. */
  lemma {:induction false} NoUndefinedStatus(victims: seq<Victim>)
    requires forall v :: v in victims ==> v.status.Some?
    ensures StatusCountOf(victims, None) == 0
    decreases |victims|
  {
    if victims != [] {
      assert forall v :: v in victims[1..] ==> v in victims;
      NoUndefinedStatus(victims[1..]);
    }
  }

  /** Adults are victims with an age, so there are no more of them than ages. */
  lemma AdultsHaveAges(victims: seq<Victim>)
    ensures |Filter(victims, IsAdult)| <= |Filter(victims, HasAge)|
  {
    FilterMonotone(victims, IsAdult, HasAge);
  }

  /** `victimStats`: the occupation ranking, the mean age, and the status and age-band
      tallies, each with the facts the dashboard's charts rely on. */
  function VictimStatsOf(victims: seq<Victim>): (r: VictimStats)
    ensures r.commonOccupations == CommonOccupations(victims)
    ensures r.averageAge == AverageAge(victims)
    ensures r.statusDistribution == StatusDistribution(victims)
    ensures r.ageDistribution == AgeDistribution(victims)
    ensures |r.commonOccupations| <= TopOccupations
    ensures forall i, j :: 0 <= i < j < |r.commonOccupations| ==>
              r.commonOccupations[i].count >= r.commonOccupations[j].count
    ensures |r.statusDistribution| == 3
    ensures r.statusDistribution[0].count + r.statusDistribution[1].count + r.statusDistribution[2].count
            == |victims| - StatusCountOf(victims, None)
    ensures (forall v :: v in victims ==> v.status.Some?) ==>
              r.statusDistribution[0].count + r.statusDistribution[1].count + r.statusDistribution[2].count
              == |victims|
    ensures |r.ageDistribution| == 4
    ensures r.ageDistribution[0].count + r.ageDistribution[1].count + r.ageDistribution[2].count
            + r.ageDistribution[3].count == |Filter(victims, IsAdult)| <= |Filter(victims, HasAge)|
    ensures (forall v :: v in victims ==> v.idade >= 0) ==> 0 <= r.averageAge <= MaxOf(Ages(victims))
  {
    StatusTotals(victims);
    AgeBandsCoverAdults(victims);
    AdultsHaveAges(victims);
    AverageAgeBounded(victims);
    VictimStats(CommonOccupations(victims), AverageAge(victims),
                StatusDistribution(victims), AgeDistribution(victims))
  }

  lemma StatusTotals(victims: seq<Victim>)
    ensures StatusCountOf(victims, Some(Viva)) + StatusCountOf(victims, Some(Morta))
            + StatusCountOf(victims, Some(Desaparecida)) == |victims| - StatusCountOf(victims, None)
    ensures (forall v :: v in victims ==> v.status.Some?) ==> StatusCountOf(victims, None) == 0
  {
    StatusesPartitionVictims(victims);
    if forall v :: v in victims ==> v.status.Some? {
      NoUndefinedStatus(victims);
    }
  }

  /** With no negative ages, the mean age lies between 0 and the oldest age. */
  lemma AverageAgeBounded(victims: seq<Victim>)
    ensures (forall v :: v in victims ==> v.idade >= 0) ==> 0 <= AverageAge(victims) <= MaxOf(Ages(victims))
  {
    var ages := Ages(victims);
    AgesOfFiltered(victims);
    if (forall v :: v in victims ==> v.idade >= 0) && |ages| > 0 {
      forall i | 0 <= i < |ages|
        ensures 0 <= ages[i] <= MaxOf(ages)
      {
        assert Filter(victims, HasAge)[i] in victims;
        MaxOfBounds(ages, i);
      }
      AverageWithin(ages, 0, MaxOf(ages));
    }
  }
}

=== FILE: data_timeline.dfy ===
/** The global timeline `processData` builds: one event per case occurrence, one per
    evidence item whose first join row names an existing case, ordered by date. */
module DataTimeline {
  import opened Wrappers
  import opened Seqs
  import opened Types
  import opened DataProjections

  function CaseEvent(c: Case): TimelineEvent {
    TimelineEvent(c.dataOcorrido, OcorrenciaDeCaso, "Início do caso: " + c.descricao, c.id, c.descricao)
  }

  function EvidenceEvent(e: Evidence, c: Case): TimelineEvent {
    TimelineEvent(e.dataDescoberta, EvidenciaEncontrada, "Evidência: \"" + e.descricao + "\"", c.id, c.descricao)
  }

  function DateOf(ev: TimelineEvent): int {
    ev.date
  }

  /** The event of one evidence item, when its first join row names an existing case. */
  function EvidenceEventOf(e: Evidence, rows: seq<Link>, cases: seq<Case>): (r: Option<TimelineEvent>)
    ensures r.Some? <==> FirstLinkedCase(rows, cases, e.id).Some?
    ensures r.Some? ==> r.value == EvidenceEvent(e, FirstLinkedCase(rows, cases, e.id).value)
  {
    match FirstLinkedCase(rows, cases, e.id)
    case None => None
    case Some(c) => Some(EvidenceEvent(e, c))
  }

  /** Whether an evidence item's first join row names an existing case. */
  function HasLinkedCase(rows: seq<Link>, cases: seq<Case>): Evidence -> bool {
    (e: Evidence) => FirstLinkedCase(rows, cases, e.id).Some?
  }

  /** The evidence events, in evidence-table order. */
  function EvidenceEvents(evidences: seq<Evidence>, rows: seq<Link>, cases: seq<Case>): (r: seq<TimelineEvent>)
    ensures |r| <= |evidences|
    decreases |evidences|
  {
    if evidences == [] then []
    else
      var rest := EvidenceEvents(evidences[1..], rows, cases);
      match EvidenceEventOf(evidences[0], rows, cases)
      case None => rest
      case Some(ev) => [ev] + rest
  }

  /** There is one evidence event per evidence item whose first join row names an existing
      case. */
  lemma {:induction false} EvidenceEventsCount(evidences: seq<Evidence>, rows: seq<Link>, cases: seq<Case>)
    ensures |EvidenceEvents(evidences, rows, cases)| == |Filter(evidences, HasLinkedCase(rows, cases))|
    decreases |evidences|
  {
    if evidences != [] {
      var e, tail := evidences[0], evidences[1..];
      assert evidences == [e] + tail;
      FilterCons(e, tail, HasLinkedCase(rows, cases));
      EvidenceEventsCount(tail, rows, cases);
    }
  }

  /** An event is listed exactly when some evidence item produces it. */
  lemma {:induction false} EvidenceEventsMembers(evidences: seq<Evidence>, rows: seq<Link>, cases: seq<Case>, ev: TimelineEvent)
    ensures ev in EvidenceEvents(evidences, rows, cases)
            <==> exists e :: e in evidences && EvidenceEventOf(e, rows, cases) == Some(ev)
    decreases |evidences|
  {
    if evidences != [] {
      var e0, tail := evidences[0], evidences[1..];
      EvidenceEventsMembers(tail, rows, cases, ev);
      assert evidences == [e0] + tail;
      if exists e :: e in evidences && EvidenceEventOf(e, rows, cases) == Some(ev) {
        var e :| e in evidences && EvidenceEventOf(e, rows, cases) == Some(ev);
        if e != e0 {
          assert e in tail;
        }
      }
    }
  }

  /** Every evidence event is an `EvidenciaEncontrada` event naming a linked case. */
  lemma {:induction false} EvidenceEventsKind(evidences: seq<Evidence>, rows: seq<Link>, cases: seq<Case>)
    ensures forall ev :: ev in EvidenceEvents(evidences, rows, cases) ==>
              ev.kind == EvidenciaEncontrada && exists c :: c in cases && c.id == ev.caseId
    decreases |evidences|
  {
    if evidences != [] {
      EvidenceEventsKind(evidences[1..], rows, cases);
      var c := FirstLinkedCase(rows, cases, evidences[0].id);
      if c.Some? {
        assert c.value in cases;
      }
    }
  }

  /** The events before sorting: the case events, then the evidence events. */
  function UnsortedEvents(cases: seq<Case>, evidences: seq<Evidence>, rows: seq<Link>): seq<TimelineEvent> {
    Map(CaseEvent, cases) + EvidenceEvents(evidences, rows, cases)
  }

  /** The timeline, oldest first; events with equal dates keep their unsorted order, so
      case events precede evidence events of the same instant. */
  function TimelineEvents(cases: seq<Case>, evidences: seq<Evidence>, rows: seq<Link>): (r: seq<TimelineEvent>)
    ensures |r| == |cases| + |EvidenceEvents(evidences, rows, cases)|
    ensures |r| == |cases| + |Filter(evidences, HasLinkedCase(rows, cases))|
    ensures multiset(r) == multiset(UnsortedEvents(cases, evidences, rows))
    ensures forall i, j :: 0 <= i < j < |r| ==> r[i].date <= r[j].date
    ensures forall c :: c in cases ==> CaseEvent(c) in r
  {
    var all := UnsortedEvents(cases, evidences, rows);
    var r := SortBy(all, DateOf);
    EvidenceEventsCount(evidences, rows, cases);
    CaseEventsUnsorted(cases, evidences, rows);
    r
  }

  lemma CaseEventsUnsorted(cases: seq<Case>, evidences: seq<Evidence>, rows: seq<Link>)
    ensures forall c :: c in cases ==> CaseEvent(c) in multiset(UnsortedEvents(cases, evidences, rows))
  {
    var all := UnsortedEvents(cases, evidences, rows);
    forall c | c in cases
      ensures CaseEvent(c) in multiset(all)
    {
      var i :| 0 <= i < |cases| && cases[i] == c;
      assert all[i] == CaseEvent(c);
    }
  }

  /** Stability: the events of any one date appear in their unsorted order. */
  lemma TimelineStable(cases: seq<Case>, evidences: seq<Evidence>, rows: seq<Link>, d: int)
    ensures KeyClass(TimelineEvents(cases, evidences, rows), DateOf, d)
            == KeyClass(UnsortedEvents(cases, evidences, rows), DateOf, d)
  {
    SortByStable(UnsortedEvents(cases, evidences, rows), DateOf, d);
  }
}

=== FILE: numbers.dfy ===
/** Integer arithmetic with JavaScript's semantics written out explicitly. */
module Numbers {

  function Max(a: int, b: int): (r: int)
    ensures r >= a && r >= b
    ensures r == a || r == b
  {
    if a >= b then a else b
  }

  function Min(a: int, b: int): (r: int)
    ensures r <= a && r <= b
    ensures r == a || r == b
  {
    if a <= b then a else b
  }

  /** `Math.round(a / b)` for a positive divisor: the nearest integer, halves rounded up. */
  function RoundDiv(a: int, b: int): (r: int)
    requires b > 0
    ensures 2 * r * b <= 2 * a + b < 2 * r * b + 2 * b
  {
    var q := (2 * a + b) / (2 * b);
    assert 2 * a + b == (2 * b) * q + (2 * a + b) % (2 * b);
    assert 2 * q * b == (2 * b) * q;
    q
  }

  /** A rounded quotient stays inside any integer interval that holds the exact quotient. */
  lemma {:induction false} RoundDivWithin(a: int, b: int, lo: int, hi: int)
    requires b > 0
    requires lo * b <= a <= hi * b
    ensures lo <= RoundDiv(a, b) <= hi
  {
    var r := RoundDiv(a, b);
    assert 2 * r * b == 2 * (r * b);
    assert (hi + 1) * b == hi * b + b;
    assert (lo - 1) * b == lo * b - b;
    if r > hi {
      MulMono(hi + 1, r, b);
      assert false;
    }
    if r < lo {
      MulMono(r, lo - 1, b);
      assert false;
    }
  }

  lemma MulMono(x: int, y: int, b: int)
    requires x <= y && b > 0
    ensures x * b <= y * b
  {
  }

  /** `Math.ceil(a / b)` for a positive divisor. */
  function CeilDiv(a: int, b: int): (r: int)
    requires b > 0
    ensures (r - 1) * b < a <= r * b
  {
    -((-a) / b)
  }

  /** JavaScript's `a % b` for a positive divisor: the remainder takes the sign of `a`,
      so it differs from Dafny's (never negative) remainder exactly when `a` is negative and
      not a multiple of `b`. */
  function JsRem(a: int, b: int): (r: int)
    requires b > 0
    ensures -b < r < b
    ensures a >= 0 ==> r == a % b
    ensures a < 0 ==> r <= 0 && (if a % b == 0 then r == 0 else r == a % b - b)
  {
    if a >= 0 then a % b
    else
      var m := (-a) % b;
      var q := (-a) / b;
      assert -a == b * q + m;
      assert a == b * (-q - 1) + (b - m) by { assert b * (-q - 1) == -(b * q) - b; }
      if m == 0 then
        assert a == b * (-q);
        EuclidUnique(a, b, -q, 0);
        0
      else
        EuclidUnique(a, b, -q - 1, b - m);
        -m
  }

  /** Dafny's division is the unique Euclidean one. */
  lemma EuclidUnique(a: int, b: int, q: int, m: int)
    requires b > 0 && 0 <= m < b && a == b * q + m
    ensures a % b == m && a / b == q
  {
    var q0, m0 := a / b, a % b;
    assert a == b * q0 + m0;
    if q0 > q {
      MulLe(b, q + 1, q0);
      assert false;
    } else if q0 < q {
      MulLe(b, q0 + 1, q);
      assert false;
    }
  }

  lemma MulLe(b: int, x: int, y: int)
    requires b > 0 && x <= y
    ensures b * x + b * (y - x) == b * y && b * (y - x) >= 0
  {
  }
}

=== FILE: permissions.dfy ===
/** What each role may do on the case screens. */
module Permissions {
  import opened Types

  /** `canEdit` / `canPerformActions`: the chief and the detectives may add and edit;
      forensic experts only read. */
  function CanEdit(role: UserRole): (r: bool)
    ensures r <==> role != PeritoForense
  {
    role == DelegadaChefe || role == Detetive
  }

  /** `canDelete`: only the chief may delete. */
  function CanDelete(role: UserRole): (r: bool)
    ensures r ==> CanEdit(role)
    ensures r <==> role != Detetive && role != PeritoForense
  {
    role == DelegadaChefe
  }

  /** The delete button of a case row: the chief only, and never for a critical case. */
  function CaseDeleteEnabled(role: UserRole, gravidade: CaseSeverity): (r: bool)
    ensures r ==> CanDelete(role) && CanEdit(role)
    ensures gravidade == Critico ==> !r
    ensures r <==> role == DelegadaChefe && gravidade != Critico
  {
    CanDelete(role) && gravidade != Critico
  }
}

=== FILE: relationship_map_page.dfy ===
/** The relationship map: a star-shaped graph with the case or suspect in focus at the
    centre and one spoke per connected person, case or item. Node positions are left out. */
module RelationshipMapPage {
  import opened Wrappers
  import opened Seqs
  import opened Types
  import opened Strings

  datatype NodeType = CaseNode | SuspectNode | DetectiveNode | VictimNode | WitnessNode | EvidenceNode

  function TypeName(t: NodeType): string {
    match t
    case CaseNode => "case"
    case SuspectNode => "suspect"
    case DetectiveNode => "detective"
    case VictimNode => "victim"
    case WitnessNode => "witness"
    case EvidenceNode => "evidence"
  }

  /** The record a node stands for. `FocusSuspect` is the suspect in focus, which carries
      its cases and associates. */
  datatype Entity =
    | CaseEntity(aCase: Case)
    | SuspectEntity(suspect: Suspect)
    | DetectiveEntity(detective: Detective)
    | VictimEntity(victim: Victim)
    | WitnessEntity(caseWitness: CaseWitness)
    | EvidenceEntity(evidence: Evidence)
    | FocusSuspect(focus: SuspectWithCases)

  function KindOf(e: Entity): NodeType {
    match e
    case CaseEntity(_) => CaseNode
    case SuspectEntity(_) => SuspectNode
    case DetectiveEntity(_) => DetectiveNode
    case VictimEntity(_) => VictimNode
    case WitnessEntity(_) => WitnessNode
    case EvidenceEntity(_) => EvidenceNode
    case FocusSuspect(_) => SuspectNode
  }

  /** The record's `id`; a case witness whose witness record is missing has none. */
  function EntityId(e: Entity): Option<int> {
    match e
    case CaseEntity(c) => Some(c.id)
    case SuspectEntity(s) => Some(s.id)
    case DetectiveEntity(d) => Some(d.id)
    case VictimEntity(v) => Some(v.id)
    case WitnessEntity(w) => if w.testemunha.Some? then Some(w.testemunha.value.id) else None
    case EvidenceEntity(x) => Some(x.id)
    case FocusSuspect(s) => Some(s.suspect.id)
  }

  /** `entity?.id` is truthy: present and not 0. */
  predicate HasTruthyId(e: Entity) {
    EntityId(e).Some? && EntityId(e).value != 0
  }

  /** JavaScript's `a || b` on possibly absent strings. */
  function JsOr(a: Option<string>, b: Option<string>): (r: Option<string>)
    ensures a.Some? && a.value != "" ==> r == a
    ensures !(a.Some? && a.value != "") ==> r == b
  {
    if a.Some? && a.value != "" then a else b
  }

  /** The record's `descricao`, `apelido` and `nome` fields, where it has them. */
  function Descricao(e: Entity): Option<string> {
    match e
    case CaseEntity(c) => Some(c.descricao)
    case EvidenceEntity(x) => Some(x.descricao)
    case _ => None
  }

  function Apelido(e: Entity): Option<string> {
    match e
    case SuspectEntity(s) => Some(s.apelido)
    case FocusSuspect(s) => Some(s.suspect.apelido)
    case _ => None
  }

  function Nome(e: Entity): Option<string> {
    match e
    case SuspectEntity(s) => Some(s.nome)
    case DetectiveEntity(d) => Some(d.nome)
    case VictimEntity(v) => Some(v.nome)
    case WitnessEntity(w) => if w.testemunha.Some? then Some(w.testemunha.value.nome) else None
    case FocusSuspect(s) => Some(s.suspect.nome)
    case _ => None
  }

  datatype Node = Node(id: string, nodeLabel: Option<string>, kind: NodeType, data: Entity)

  datatype Edge = Edge(id: string, source: string, target: string)

  datatype Graph = Graph(nodes: seq<Node>, edges: seq<Edge>)

  /** A node id: the type name, a dash, the record id. */
  function NodeId(e: Entity): string {
    TypeName(KindOf(e)) + "-" + IntToString(EntityId(e).GetOr(0))
  }

  /** The centre is labelled `descricao || apelido`. */
  function CentralNode(e: Entity): (n: Node)
    ensures n.id == NodeId(e) && n.kind == KindOf(e) && n.data == e
  {
    Node(NodeId(e), JsOr(Descricao(e), Apelido(e)), KindOf(e), e)
  }

  /** A spoke's node is labelled `descricao || apelido || nome`. */
  function SpokeNode(e: Entity): (n: Node)
    ensures n.id == NodeId(e) && n.kind == KindOf(e) && n.data == e
  {
    Node(NodeId(e), JsOr(JsOr(Descricao(e), Apelido(e)), Nome(e)), KindOf(e), e)
  }

  function SpokeEdge(centre: string, e: Entity): Edge {
    Edge(centre + "-" + NodeId(e), centre, NodeId(e))
  }

  /** The records connected to a case, group by group: suspects, detectives, victims,
      witnesses, evidence. */
  function CaseConnections(c: Case): (r: seq<Entity>)
    ensures |r| == |c.suspeitos| + |c.detetives| + |c.vitimas| + |c.testemunhas| + |c.evidencias|
    ensures forall e :: e in r <==>
              || (e.SuspectEntity? && e.suspect in c.suspeitos)
              || (e.DetectiveEntity? && e.detective in c.detetives)
              || (e.VictimEntity? && e.victim in c.vitimas)
              || (e.WitnessEntity? && e.caseWitness in c.testemunhas)
              || (e.EvidenceEntity? && e.evidence in c.evidencias)
    ensures forall i :: 0 <= i < |c.suspeitos| ==> r[i] == SuspectEntity(c.suspeitos[i])
    ensures forall i :: 0 <= i < |c.detetives| ==>
              r[|c.suspeitos| + i] == DetectiveEntity(c.detetives[i])
    ensures forall i :: 0 <= i < |c.vitimas| ==>
              r[|c.suspeitos| + |c.detetives| + i] == VictimEntity(c.vitimas[i])
    ensures forall i :: 0 <= i < |c.testemunhas| ==>
              r[|c.suspeitos| + |c.detetives| + |c.vitimas| + i] == WitnessEntity(c.testemunhas[i])
    ensures forall i :: 0 <= i < |c.evidencias| ==>
              r[|c.suspeitos| + |c.detetives| + |c.vitimas| + |c.testemunhas| + i] == EvidenceEntity(c.evidencias[i])
  {
    var ss := Map((s: Suspect) => SuspectEntity(s), c.suspeitos);
    var ds := Map((d: Detective) => DetectiveEntity(d), c.detetives);
    var vs := Map((v: Victim) => VictimEntity(v), c.vitimas);
    var ws := Map((w: CaseWitness) => WitnessEntity(w), c.testemunhas);
    var es := Map((x: Evidence) => EvidenceEntity(x), c.evidencias);
    MappedMembers(ss, c.suspeitos, (s: Suspect) => SuspectEntity(s));
    MappedMembers(ds, c.detetives, (d: Detective) => DetectiveEntity(d));
    MappedMembers(vs, c.vitimas, (v: Victim) => VictimEntity(v));
    MappedMembers(ws, c.testemunhas, (w: CaseWitness) => WitnessEntity(w));
    MappedMembers(es, c.evidencias, (x: Evidence) => EvidenceEntity(x));
    ss + ds + vs + ws + es
  }

  /** The records connected to a suspect: its cases, then its associates. */
  function SuspectConnections(s: SuspectWithCases): (r: seq<Entity>)
    ensures |r| == |s.allCases| + |s.associates|
    ensures forall e :: e in r <==>
              || (e.CaseEntity? && e.aCase in s.allCases)
              || (e.SuspectEntity? && e.suspect in s.associates)
    ensures forall i :: 0 <= i < |s.allCases| ==> r[i] == CaseEntity(s.allCases[i])
    ensures forall i :: 0 <= i < |s.associates| ==> r[|s.allCases| + i] == SuspectEntity(s.associates[i])
  {
    var cs := Map((c: Case) => CaseEntity(c), s.allCases);
    var as_ := Map((a: Suspect) => SuspectEntity(a), s.associates);
    MappedMembers(cs, s.allCases, (c: Case) => CaseEntity(c));
    MappedMembers(as_, s.associates, (a: Suspect) => SuspectEntity(a));
    cs + as_
  }

  lemma MappedMembers<A, B>(r: seq<B>, s: seq<A>, f: A -> B)
    requires |r| == |s| && forall i :: 0 <= i < |s| ==> r[i] == f(s[i])
    ensures forall y :: y in r <==> exists x :: x in s && y == f(x)
  {
    forall y | y in r
      ensures exists x :: x in s && y == f(x)
    {
      var i :| 0 <= i < |r| && r[i] == y;
      assert s[i] in s;
    }
    forall y | exists x :: x in s && y == f(x)
      ensures y in r
    {
      var x :| x in s && y == f(x);
      var i :| 0 <= i < |s| && s[i] == x;
      assert r[i] == y;
    }
  }

  /** The graph around `centre`: the centre first, then one node and one edge per
      connected record with a truthy id, in order. */
  function StarGraph(centre: Entity, connected: seq<Entity>): (g: Graph)
    ensures |g.nodes| >= 1 && g.nodes[0] == CentralNode(centre)
    ensures |g.edges| == |g.nodes| - 1
    ensures forall i :: 1 <= i < |g.nodes| ==> g.nodes[i].data in connected && HasTruthyId(g.nodes[i].data)
    ensures |g.nodes| == 1 + |Filter(connected, HasTruthyId)|
    ensures forall i :: 1 <= i < |g.nodes| ==> g.nodes[i] == SpokeNode(Spokes(connected)[i - 1])
    ensures forall i :: 0 <= i < |g.edges| ==> g.edges[i] == SpokeEdge(NodeId(centre), Spokes(connected)[i])
  {
    var spokes := Spokes(connected);
    var cid := NodeId(centre);
    var nodes := Map(SpokeNode, spokes);
    StarNodes(CentralNode(centre), spokes);
    assert |spokes| == |Filter(connected, HasTruthyId)|;
    Graph([CentralNode(centre)] + nodes, Map((e: Entity) => SpokeEdge(cid, e), spokes))
  }

  /** The node list of a star: the centre, then one node per spoke, in order. */
  lemma StarNodes(first: Node, spokes: seq<Entity>)
    ensures var nodes := [first] + Map(SpokeNode, spokes);
            && |nodes| == 1 + |spokes| && nodes[0] == first
            && forall i :: 1 <= i < |nodes| ==> nodes[i] == SpokeNode(spokes[i - 1]) && nodes[i].data == spokes[i - 1]
  {
    var nodes := [first] + Map(SpokeNode, spokes);
    forall i | 1 <= i < |nodes|
      ensures nodes[i] == SpokeNode(spokes[i - 1]) && nodes[i].data == spokes[i - 1]
    {
      assert nodes[i] == Map(SpokeNode, spokes)[i - 1];
    }
  }

  /** Spoke `i` joins the centre to node `i + 1`, and is named after the two. */
  lemma StarGraphSpokes(centre: Entity, connected: seq<Entity>, i: int)
    requires 0 <= i < |StarGraph(centre, connected).edges|
    ensures var g := StarGraph(centre, connected);
            && g.edges[i].source == g.nodes[0].id
            && g.edges[i].target == g.nodes[i + 1].id
            && g.edges[i].id == g.nodes[0].id + "-" + g.nodes[i + 1].id
  {
    var spokes := Spokes(connected);
    var g := StarGraph(centre, connected);
    ConsIndex(CentralNode(centre), Map(SpokeNode, spokes));
    assert g.nodes[i + 1] == SpokeNode(spokes[i]);
    assert g.edges[i] == SpokeEdge(NodeId(centre), spokes[i]);
  }

  lemma ConsIndex<T>(x: T, s: seq<T>)
    ensures forall i :: 0 <= i < |s| ==> ([x] + s)[i + 1] == s[i]
  {
  }

  /** The connected records that get a node: those with a truthy id, in order, each as
      often as it is connected. */
  function Spokes(connected: seq<Entity>): (r: seq<Entity>)
    ensures forall i :: 0 <= i < |r| ==> r[i] in connected && HasTruthyId(r[i])
    ensures forall e :: e in r <==> e in connected && HasTruthyId(e)
    ensures IsSubseq(r, connected)
    ensures forall e :: multiset(r)[e] == if HasTruthyId(e) then multiset(connected)[e] else 0
  {
    var r := Filter(connected, HasTruthyId);
    assert forall i :: 0 <= i < |r| ==> r[i] in r;
    r
  }

  /** Every connected record with a truthy id gets a node, and no other record does. */
  lemma StarGraphCoversConnections(centre: Entity, connected: seq<Entity>, e: Entity)
    ensures (exists i :: 1 <= i < |StarGraph(centre, connected).nodes| && StarGraph(centre, connected).nodes[i].data == e)
            <==> e in connected && HasTruthyId(e)
  {
    var g := StarGraph(centre, connected);
    var spokes := Spokes(connected);
    if e in connected && HasTruthyId(e) {
      var k :| 0 <= k < |spokes| && spokes[k] == e;
      assert g.nodes[k + 1] == SpokeNode(spokes[k]);
      assert g.nodes[k + 1].data == e;
    }
  }

  /** What the map is opened on. */
  datatype FocalType = FocalCase | FocalSuspect

  datatype FocalPoint = FocalPoint(kind: FocalType, id: int)

  /** The drawing area: not mounted, mounted with no size yet, or laid out. */
  datatype Container = Unmounted | ZeroSized | LaidOut

  /** What the effect does to the graph shown: empties it, leaves it, or replaces it. */
  datatype GraphUpdate = Clear | Keep | SetGraph(graph: Graph)

  /** The effect that builds the graph when the map opens. */
  function MapEffect(isOpen: bool, focal: Option<FocalPoint>, data: Option<ProcessedData>, container: Container): (u: GraphUpdate)
    ensures !isOpen || focal.None? || data.None? || container == Unmounted ==> u == Clear
    ensures isOpen && focal.Some? && data.Some? && container == ZeroSized ==> u == Keep
    ensures isOpen && focal.Some? && data.Some? && container == LaidOut && focal.value.kind == FocalCase ==>
              match Find(data.value.cases, (c: Case) => c.id == focal.value.id)
              case None => u == Keep
              case Some(c) => u == SetGraph(StarGraph(CaseEntity(c), CaseConnections(c)))
    ensures isOpen && focal.Some? && data.Some? && container == LaidOut && focal.value.kind == FocalSuspect ==>
              match Find(data.value.suspeitos, (s: SuspectWithCases) => s.suspect.id == focal.value.id)
              case None => u == Keep
              case Some(s) => u == SetGraph(StarGraph(FocusSuspect(s), SuspectConnections(s)))
  {
    if !isOpen || focal.None? || data.None? || container == Unmounted then Clear
    else if container == ZeroSized then Keep
    else if focal.value.kind == FocalCase then
      match Find(data.value.cases, (c: Case) => c.id == focal.value.id)
      case None => Keep
      case Some(c) => SetGraph(StarGraph(CaseEntity(c), CaseConnections(c)))
    else
      match Find(data.value.suspeitos, (s: SuspectWithCases) => s.suspect.id == focal.value.id)
      case None => Keep
      case Some(s) => SetGraph(StarGraph(FocusSuspect(s), SuspectConnections(s)))
  }

  /** A graph the effect draws is centred on the record in focus, which has the focal id. */
  lemma DrawnGraphIsCentredOnFocus(isOpen: bool, focal: Option<FocalPoint>, data: Option<ProcessedData>, container: Container)
    requires MapEffect(isOpen, focal, data, container).SetGraph?
    ensures var g := MapEffect(isOpen, focal, data, container).graph;
            && focal.Some?
            && EntityId(g.nodes[0].data) == Some(focal.value.id)
            && g.nodes[0].kind == (if focal.value.kind == FocalCase then CaseNode else SuspectNode)
            && |g.edges| == |g.nodes| - 1
  {
  }
}

=== FILE: seqs.dfy ===
/** Sequence combinators behind the program's `filter`, `find`, `new Set`, `sort` and `slice`. */
module Seqs {
  import opened Wrappers

  /** `a` is obtained from `b` by deleting some elements (order is kept). */
  predicate IsSubseq<T(==)>(a: seq<T>, b: seq<T>)
    decreases |b|
  {
    if a == [] then true
    else if b == [] then false
    else (a[0] == b[0] && IsSubseq(a[1..], b[1..])) || IsSubseq(a, b[1..])
  }

  /** No element occurs twice. */
  predicate Distinct<T(==)>(s: seq<T>) {
    forall i, j :: 0 <= i < j < |s| ==> s[i] != s[j]
  }

  /** `s.filter(p)`: the elements satisfying `p`, each with its full multiplicity, in order. */
  function Filter<T(==,!new)>(s: seq<T>, p: T -> bool): (r: seq<T>)
    ensures |r| <= |s|
    ensures forall x :: x in r <==> x in s && p(x)
    ensures forall x :: multiset(r)[x] == if p(x) then multiset(s)[x] else 0
    ensures IsSubseq(r, s)
    decreases |s|
  {
    if s == [] then []
    else
      var rest := Filter(s[1..], p);
      assert s == [s[0]] + s[1..];
      if p(s[0]) then
        assert ([s[0]] + rest)[1..] == rest;
        [s[0]] + rest
      else
        rest
  }

  /** A weaker test keeps at least as many elements. */
  lemma {:induction false} FilterMonotone<T(!new)>(s: seq<T>, p: T -> bool, q: T -> bool)
    requires forall x :: p(x) ==> q(x)
    ensures |Filter(s, p)| <= |Filter(s, q)|
    decreases |s|
  {
    if s != [] {
      assert s == [s[0]] + s[1..];
      FilterCons(s[0], s[1..], p);
      FilterCons(s[0], s[1..], q);
      FilterMonotone(s[1..], p, q);
    }
  }

  /** Filtering twice by the same predicate filters nothing more. */
  lemma {:induction false} FilterIdempotent<T(!new)>(s: seq<T>, p: T -> bool)
    ensures Filter(Filter(s, p), p) == Filter(s, p)
    decreases |s|
  {
    if s != [] {
      FilterIdempotent(s[1..], p);
      var rest := Filter(s[1..], p);
      if p(s[0]) {
        assert ([s[0]] + rest)[1..] == rest;
      }
    }
  }

  lemma FilterCons<T(!new)>(x: T, s: seq<T>, p: T -> bool)
    ensures Filter([x] + s, p) == (if p(x) then [x] else []) + Filter(s, p)
  {
    assert ([x] + s)[1..] == s;
  }

  /** Filtering distributes over concatenation. */
  lemma {:induction false} FilterConcat<T(!new)>(a: seq<T>, b: seq<T>, p: T -> bool)
    ensures Filter(a + b, p) == Filter(a, p) + Filter(b, p)
    decreases |a|
  {
    if a == [] {
      assert a + b == b;
    } else {
      var t := a[1..];
      var h := if p(a[0]) then [a[0]] else [];
      assert a == [a[0]] + t;
      calc {
        Filter(a + b, p);
        { assert a + b == [a[0]] + (t + b); }
        Filter([a[0]] + (t + b), p);
        { FilterCons(a[0], t + b, p); }
        h + Filter(t + b, p);
        { FilterConcat(t, b, p); }
        h + (Filter(t, p) + Filter(b, p));
        (h + Filter(t, p)) + Filter(b, p);
        { FilterCons(a[0], t, p); }
        Filter(a, p) + Filter(b, p);
      }
    }
  }

  /** Filtering by a predicate every element satisfies changes nothing. */
  lemma {:induction false} FilterAll<T(!new)>(s: seq<T>, p: T -> bool)
    requires forall i :: 0 <= i < |s| ==> p(s[i])
    ensures Filter(s, p) == s
    decreases |s|
  {
    if s != [] {
      assert s == [s[0]] + s[1..];
      FilterCons(s[0], s[1..], p);
      FilterAll(s[1..], p);
    }
  }

  /** An element and its complement split the sequence: every element lands in exactly
      one of the two filters. */
  lemma {:induction false} FilterComplement<T(!new)>(s: seq<T>, p: T -> bool, q: T -> bool)
    requires forall x :: q(x) <==> !p(x)
    ensures |Filter(s, p)| + |Filter(s, q)| == |s|
    decreases |s|
  {
    if s != [] {
      FilterComplement(s[1..], p, q);
    }
  }

  /** A subsequence keeps only elements of the original. */
  lemma {:induction false} SubseqMembers<T>(a: seq<T>, b: seq<T>)
    requires IsSubseq(a, b)
    ensures forall x :: x in a ==> x in b
    decreases |b|
  {
    if a != [] && b != [] {
      if a[0] == b[0] && IsSubseq(a[1..], b[1..]) {
        SubseqMembers(a[1..], b[1..]);
        assert a == [a[0]] + a[1..];
      } else {
        SubseqMembers(a, b[1..]);
      }
    }
  }

  /** A subsequence holds no more copies of anything than the original. */
  lemma {:induction false} SubseqMultiset<T>(a: seq<T>, b: seq<T>)
    requires IsSubseq(a, b)
    ensures multiset(a) <= multiset(b)
    decreases |b|
  {
    if a != [] && b != [] {
      assert b == [b[0]] + b[1..];
      if a[0] == b[0] && IsSubseq(a[1..], b[1..]) {
        SubseqMultiset(a[1..], b[1..]);
        assert a == [a[0]] + a[1..];
      } else {
        SubseqMultiset(a, b[1..]);
      }
    }
  }

  /** Every element of a subsequence of a duplicate-free sequence occurs once. */
  lemma {:induction false} SubseqDistinct<T>(a: seq<T>, b: seq<T>)
    requires IsSubseq(a, b) && Distinct(b)
    ensures Distinct(a)
    decreases |b|
  {
    if a != [] && b != [] {
      assert Distinct(b[1..]);
      if a[0] == b[0] && IsSubseq(a[1..], b[1..]) {
        SubseqDistinct(a[1..], b[1..]);
        SubseqMembers(a[1..], b[1..]);
        forall i, j | 0 <= i < j < |a|
          ensures a[i] != a[j]
        {
          if i == 0 {
            assert a[j] == a[1..][j - 1];
            assert a[j] in b[1..];
          } else {
            assert a[i] == a[1..][i - 1] && a[j] == a[1..][j - 1];
          }
        }
      } else {
        SubseqDistinct(a, b[1..]);
      }
    }
  }

  /** The first position whose element satisfies `p`. */
  function FirstIndex<T>(s: seq<T>, p: T -> bool): (r: Option<nat>)
    ensures r.Some? ==> r.value < |s| && p(s[r.value]) && forall j :: 0 <= j < r.value ==> !p(s[j])
    ensures r.None? ==> forall j :: 0 <= j < |s| ==> !p(s[j])
    decreases |s|
  {
    if s == [] then None
    else if p(s[0]) then Some(0)
    else
      match FirstIndex(s[1..], p)
      case None => None
      case Some(i) => Some(i + 1)
  }

  /** `s.find(p)`: the first element satisfying `p`, if any. */
  function Find<T>(s: seq<T>, p: T -> bool): (r: Option<T>)
    ensures r.None? <==> forall j :: 0 <= j < |s| ==> !p(s[j])
    ensures r.Some? ==> exists i :: 0 <= i < |s| && s[i] == r.value && p(s[i]) && forall j :: 0 <= j < i ==> !p(s[j])
  {
    match FirstIndex(s, p)
    case None => None
    case Some(i) => Some(s[i])
  }

  /** `s.indexOf(x)`, with `|s|` in place of -1: the first position holding `x`. */
  function IndexOf<T(==)>(s: seq<T>, x: T): (i: nat)
    ensures i <= |s|
    ensures i < |s| <==> x in s
    ensures i < |s| ==> s[i] == x
    ensures forall j :: 0 <= j < i ==> s[j] != x
    decreases |s|
  {
    if s == [] then 0
    else if s[0] == x then 0
    else 1 + IndexOf(s[1..], x)
  }

  /** `[...new Set(s)]`: each element once, at the place of its first occurrence. */
  function Dedup<T(==,!new)>(s: seq<T>): (r: seq<T>)
    ensures forall x :: x in r <==> x in s
    ensures Distinct(r)
    ensures IsSubseq(r, s)
    ensures forall i, j :: 0 <= i < j < |r| ==> IndexOf(s, r[i]) < IndexOf(s, r[j])
  {
    DedupFrom(s, {})
  }

  function DedupFrom<T(==,!new)>(s: seq<T>, seen: set<T>): (r: seq<T>)
    ensures forall x :: x in r <==> x in s && x !in seen
    ensures Distinct(r)
    ensures IsSubseq(r, s)
    ensures forall i, j :: 0 <= i < j < |r| ==> IndexOf(s, r[i]) < IndexOf(s, r[j])
    decreases |s|
  {
    if s == [] then []
    else if s[0] in seen then
      var rest := DedupFrom(s[1..], seen);
      assert forall i :: 0 <= i < |rest| ==> IndexOf(s, rest[i]) == 1 + IndexOf(s[1..], rest[i]);
      rest
    else
      var rest := DedupFrom(s[1..], seen + {s[0]});
      assert ([s[0]] + rest)[1..] == rest;
      assert forall i :: 0 <= i < |rest| ==> IndexOf(s, rest[i]) == 1 + IndexOf(s[1..], rest[i]);
      [s[0]] + rest
  }

  /** `s.map(f)`. */
  function Map<A, B>(f: A -> B, s: seq<A>): (r: seq<B>)
    ensures |r| == |s|
    ensures forall i :: 0 <= i < |s| ==> r[i] == f(s[i])
  {
    seq(|s|, i requires 0 <= i < |s| => f(s[i]))
  }

  lemma MapConcat<A, B>(f: A -> B, a: seq<A>, b: seq<A>)
    ensures Map(f, a + b) == Map(f, a) + Map(f, b)
  {
  }

  /** The elements whose key is `k`, in their original order. */
  function KeyClass<T>(s: seq<T>, key: T -> int, k: int): seq<T>
    decreases |s|
  {
    if s == [] then []
    else (if key(s[0]) == k then [s[0]] else []) + KeyClass(s[1..], key, k)
  }

  /** Keys never decrease along `s`. */
  predicate SortedBy<T>(s: seq<T>, key: T -> int) {
    forall i, j :: 0 <= i < j < |s| ==> key(s[i]) <= key(s[j])
  }

  /** Puts `x` in front of the first element whose key is at least `x`'s. */
  function Insert<T(==)>(x: T, s: seq<T>, key: T -> int): (r: seq<T>)
    ensures |r| == |s| + 1
    ensures multiset(r) == multiset(s) + multiset{x}
    decreases |s|
  {
    if s == [] || key(x) <= key(s[0]) then
      [x] + s
    else
      assert s == [s[0]] + s[1..];
      [s[0]] + Insert(x, s[1..], key)
  }

  /** Inserting into a sorted sequence keeps it sorted. */
  lemma {:induction false} InsertSorted<T>(x: T, s: seq<T>, key: T -> int)
    requires SortedBy(s, key)
    ensures SortedBy(Insert(x, s, key), key)
    decreases |s|
  {
    if s != [] && key(x) > key(s[0]) {
      var rest := Insert(x, s[1..], key);
      InsertSorted(x, s[1..], key);
      assert s == [s[0]] + s[1..];
      forall y | y in rest
        ensures key(s[0]) <= key(y)
      {
        assert y in multiset(rest);
        if y != x {
          assert y in multiset(s[1..]);
          var j :| 0 <= j < |s[1..]| && s[1..][j] == y;
          assert s[j + 1] == y;
        }
      }
      SortedCons(s[0], rest, key);
    }
  }

  lemma SortedCons<T>(h: T, t: seq<T>, key: T -> int)
    requires SortedBy(t, key)
    requires forall y :: y in t ==> key(h) <= key(y)
    ensures SortedBy([h] + t, key)
  {
    var r := [h] + t;
    forall i, j | 0 <= i < j < |r|
      ensures key(r[i]) <= key(r[j])
    {
      assert r[j] == t[j - 1];
      if i > 0 {
        assert r[i] == t[i - 1];
      } else {
        assert t[j - 1] in t;
      }
    }
  }

  /** The stable sort by ascending key that `Array.prototype.sort` performs with a
      consistent comparator; a descending sort is the ascending one on the negated key. */
  function SortBy<T(==)>(s: seq<T>, key: T -> int): (r: seq<T>)
    ensures |r| == |s|
    ensures multiset(r) == multiset(s)
    ensures SortedBy(r, key)
    decreases |s|
  {
    if s == [] then []
    else
      assert s == [s[0]] + s[1..];
      InsertSorted(s[0], SortBy(s[1..], key), key);
      Insert(s[0], SortBy(s[1..], key), key)
  }

  lemma {:induction false} InsertKeyClass<T>(x: T, s: seq<T>, key: T -> int, k: int)
    ensures KeyClass(Insert(x, s, key), key, k) == (if key(x) == k then [x] else []) + KeyClass(s, key, k)
    decreases |s|
  {
    if s == [] || key(x) <= key(s[0]) {
      assert ([x] + s)[1..] == s;
    } else {
      var rest := Insert(x, s[1..], key);
      InsertKeyClass(x, s[1..], key, k);
      assert ([s[0]] + rest)[1..] == rest;
    }
  }

  /** Stability: sorting keeps, for every key, the elements with that key in their
      original relative order. */
  lemma {:induction false} SortByStable<T>(s: seq<T>, key: T -> int, k: int)
    ensures KeyClass(SortBy(s, key), key, k) == KeyClass(s, key, k)
    decreases |s|
  {
    if s != [] {
      SortByStable(s[1..], key, k);
      InsertKeyClass(s[0], SortBy(s[1..], key), key, k);
    }
  }

  /** Taking the first `n` elements of a sorted sequence takes the `n` smallest keys:
      an element left out has a key no smaller than any kept one. */
  lemma TakeSortedIsLeast<T>(s: seq<T>, key: T -> int, n: nat)
    ensures var sorted := SortBy(s, key);
            var r := sorted[..if n < |s| then n else |s|];
            forall x, y :: x in r && y in s && key(y) < key(x) ==> y in r
  {
    var sorted := SortBy(s, key);
    var m := if n < |s| then n else |s|;
    var r := sorted[..m];
    forall x, y | x in r && y in s && key(y) < key(x)
      ensures y in r
    {
      assert y in multiset(s);
      assert y in sorted;
      var j :| 0 <= j < |sorted| && sorted[j] == y;
      var i :| 0 <= i < m && r[i] == x;
      assert sorted[i] == x;
      if j >= m {
        assert false;
      }
      assert r[j] == y;
    }
  }

  /** `s.slice(0, n)`. */
  function Take<T>(s: seq<T>, n: nat): (r: seq<T>)
    ensures |r| == if n < |s| then n else |s|
    ensures forall i :: 0 <= i < |r| ==> r[i] == s[i]
  {
    if n < |s| then s[..n] else s
  }

  /** The first `n` elements after a stable sort by `key`: the `n` elements with the least
      keys, in key order. Among elements of equal key, the ones kept are the earliest in
      `s`, in their order in `s`. */
  function TopBy<T(==)>(s: seq<T>, key: T -> int, n: nat): (r: seq<T>)
    ensures |r| == if n < |s| then n else |s|
    ensures multiset(r) <= multiset(s)
    ensures SortedBy(r, key)
    ensures forall x, y :: x in r && y in s && key(y) < key(x) ==> y in r
    ensures forall k :: KeyClass(r, key, k) <= KeyClass(s, key, k)
  {
    var sorted := SortBy(s, key);
    var r := Take(sorted, n);
    TakeSortedIsLeast(s, key, n);
    assert sorted == r + sorted[|r|..];
    TakeSortedTies(s, key, r, sorted[|r|..]);
    r
  }

  /** Below the key of anything kept, `TopBy` keeps every element, with every copy. */
  lemma TopByWholeClasses<T>(s: seq<T>, key: T -> int, n: nat)
    ensures var r := TopBy(s, key, n);
            forall x, y :: x in r && y in s && key(y) < key(x) ==> KeyClass(r, key, key(y)) == KeyClass(s, key, key(y))
  {
    var sorted := SortBy(s, key);
    var r := TopBy(s, key, n);
    assert r == sorted[..|r|];
    assert sorted == r + sorted[|r|..];
    TakeSortedWholeClasses(s, key, r, sorted[|r|..]);
  }

  /** No element of key `k` leaves an empty class. */
  lemma {:induction false} KeyClassEmpty<T>(s: seq<T>, key: T -> int, k: int)
    requires forall i :: 0 <= i < |s| ==> key(s[i]) != k
    ensures KeyClass(s, key, k) == []
    decreases |s|
  {
    if s != [] {
      KeyClassEmpty(s[1..], key, k);
    }
  }

  /** A prefix of the stably sorted sequence holds every element of a key below one it
      holds, with every copy. */
  lemma TakeSortedWholeClasses<T>(s: seq<T>, key: T -> int, r: seq<T>, rest: seq<T>)
    requires SortBy(s, key) == r + rest
    ensures forall x, y :: x in r && y in s && key(y) < key(x) ==> KeyClass(r, key, key(y)) == KeyClass(s, key, key(y))
  {
    var sorted := SortBy(s, key);
    forall x, y | x in r && y in s && key(y) < key(x)
      ensures KeyClass(r, key, key(y)) == KeyClass(s, key, key(y))
    {
      var i :| 0 <= i < |r| && r[i] == x;
      assert sorted[i] == x;
      forall j | 0 <= j < |rest|
        ensures key(rest[j]) != key(y)
      {
        assert sorted[|r| + j] == rest[j];
      }
      KeyClassEmpty(rest, key, key(y));
      KeyClassConcat(r, rest, key, key(y));
      SortByStable(s, key, key(y));
      assert KeyClass(r, key, key(y)) + [] == KeyClass(r, key, key(y));
    }
  }

  /** The elements of key `k` in a concatenation are those of each part, in turn. */
  lemma {:induction false} KeyClassConcat<T>(a: seq<T>, b: seq<T>, key: T -> int, k: int)
    ensures KeyClass(a + b, key, k) == KeyClass(a, key, k) + KeyClass(b, key, k)
    decreases |a|
  {
    if a == [] {
      assert a + b == b;
    } else {
      assert (a + b)[0] == a[0] && (a + b)[1..] == a[1..] + b;
      KeyClassConcat(a[1..], b, key, k);
      var h := if key(a[0]) == k then [a[0]] else [];
      assert KeyClass(a + b, key, k) == h + (KeyClass(a[1..], key, k) + KeyClass(b, key, k));
    }
  }

  /** A prefix of the stably sorted sequence keeps, for every key, a prefix of that key's
      elements in their original order. */
  lemma TakeSortedTies<T>(s: seq<T>, key: T -> int, r: seq<T>, rest: seq<T>)
    requires SortBy(s, key) == r + rest
    ensures forall k :: KeyClass(r, key, k) <= KeyClass(s, key, k)
  {
    forall k
      ensures KeyClass(r, key, k) <= KeyClass(s, key, k)
    {
      SortByStable(s, key, k);
      KeyClassConcat(r, rest, key, k);
      var a, b := KeyClass(r, key, k), KeyClass(rest, key, k);
      assert (a + b)[..|a|] == a;
    }
  }

  /** Two positions holding the same value make its multiplicity at least two. */
  lemma PositionsCount<T>(s: seq<T>, a: int, b: int)
    requires 0 <= a < b < |s| && s[a] == s[b]
    ensures multiset(s)[s[a]] >= 2
  {
    assert s == s[..b] + s[b..];
    assert s[a] in s[..b];
    assert s[b..] == [s[b]] + s[b + 1..];
  }

  /** Elements with pairwise different keys occur once each. */
  lemma {:induction false} DistinctKeysOnce<T, K>(s: seq<T>, key: T -> K, i: int)
    requires forall a, b :: 0 <= a < b < |s| ==> key(s[a]) != key(s[b])
    requires 0 <= i < |s|
    ensures multiset(s)[s[i]] == 1
  {
    assert s == s[..i] + [s[i]] + s[i + 1..];
    if s[i] in s[..i] {
      assert false;
    }
    if s[i] in s[i + 1..] {
      assert false;
    }
  }

  /** Picking elements of a sequence with distinct keys, each at most as often as it
      occurs, keeps the keys distinct. */
  lemma PickedKeysDistinct<T, K>(s: seq<T>, p: seq<T>, key: T -> K, a: int, b: int)
    requires multiset(p) <= multiset(s)
    requires forall i, j :: 0 <= i < j < |s| ==> key(s[i]) != key(s[j])
    requires 0 <= a < b < |p|
    ensures key(p[a]) != key(p[b])
  {
    assert p[a] in multiset(s) && p[b] in multiset(s);
    var i :| 0 <= i < |s| && s[i] == p[a];
    var j :| 0 <= j < |s| && s[j] == p[b];
    if i == j {
      PositionsCount(p, a, b);
      DistinctKeysOnce(s, key, i);
      assert false;
    } else if i < j {
      assert key(s[i]) != key(s[j]);
    } else {
      assert key(s[j]) != key(s[i]);
    }
  }

  /** Sum of a sequence of integers. */
  function Sum(s: seq<int>): int
    decreases |s|
  {
    if s == [] then 0 else s[0] + Sum(s[1..])
  }

  /** A sum of terms each within `[lo, hi]` lies within `[|s| * lo, |s| * hi]`. */
  lemma {:induction false} SumBounds(s: seq<int>, lo: int, hi: int)
    requires forall i :: 0 <= i < |s| ==> lo <= s[i] <= hi
    ensures |s| * lo <= Sum(s) <= |s| * hi
    decreases |s|
  {
    if s != [] {
      SumBounds(s[1..], lo, hi);
      assert |s| * lo == lo + (|s| - 1) * lo;
      assert |s| * hi == hi + (|s| - 1) * hi;
    }
  }
}

=== FILE: strings.dfy ===
/** The few string operations the program relies on: decimal rendering of integers
    (`n.toString()`, template literals) and substring search (`String.prototype.includes`). */
module Strings {

  predicate IsDigit(c: char) {
    '0' <= c <= '9'
  }

  function DigitChar(d: int): (c: char)
    requires 0 <= d < 10
    ensures IsDigit(c)
  {
    (48 + d) as char
  }

  function DigitValue(c: char): int {
    c as int - 48
  }

  /** Decimal digits of a natural number, most significant first, without leading zeros. */
  function NatToString(n: nat): (s: string)
    ensures |s| > 0
    ensures forall i :: 0 <= i < |s| ==> IsDigit(s[i])
    ensures |s| > 1 ==> s[0] != '0'
    decreases n
  {
    if n < 10 then [DigitChar(n)] else NatToString(n / 10) + [DigitChar(n % 10)]
  }

  /** The value of a string of decimal digits (reads the last digit as the units). */
  function ParseDigits(s: string): int
    decreases |s|
  {
    if s == [] then 0 else 10 * ParseDigits(s[..|s| - 1]) + DigitValue(s[|s| - 1])
  }

  /** Rendering then reading back the digits gives the number again. */
  lemma {:induction false} NatToStringRoundTrip(n: nat)
    ensures ParseDigits(NatToString(n)) == n
    decreases n
  {
    if n >= 10 {
      var s := NatToString(n / 10);
      NatToStringRoundTrip(n / 10);
      assert (s + [DigitChar(n % 10)])[..|s|] == s;
    }
  }

  /** JavaScript's rendering of an integer-valued number: a minus sign, then the digits. */
  function IntToString(n: int): (s: string)
    ensures n >= 0 ==> s == NatToString(n)
    ensures n < 0 ==> s == "-" + NatToString(-n)
  {
    if n >= 0 then NatToString(n) else "-" + NatToString(-n)
  }

  /** `s.includes(t)`: `t` occurs in `s` as a contiguous block. */
  predicate Contains(s: string, t: string)
    decreases |s|
  {
    t <= s || (|s| > 0 && Contains(s[1..], t))
  }

  /** `t` starts at position `i` of `s`. */
  predicate OccursAt(s: string, t: string, i: int) {
    0 <= i && i + |t| <= |s| && s[i..i + |t|] == t
  }

  /** `Contains` agrees with the positional definition of a substring. */
  lemma {:induction false} ContainsAt(s: string, t: string)
    ensures Contains(s, t) <==> exists i :: OccursAt(s, t, i)
    decreases |s|
  {
    if t <= s {
      assert OccursAt(s, t, 0);
    } else if |s| > 0 {
      ContainsAt(s[1..], t);
      if Contains(s[1..], t) {
        var i :| OccursAt(s[1..], t, i);
        assert s[i + 1..i + 1 + |t|] == s[1..][i..i + |t|];
        assert OccursAt(s, t, i + 1);
      } else {
        forall i
          ensures !OccursAt(s, t, i)
        {
          if 0 < i && i + |t| <= |s| {
            assert s[i..i + |t|] == s[1..][i - 1..i - 1 + |t|];
            assert !OccursAt(s[1..], t, i - 1);
          }
        }
      }
    } else {
      assert forall i :: OccursAt(s, t, i) ==> t <= s;
    }
  }

  /** The empty string occurs in every string. */
  lemma ContainsEmpty(s: string)
    ensures Contains(s, "")
  {
  }

  /** JavaScript's `<` on strings: lexicographic order on characters, a proper prefix
      coming first. */
  predicate StrLess(a: string, b: string)
    decreases |a|
  {
    if a == [] then b != []
    else if b == [] then false
    else if a[0] != b[0] then a[0] < b[0]
    else StrLess(a[1..], b[1..])
  }

  lemma {:induction false} StrLessIrreflexive(a: string)
    ensures !StrLess(a, a)
    decreases |a|
  {
    if a != [] {
      StrLessIrreflexive(a[1..]);
    }
  }

  lemma {:induction false} StrLessTransitive(a: string, b: string, c: string)
    requires StrLess(a, b) && StrLess(b, c)
    ensures StrLess(a, c)
    decreases |a|
  {
    if a != [] && b != [] && c != [] && a[0] == b[0] && b[0] == c[0] {
      StrLessTransitive(a[1..], b[1..], c[1..]);
    }
  }

  lemma {:induction false} StrLessTotal(a: string, b: string)
    requires a != b
    ensures StrLess(a, b) || StrLess(b, a)
    decreases |a|
  {
    if a != [] && b != [] && a[0] == b[0] {
      assert a == [a[0]] + a[1..] && b == [b[0]] + b[1..];
      StrLessTotal(a[1..], b[1..]);
    }
  }

  /** The position a string takes among `values` when they are sorted: how many of them
      come strictly before it. */
  function StrRank(values: set<string>, x: string): nat {
    |set y | y in values && StrLess(y, x)|
  }

  /** Ranks among `values` order the members of `values` exactly as `StrLess` does. */
  lemma StrRankOrder(values: set<string>, x: string, y: string)
    requires x in values && y in values && StrLess(x, y)
    ensures StrRank(values, x) < StrRank(values, y)
  {
    var below := set z | z in values && StrLess(z, x);
    var belowY := set z | z in values && StrLess(z, y);
    forall z | z in below
      ensures z in belowY
    {
      StrLessTransitive(z, x, y);
    }
    StrLessIrreflexive(x);
    assert x in belowY && x !in below;
    assert below <= belowY - {x};
    SubsetCard(below, belowY - {x});
  }

  lemma {:induction false} SubsetCard<T>(a: set<T>, b: set<T>)
    requires a <= b
    ensures |a| <= |b|
    decreases |b|
  {
    if a != {} {
      var x :| x in a;
      SubsetCard(a - {x}, b - {x});
    }
  }
}

=== FILE: types.dfy ===
/** The records of the investigation dashboard: the normalised tables and join rows the
    application stores (`RawData`) and the denormalised view every screen reads
    (`ProcessedData`). Dates and timestamps are instants in milliseconds since the epoch,
    which is what the program compares after `new Date(..).getTime()`. */
module Types {
  import opened Wrappers

  type Time = int

  datatype UserRole = DelegadaChefe | Detetive | PeritoForense

  datatype CaseStatus = Investigacao | Resolvido | Arquivada | Reaberta

  datatype CaseSeverity = Critico | Gravissimo | Grave | Medio | Baixo

  datatype WitnessReliability = Alta | Media | Baixa

  datatype VictimStatus = Viva | Morta | Desaparecida

  datatype AnalysisType = Dna | ImpressaoDigital | Balistica | Fibra

  datatype AnalysisStatus = Pendente | Correspondencia | SemCorrespondencia

  datatype AttachmentType = Image | Pdf | Audio

  /** A case still being worked on: under investigation or reopened. */
  predicate IsActive(s: CaseStatus) {
    s == Investigacao || s == Reaberta
  }

  // ---- stored tables ----

  datatype RawDetective = RawDetective(id: int, nome: string, cargo: string, especialidade: string)

  datatype Physique = Physique(altura: string, peso: string, marcasDistintivas: string)

  datatype RawSuspect = RawSuspect(
    id: int, nome: string, apelido: string, idade: Option<int>,
    historicoCriminal: string, fisico: Physique)

  datatype Anexo = Anexo(
    id: string, name: string, kind: AttachmentType, thumbnail: string,
    addedBy: string, timestamp: Time)

  /** A stored case; `anexos` may be absent, which every reader treats as empty. */
  datatype RawCase = RawCase(
    id: int, descricao: string, dataOcorrido: Time, dataFinalizacao: Option<Time>,
    cidade: string, status: CaseStatus, gravidade: CaseSeverity, anexos: Option<seq<Anexo>>)

  datatype RawVictim = RawVictim(id: int, nome: string, idade: int, ocupacao: string)

  datatype CustodyEntry = CustodyEntry(timestamp: Time, user: string, action: string)

  datatype Evidence = Evidence(
    id: int, descricao: string, dataDescoberta: Time, localEncontrado: string,
    analiseForense: bool, chainOfCustody: seq<CustodyEntry>)

  datatype Witness = Witness(id: int, nome: string, confiabilidade: WitnessReliability)

  datatype RawAnalysis = RawAnalysis(
    id: int, idCaso: int, idEvidencia: int, idSuspeitoMatch: Option<int>,
    tipo: AnalysisType, status: AnalysisStatus)

  /** A row of one of the four plain join tables: case id and the linked entity's id. */
  datatype Link = Link(idCaso: int, idEntidade: int)

  /** A row of the case–witness table, carrying one testimony. */
  datatype Testimony = Testimony(idCaso: int, idTestemunha: int, depoimento: string)

  datatype RawData = RawData(
    detectivesRaw: seq<RawDetective>,
    suspectsRaw: seq<RawSuspect>,
    casesRaw: seq<RawCase>,
    victimsRaw: seq<RawVictim>,
    evidencesRaw: seq<Evidence>,
    witnessesRaw: seq<Witness>,
    forenseAnalysesRaw: seq<RawAnalysis>,
    casosDetetives: seq<Link>,
    casosSuspeitos: seq<Link>,
    casosEvidencias: seq<Link>,
    casosVitimas: seq<Link>,
    casosTestemunhas: seq<Testimony>)

  // ---- derived view ----

  datatype Detective = Detective(id: int, nome: string, cargo: string, especialidade: string, foto: string)

  datatype Suspect = Suspect(
    id: int, nome: string, apelido: string, idade: Option<int>,
    historicoCriminal: string, fisico: Physique, pontuacaoPerigo: int, foto: string)

  /** `status` is `None` where the program's array lookup yields `undefined`. */
  datatype Victim = Victim(id: int, nome: string, idade: int, ocupacao: string, status: Option<VictimStatus>)

  /** A witness of one case with that case's testimonies; `testemunha` is `None` when the
      testimony rows name a witness id that is not in the witness table. */
  datatype CaseWitness = CaseWitness(testemunha: Option<Witness>, depoimentos: seq<string>)

  datatype Case = Case(
    id: int, descricao: string, dataOcorrido: Time, dataFinalizacao: Option<Time>,
    cidade: string, status: CaseStatus, gravidade: CaseSeverity,
    tempoAtivoDias: int,
    detetives: seq<Detective>,
    suspeitos: seq<Suspect>,
    vitimas: seq<Victim>,
    testemunhas: seq<CaseWitness>,
    evidencias: seq<Evidence>,
    isCriminalCell: bool,
    anexos: seq<Anexo>)

  datatype DetectiveWithStats = DetectiveWithStats(
    detective: Detective, cases: seq<Case>, totalCases: int, resolvedCases: int, successRate: int)

  datatype SuspectWithCases = SuspectWithCases(
    suspect: Suspect, activeCases: seq<Case>, allCases: seq<Case>,
    isKeySuspect: bool, associates: seq<Suspect>)

  datatype VictimWithCase = VictimWithCase(victim: Victim, linkedCase: Option<Case>)

  datatype WitnessWithCaseCount = WitnessWithCaseCount(testemunha: Witness, caseCount: int, depoimentos: seq<string>)

  datatype EvidenceWithCase = EvidenceWithCase(evidence: Evidence, linkedCase: Option<Case>)

  /** The canned forensic report text attached to an analysis (an opaque lookup). */
  datatype AIForenseAnalysis = AIForenseAnalysis(conclusion: string, summary: string)

  datatype ForenseAnalysis = ForenseAnalysis(
    analysis: RawAnalysis, linkedCase: Option<Case>, evidence: Option<Evidence>,
    suspectMatch: Option<Suspect>, aiReport: Option<AIForenseAnalysis>)

  datatype Stats = Stats(
    totalActiveCases: int, criticalCases: int, highDangerSuspects: int,
    averageSuccessRate: int, averageCaseAge: int)

  datatype NamedCount = NamedCount(name: string, count: int)

  datatype StatusCount = StatusCount(name: VictimStatus, count: int)

  datatype VictimStats = VictimStats(
    commonOccupations: seq<NamedCount>, averageAge: int,
    statusDistribution: seq<StatusCount>, ageDistribution: seq<NamedCount>)

  datatype EventType = OcorrenciaDeCaso | EvidenciaEncontrada

  datatype TimelineEvent = TimelineEvent(
    date: Time, kind: EventType, description: string, caseId: int, caseDescription: string)

  datatype ProcessedData = ProcessedData(
    detectives: seq<DetectiveWithStats>,
    suspeitos: seq<SuspectWithCases>,
    cases: seq<Case>,
    victims: seq<VictimWithCase>,
    witnesses: seq<WitnessWithCaseCount>,
    evidences: seq<EvidenceWithCase>,
    forenseAnalyses: seq<ForenseAnalysis>,
    stats: Stats,
    victimStats: VictimStats,
    timelineEvents: seq<TimelineEvent>)

  // Identifier accessors, passed to the generic sequence combinators.
  function DetectiveId(d: Detective): int { d.id }
  function SuspectId(s: Suspect): int { s.id }
  function VictimId(v: Victim): int { v.id }
  function EvidenceId(e: Evidence): int { e.id }
  function WitnessId(w: Witness): int { w.id }
  function CaseId(c: Case): int { c.id }
}

=== FILE: wrappers.dfy ===
/** Optional values: the model's stand-in for `undefined`, `null` and optional fields. */
module Wrappers {

  datatype Option<+T> = None | Some(value: T) {

    /** The wrapped value, or `default` when there is none (JavaScript's `x || default`). */
    function GetOr(default: T): T {
      match this
      case Some(v) => v
      case None => default
    }
  }
}
